=== FILE: README.md ===
# H-FSC scheduler and companion cores, modelled in Dafny

This project models the Hierarchical Fair Service Curve packet scheduler of Linux 2.6.14 (`net/sched/sch_hfsc.c`). It also models four small, self-contained pieces from the same repository:

- the answer-merging rules of the GlusterFS erasure-coding translator (`ec-combine.c`);
- the ESSID escaper of the IEEE 802.11 stack (`escape_essid`);
- the AUTH_NULL flavour of ONC RPC, section 9.1 of RFC 1831 (`auth_null.c`);
- the per-protocol netfilter logger registry (`nf_log.c`).

Everything is written as immutable datatypes and pure functions. A few loops are methods. The verifier proves every contract below.

## Layout

| file | module | what it holds |
|---|---|---|
| `wrappers.dfy` | `Wrappers` | `Option` and `Result` (an error is a negative errno) |
| `errno.dfy` | `Errno` | the errno values the code returns |
| `fixed.dfy` | `Fixed` | `u32`/`u64`, explicit 2^32/2^64 wrap-around, min/max, division facts |
| `curves.dfy` | `Curves` | service-curve fixed-point arithmetic: `seg_x2y` … `rtsc_min` |
| `index.dfy` | `Index` | the three rb-tree indexes, as sorted sequences of (key, class) entries, and their queries |
| `hfsc_state.dfy` | `HfscState` | classes, the scheduler state, and the walk from a class to the root |
| `hfsc_ed.dfy` | `HfscEd` | eligible time and deadline: `init_ed`, `update_ed`, `update_d` |
| `hfsc_vf.dfy` | `HfscVf` | virtual time and fit time: `init_vf`, `update_vf`, `update_cfmin` |
| `hfsc_sched.dfy` | `HfscSched` | `set_active`/`set_passive`, queue purge, class selection, watchdog, enqueue, dequeue, requeue |
| `hfsc_config.dfy` | `HfscConfig` | `hfsc_hash`, level maintenance, `hfsc_change_class`, `hfsc_delete_class` |
| `ec_combine.dfy` | `EcCombine` | iatt/statvfs merging, block rebuild, combine check, concat format, per-node max, vector and lock compare |
| `essid.dfy` | `Essid` | `escape_essid` |
| `auth_null.dfy` | `AuthNull` | `nul_marshal`, `nul_validate`, `nul_match`, `nul_refresh` |
| `nf_log.dfy` | `NfLog` | `nf_log_register`, `nf_log_unregister_pf`, `nf_log_unregister_logger`, dispatch in `nf_log_packet` |

## How the scheduler is represented

The scheduler is modelled as follows:

- **Classes.** The scheduler state `Sched` keeps two maps from class id to record:
  - `classes` holds each class's tree node, configuration, packet queue and real-time state;
  - `ls` holds its link-sharing state, meaning its virtual-time fields and its children's indexes.
- **Indexes.** Each rb-tree becomes a sequence sorted by key. An equal key is inserted after the existing ones, as the tree walk goes right on ties.
- **Walks to the root.** `init_vf`, `update_vf` and `hfsc_adjust_levels` walk from a class to the root. `HfscState.Chain` gives that walk: the parent chain, cut at the first repeated or unknown class.
- **Arithmetic.** Every `u64`/`u32` addition, subtraction and multiplication that C performs is wrapped explicitly with `Wrap64`/`Wrap32`. For example, `cl_vt = rtsc_y2x(...) - cl_vtoff + cl_vtadj` is computed mod 2^64.
- **Clock.** The clock is a parameter (`now`), and `PSCHED_JIFFIE2US(HZ)` is fixed at 10^6, the microsecond clock.
- **Child queue.** Each class's child qdisc is a FIFO of packet lengths. The enqueue verdict of the child qdisc is a parameter.

Four places where the source's behaviour looks unintended are modelled twice, in the code's form and in the corrected form, under "Findings". The operations built on them use the corrected forms, and "Left out" names each one that does. The corrected `rtsc_min` is used at all three of its call sites: `init_ed`, and the virtual and upper-limit curves of `init_vf`.

The eligible index is tied to the classes by an invariant, `HfscState.ElTreeWf`. It says the index holds exactly the backlogged classes with a real-time curve, once each, in key order, each under its own `cl_e`. Enqueue, dequeue, the corrected class change and class deletion are proved to keep it.

## Model

| member | source | states |
|---|---|---|
| Curves.SegY2X | 3rd/linux-2.6.14/linux-2.6.14/net/sched/sch_hfsc.c:455-468 | y = 0 gives 0 and an infinite inverse slope gives HT_INFINITY, the two special cases ahead of the fixed-point division |
| Curves.SegX2YIsExact | 3rd/linux-2.6.14/linux-2.6.14/net/sched/sch_hfsc.c:441-452 | seg_x2y's split into high and low 20-bit parts computes exactly floor(x·sm / 2^20) whenever that value fits in 64 bits |
| Curves.SegY2XIsExact | 3rd/linux-2.6.14/linux-2.6.14/net/sched/sch_hfsc.c:455-468 | for a finite inverse slope, seg_y2x computes exactly floor(y·ism / 2^18) whenever that value fits in 64 bits |
| Curves.SegX2YZero | 3rd/linux-2.6.14/linux-2.6.14/net/sched/sch_hfsc.c:441-452 | no service is received over a zero-length interval |
| Curves.M2Sm | 3rd/linux-2.6.14/linux-2.6.14/net/sched/sch_hfsc.c:472-480 | the scaled slope is the ceiling of m·2^20 / ticks-per-second, it is 0 exactly for a zero rate, and it stays below 2^33 |
| Curves.M2Ism | 3rd/linux-2.6.14/linux-2.6.14/net/sched/sch_hfsc.c:484-496 | a zero rate has inverse slope HT_INFINITY; otherwise the inverse slope is the ceiling of ticks-per-second·2^18 / m |
| Curves.D2Dx | 3rd/linux-2.6.14/linux-2.6.14/net/sched/sch_hfsc.c:500-508 | the burst length in ticks is the ceiling of d·ticks-per-second / 10^6, and is d itself on the microsecond clock |
| Curves.Sc2Isc | 3rd/linux-2.6.14/linux-2.6.14/net/sched/sch_hfsc.c:532-540 | the internal curve is well formed: slopes and inverse slopes agree on zero/infinite, they stay in range, and dy = seg_x2y(dx, sm1) |
| Curves.RtscInit | 3rd/linux-2.6.14/linux-2.6.14/net/sched/sch_hfsc.c:547-557 | the runtime curve keeps the internal curve's shape, is anchored at (x, y), and evaluates to y at x |
| Curves.RtscX2Y | 3rd/linux-2.6.14/linux-2.6.14/net/sched/sch_hfsc.c:585-599 | any x at or before the anchor maps to the anchor's y |
| Curves.RtscY2X | 3rd/linux-2.6.14/linux-2.6.14/net/sched/sch_hfsc.c:564-582 | any y below the anchor's y maps to the anchor's x; with dy = 0 the anchor's y maps to the end of the first segment |
| Curves.RtscX2YIsExact | 3rd/linux-2.6.14/linux-2.6.14/net/sched/sch_hfsc.c:585-599 | without overflow, rtsc_x2y is the exact two-segment piecewise-linear curve (flat before x, slope sm1 for dx, then slope sm2) |
| Curves.RtscX2YMonotone | 3rd/linux-2.6.14/linux-2.6.14/net/sched/sch_hfsc.c:585-599 | rtsc_x2y never decreases as x grows, given dy = seg_x2y(dx, sm1) and no overflow |
| Curves.RtscX2YContinuous | 3rd/linux-2.6.14/linux-2.6.14/net/sched/sch_hfsc.c:585-599 | the two segments meet at the break x+dx: the first segment ends where the second begins |
| Curves.RtscY2XIsExact | 3rd/linux-2.6.14/linux-2.6.14/net/sched/sch_hfsc.c:564-582 | without overflow, rtsc_y2x is the exact inverse of the two-segment curve and never returns less than the anchor x |
| Curves.RtscY2XZeroRateWraps | 3rd/linux-2.6.14/linux-2.6.14/net/sched/sch_hfsc.c:575-581 | past the end of a curve whose second slope is zero, rtsc_y2x answers x+dx-1 rather than "never", because HT_INFINITY plus x wraps |
| Curves.RtscMinSpec | 3rd/linux-2.6.14/linux-2.6.14/net/sched/sch_hfsc.c:606-666 | the new curve's value at x is min(old value at x, y); it is unchanged when the old curve lies below (strictly for convex, or equal for concave); otherwise it is re-anchored at (x, y), its slopes are kept and dy = seg_x2y(dx, sm1) is kept |
| Curves.RtscMinAt | 3rd/linux-2.6.14/linux-2.6.14/net/sched/sch_hfsc.c:606-666 | after rtsc_min the curve passes through min(old value at x, y) at x |
| Curves.RtscMinIntersectOffset | 3rd/linux-2.6.14/linux-2.6.14/net/sched/sch_hfsc.c:644-652 | the intersection offset dx is the time still left on the old curve's first segment plus d, the largest offset at which sm1 has gained no more than the gap y1 - y over sm2, so one tick later it has gained more |
| Curves.RtscMinConvexNotMin | 3rd/linux-2.6.14/linux-2.6.14/net/sched/sch_hfsc.c:609-620 | the convex case compares the two curves at x only: a curve kept because it is below y at x can read 95 at 105 where the curve anchored at (100, 91) reads 91, so the result is not the pointwise minimum |
| Curves.RtscMinAsWrittenAgrees | 3rd/linux-2.6.14/linux-2.6.14/net/sched/sch_hfsc.c:609-652 | when sm1-sm2 fits in 32 bits, the code's u32 dsm gives the same curve as the intended 64-bit difference |
| Curves.RtscMinDivisorTruncated | 3rd/linux-2.6.14/linux-2.6.14/net/sched/sch_hfsc.c:609-652 | a real-time curve with m1 = 4096000000 and m2 = 0 makes the u32 dsm zero, so the intersect branch divides by zero; the corrected rtsc_min gives dx = 999 |
| Index.InsertPos | 3rd/linux-2.6.14/linux-2.6.14/net/sched/sch_hfsc.c:235-251 | the insertion point of a key in a sorted index has every smaller-or-equal key before it and every greater key after it |
| Index.InsertSpec | 3rd/linux-2.6.14/linux-2.6.14/net/sched/sch_hfsc.c:235-251 | insert adds exactly the new entry (as a multiset) and keeps the index sorted |
| Index.InsertPlacement | 3rd/linux-2.6.14/linux-2.6.14/net/sched/sch_hfsc.c:235-251 | the entry goes after every entry with an equal key, as the rb-tree walk goes right on equal keys |
| Index.InsertHandles | 3rd/linux-2.6.14/linux-2.6.14/net/sched/sch_hfsc.c:235-251 | after insert the classes in the index are the old ones plus the new one |
| Index.InsertDistinct | 3rd/linux-2.6.14/linux-2.6.14/net/sched/sch_hfsc.c:235-251 | inserting a class not yet present keeps each class at most once in the index |
| Index.RemoveMembers | 3rd/linux-2.6.14/linux-2.6.14/net/sched/sch_hfsc.c:254-257 | removal drops exactly the entries of that class |
| Index.RemoveSpec | 3rd/linux-2.6.14/linux-2.6.14/net/sched/sch_hfsc.c:254-257 | removal takes the class out of the index, is a no-op when it was absent, and keeps classes distinct |
| Index.RemoveSorted | 3rd/linux-2.6.14/linux-2.6.14/net/sched/sch_hfsc.c:254-257 | removal keeps the index sorted |
| Index.UpdateSpec | 3rd/linux-2.6.14/linux-2.6.14/net/sched/sch_hfsc.c:260-264 | re-keying a class leaves it once in the index under its new key, all other entries untouched, sorted and distinct |
| Index.RemoveInsert | 3rd/linux-2.6.14/linux-2.6.14/net/sched/sch_hfsc.c:235-257 | removing a freshly inserted class gives back the index as it was |
| Index.UpdateIdempotent | 3rd/linux-2.6.14/linux-2.6.14/net/sched/sch_hfsc.c:260-264 | re-keying a class twice with the same key is the same as doing it once |
| Index.UpdateAbsent | 3rd/linux-2.6.14/linux-2.6.14/net/sched/sch_hfsc.c:235-264 | re-keying a class that is not in the index is a plain insert of its entry |
| Index.First | 3rd/linux-2.6.14/linux-2.6.14/net/sched/sch_hfsc.c:285-293 | the first entry exists exactly when the index is non-empty and is one of its entries |
| Index.FirstSmallest | 3rd/linux-2.6.14/linux-2.6.14/net/sched/sch_hfsc.c:285-293 | the first entry of a sorted index has the smallest key |
| Index.Last | 3rd/linux-2.6.14/linux-2.6.14/net/sched/sch_hfsc.c:742-744 | the last entry exists exactly when the index is non-empty and is one of its entries |
| Index.LastLargest | 3rd/linux-2.6.14/linux-2.6.14/net/sched/sch_hfsc.c:742-744 | the last entry of a sorted index has the largest key (the max-vt sibling) |
| Index.MinDlSpec | 3rd/linux-2.6.14/linux-2.6.14/net/sched/sch_hfsc.c:268-281 | the query returns nothing iff no class is eligible (e ≤ now); otherwise it returns an eligible class whose deadline is no larger than any other eligible class's, and of the eligible classes with that deadline the one earliest in the index, as the strict < of the scan keeps the first |
| Index.MinDlEarliest | 3rd/linux-2.6.14/linux-2.6.14/net/sched/sch_hfsc.c:268-281 | every eligible entry before the returned one has a strictly larger deadline |
| Index.FirstFitSpec | 3rd/linux-2.6.14/linux-2.6.14/net/sched/sch_hfsc.c:332-343 | the query returns nothing iff no child fits (f ≤ now); otherwise it returns a fitting child of smallest vt, and among fitting children of equal vt the earliest in the index (FirstFitEarliest) |
| Index.FirstFitEarliest | 3rd/linux-2.6.14/linux-2.6.14/net/sched/sch_hfsc.c:336-341 | the returned entry is at some index i and no entry before i fits, as the in-order scan from the first node gives |
| HfscState.ChainFrom | 3rd/linux-2.6.14/linux-2.6.14/net/sched/sch_hfsc.c:974-981 | the walk to the root visits known classes once each, starts at the class, and each next one is the parent of the one before |
| HfscState.ChainSameParents | 3rd/linux-2.6.14/linux-2.6.14/net/sched/sch_hfsc.c:974-981 | the walk to the root depends only on parent links, not on any other class state |
| HfscEd.EligibleCurve | 3rd/linux-2.6.14/linux-2.6.14/net/sched/sch_hfsc.c:680-690 | for a concave curve the eligible curve is the deadline curve; for a convex one it is the deadline curve's second segment alone from the same anchor |
| HfscEd.StartRtSpec | 3rd/linux-2.6.14/linux-2.6.14/net/sched/sch_hfsc.c:669-694 | init_ed takes the minimum of the deadline curve and the curve starting at (now, cumul), derives the eligible curve from it, and sets e and d from those curves |
| HfscEd.InitEd | 3rd/linux-2.6.14/linux-2.6.14/net/sched/sch_hfsc.c:669-694 | the class stays in the scheduler after init_ed; its new e, d and curves are stated by HfscEd.StartRtSpec, its frame by HfscEd.InitEdFrame and its index entry by HfscEd.InitEdTree |
| HfscEd.InitEdFrame | 3rd/linux-2.6.14/linux-2.6.14/net/sched/sch_hfsc.c:669-694 | init_ed changes only this class's timing and the eligible index |
| HfscEd.InitEdTree | 3rd/linux-2.6.14/linux-2.6.14/net/sched/sch_hfsc.c:669-694 | after init_ed the class is in the eligible index once, under its new e, and the index stays sorted and distinct |
| HfscEd.UpdateEdSpec | 3rd/linux-2.6.14/linux-2.6.14/net/sched/sch_hfsc.c:697-709 | update_ed recomputes e from the eligible curve and d from the deadline curve for the next packet; a class already in the eligible index is moved there under its new e, the index keeps the same classes and the other entries, and stays sorted and distinct; a class not in the index is added (the C erases a node that was never linked in that case; see HfscConfig.ModifyAsWrittenLosesElTree) |
| HfscEd.UpdateEdAfterInitEd | 3rd/linux-2.6.14/linux-2.6.14/net/sched/sch_hfsc.c:669-703 | update_ed right after init_ed with the same packet length changes nothing |
| HfscVf.CfMinSpec | 3rd/linux-2.6.14/linux-2.6.14/net/sched/sch_hfsc.c:712-723 | cfmin is 0 for an empty cf index and otherwise the smallest fit-time in it |
| HfscVf.RefreshFitSpec | 3rd/linux-2.6.14/linux-2.6.14/net/sched/sch_hfsc.c:897-902 | f ends as the larger of myf and cfmin; a class that was in the parent's cf index under its old f, or whose f changed, is there under the new f, with the other entries kept; when f changed an ordered cf index stays ordered and the parent's cfmin is its smallest key |
| HfscVf.VtFloor | 3rd/linux-2.6.14/linux-2.6.14/net/sched/sch_hfsc.c:856-867 | vt is raised to the parent's cvtmin when below it, vtadj grows by exactly the shortfall, and vt - vtadj is preserved mod 2^64 |
| HfscVf.NewVfFloor | 3rd/linux-2.6.14/linux-2.6.14/net/sched/sch_hfsc.c:856-874 | the recomputed vt is max(curve vt, cvtmin), vtadj grows by the shortfall only, and the total is not changed |
| HfscVf.LeaveSpec | 3rd/linux-2.6.14/linux-2.6.14/net/sched/sch_hfsc.c:837-850 | a class going passive leaves both of the parent's indexes, cvtmax grows to at least its vt, and the cf index stays sorted with cfmin recomputed |
| HfscVf.MoveVtSpec | 3rd/linux-2.6.14/linux-2.6.14/net/sched/sch_hfsc.c:856-870 | the new vt is the curve's vt raised to the parent's cvtmin, vt - vtadj is still the curve's reading, and the class sits in the parent's vt index under the new vt with the other entries kept, sorted and distinct; the cf index, cfmin and cvtmin are untouched |
| HfscVf.RecomputeSpec | 3rd/linux-2.6.14/linux-2.6.14/net/sched/sch_hfsc.c:853-902 | recomputing vt and f touches only the class and its parent; f ends as max(myf, cfmin) and the class sits in the parent's vt index under its new vt |
| HfscVf.Charge | 3rd/linux-2.6.14/linux-2.6.14/net/sched/sch_hfsc.c:827 | charging adds len to cl_total, mod 2^64, and changes nothing else |
| HfscVf.SetNactive | 3rd/linux-2.6.14/linux-2.6.14/net/sched/sch_hfsc.c:832 | only the class's count of active children changes |
| HfscVf.UpdateVfStepSpec | 3rd/linux-2.6.14/linux-2.6.14/net/sched/sch_hfsc.c:826-903 | one step of update_vf stays within the class and its parent, and passes go_passive up iff it was set and the class had no fair curve or was losing its last active child |
| HfscVf.StepTotal | 3rd/linux-2.6.14/linux-2.6.14/net/sched/sch_hfsc.c:826-903 | one step of update_vf adds len to this class's total only |
| HfscVf.UpdateVfTotals | 3rd/linux-2.6.14/linux-2.6.14/net/sched/sch_hfsc.c:818-904 | update_vf adds len to cl_total of every class on the way to the root (root excluded) and of no other class |
| HfscVf.AvgVt | 3rd/linux-2.6.14/linux-2.6.14/net/sched/sch_hfsc.c:750-752 | the joining vt is the max sibling vt, or the average of cvtmin and that max when cvtmin is set, lying between them |
| HfscVf.JoinVt | 3rd/linux-2.6.14/linux-2.6.14/net/sched/sch_hfsc.c:750-756 | a class keeps its vt when its parent's period did not change and the average is not larger; otherwise it takes the average |
| HfscVf.NewPeriod | 3rd/linux-2.6.14/linux-2.6.14/net/sched/sch_hfsc.c:764-767 | the first child of a new backlog period advances cvtoff by cvtmax and clears cvtmax and cvtmin |
| HfscVf.PeriodVf | 3rd/linux-2.6.14/linux-2.6.14/net/sched/sch_hfsc.c:771-788 | activation clears vtadj and f, keeps vt and total, and records the parent's period (plus one when the parent had no active child) |
| HfscVf.PeriodVfCurve | 3rd/linux-2.6.14/linux-2.6.14/net/sched/sch_hfsc.c:771-781 | after activation the virtual curve, read at vt plus the new vtoff, gives min(old curve at vt+vtoff, total) |
| HfscVf.PeriodVfRebased | 3rd/linux-2.6.14/linux-2.6.14/net/sched/sch_hfsc.c:778-781 | when the new curve is anchored at vt+vtoff the offset is folded into the curve and vtoff becomes 0 |
| HfscVf.PeriodVfShifted | 3rd/linux-2.6.14/linux-2.6.14/net/sched/sch_hfsc.c:778-781 | otherwise vtoff stays cvtoff - pcvtoff |
| HfscVf.LimitVf | 3rd/linux-2.6.14/linux-2.6.14/net/sched/sch_hfsc.c:793-805 | without an upper-limit curve nothing changes; with one only ulimit, myf and myfadj change |
| HfscVf.LimitVfCurve | 3rd/linux-2.6.14/linux-2.6.14/net/sched/sch_hfsc.c:799-804 | the upper-limit curve is re-anchored as min(old curve at now, total) and myf is its inverse at total |
| HfscVf.ActivateFrame | 3rd/linux-2.6.14/linux-2.6.14/net/sched/sch_hfsc.c:741-805 | activation changes only the class and its parent and leaves the class's own active-child count alone |
| HfscVf.EnterFrame | 3rd/linux-2.6.14/linux-2.6.14/net/sched/sch_hfsc.c:736-739 | the active-child count grows by one exactly when the class is entered as active |
| HfscVf.SyncCfMin | 3rd/linux-2.6.14/linux-2.6.14/net/sched/sch_hfsc.c:712-723 | update_cfmin sets cfmin to the first fit-time of the cf index and changes nothing else |
| HfscVf.FinishSpec | 3rd/linux-2.6.14/linux-2.6.14/net/sched/sch_hfsc.c:808-813 | the end of each init_vf step sets f = max(myf, cfmin), keeps the class's children, and (in the corrected form) always refreshes the parent's cfmin |
| HfscVf.ActivateKeepsFit | 3rd/linux-2.6.14/linux-2.6.14/net/sched/sch_hfsc.c:741-805 | activation does not touch cfmin of the class or its parent, nor myf of a class without an upper-limit curve |
| HfscVf.InitVfStepSpec | 3rd/linux-2.6.14/linux-2.6.14/net/sched/sch_hfsc.c:735-813 | one init_vf step passes go_active up iff it was set and the class had no active child, and leaves f = max(myf, cfmin) |
| HfscVf.ActivateVtTree | 3rd/linux-2.6.14/linux-2.6.14/net/sched/sch_hfsc.c:790 | an activated class is in the parent's vt index once, under its new vt, which stays sorted and distinct |
| HfscVf.ActivateCfTree | 3rd/linux-2.6.14/linux-2.6.14/net/sched/sch_hfsc.c:788-791 | an activated class is in the parent's cf index once, under f = 0, which stays sorted and distinct |
| HfscVf.ActivateInserts | 3rd/linux-2.6.14/linux-2.6.14/net/sched/sch_hfsc.c:788-791 | a class in neither of the parent's indexes is inserted into both, under its new vt and f, as vttree_insert and cftree_insert do |
| HfscVf.ActivateReset | 3rd/linux-2.6.14/linux-2.6.14/net/sched/sch_hfsc.c:782-788 | activation clears f and vtadj, starts a new vt period for the class and records the parent's period |
| HfscVf.ActivateVt | 3rd/linux-2.6.14/linux-2.6.14/net/sched/sch_hfsc.c:742-769 | with no active sibling vt is 0 and a new parent period starts; otherwise vt comes from the max-vt sibling and cvtoff is kept |
| HfscVf.InitStepTotals | 3rd/linux-2.6.14/linux-2.6.14/net/sched/sch_hfsc.c:735-813 | no step of init_vf changes any cl_total |
| HfscVf.InitVfTotals | 3rd/linux-2.6.14/linux-2.6.14/net/sched/sch_hfsc.c:726-815 | init_vf changes no cl_total anywhere |
| HfscVf.InitVfStaleCfMin | 3rd/linux-2.6.14/linux-2.6.14/net/sched/sch_hfsc.c:808-813 | as written, a newly activated child with f = 0 leaves its parent's cfmin at the old positive value while the cf index now starts at 0; the corrected step sets it to 0 |
| HfscVf.FinishTrees | 3rd/linux-2.6.14/linux-2.6.14/net/sched/sch_hfsc.c:808-813 | the end of an init_vf step keeps the vt index and the set of classes in the cf index |
| HfscVf.InitVfStepTrees | 3rd/linux-2.6.14/linux-2.6.14/net/sched/sch_hfsc.c:790-791 | activating a class adds it to both of the parent's indexes |
| HfscVf.PassiveStepLeaves | 3rd/linux-2.6.14/linux-2.6.14/net/sched/sch_hfsc.c:832-850 | losing its last active child takes the class out of both of the parent's indexes, and its total still grows by len |
| HfscVf.ActivateThenPassive | 3rd/linux-2.6.14/linux-2.6.14/net/sched/sch_hfsc.c:735-850 | activating a class and then letting it go passive gives back the parent's two indexes with the same classes, and the total grows by len |
| HfscSched.UpdateVfFrame | 3rd/linux-2.6.14/linux-2.6.14/net/sched/sch_hfsc.c:818-904 | update_vf changes only link-sharing state |
| HfscSched.InitVfFrame | 3rd/linux-2.6.14/linux-2.6.14/net/sched/sch_hfsc.c:726-815 | init_vf changes only link-sharing state |
| HfscSched.UnlistSpec | 3rd/linux-2.6.14/linux-2.6.14/net/sched/sch_hfsc.c:923 | removing from the drop list drops exactly that class |
| HfscSched.SetActiveSpec | 3rd/linux-2.6.14/linux-2.6.14/net/sched/sch_hfsc.c:907-915 | set_active appends the class to the drop list, runs init_ed when it has a real-time curve (otherwise the eligible index is untouched), touches link-sharing state only with a fair curve, and changes no total |
| HfscSched.SetPassiveSpec | 3rd/linux-2.6.14/linux-2.6.14/net/sched/sch_hfsc.c:918-929 | set_passive takes the class off the drop list, and off the eligible index when it has a real-time curve, and changes nothing else |
| HfscSched.SetActiveThenPassive | 3rd/linux-2.6.14/linux-2.6.14/net/sched/sch_hfsc.c:907-929 | set_active then set_passive gives back the same drop list and the same classes in the eligible index |
| HfscSched.PurgeQueueSpec | 3rd/linux-2.6.14/linux-2.6.14/net/sched/sch_hfsc.c:956-966 | purging empties the class's queue, lowers qlen by the packets dropped, and a class that held packets leaves the drop list and, with a real-time curve, the eligible index, whose other entries stay; an empty class changes nothing else |
| HfscSched.RaiseCvtminSpec | 3rd/linux-2.6.14/linux-2.6.14/net/sched/sch_hfsc.c:360-361 | vttree_get_minvt only ever raises a parent's cvtmin |
| HfscSched.MinVtFromSpec | 3rd/linux-2.6.14/linux-2.6.14/net/sched/sch_hfsc.c:349-366 | the walk down by smallest fitting vt only raises cvtmin, returns a leaf when it returns anything, and every class below the start it returns fits |
| HfscSched.GetMinVtSpec | 3rd/linux-2.6.14/linux-2.6.14/net/sched/sch_hfsc.c:349-366 | the link-sharing choice is nothing, with nothing changed, when the root's cfmin is after now; otherwise it only raises cvtmin and returns a fitting leaf |
| HfscSched.WatchdogSpec | 3rd/linux-2.6.14/linux-2.6.14/net/sched/sch_hfsc.c:1475-1494 | the wake-up time is the smaller of the first eligible time and the root's cfmin, with 0 meaning absent on both sides |
| HfscSched.Enqueue | 3rd/linux-2.6.14/linux-2.6.14/net/sched/sch_hfsc.c:1653-1658 | a packet the child queue rejects changes no scheduling state |
| HfscSched.EnqueueSpec | 3rd/linux-2.6.14/linux-2.6.14/net/sched/sch_hfsc.c:1660-1667 | an accepted packet joins the class's queue and qlen grows by one; only the 0→1 transition activates the class (drop list, eligible index), and no total changes |
| HfscSched.EnqueueKeepsElTree | 3rd/linux-2.6.14/linux-2.6.14/net/sched/sch_hfsc.c:1660-1667 | enqueue keeps the eligible index exact; a packet that makes a class with a real-time curve backlogged inserts it under its new e, and any other enqueue leaves the index alone |
| HfscSched.Pick | 3rd/linux-2.6.14/linux-2.6.14/net/sched/sch_hfsc.c:1694-1707 | choosing a class only raises cvtmin; which class is chosen is stated by HfscSched.PickSpec |
| HfscSched.PickSpec | 3rd/linux-2.6.14/linux-2.6.14/net/sched/sch_hfsc.c:1694-1707 | the real-time path is taken iff some class is eligible, and then the class has the smallest deadline among the eligible ones; otherwise the link-sharing choice is used |
| HfscSched.Charged | 3rd/linux-2.6.14/linux-2.6.14/net/sched/sch_hfsc.c:1709-1718 | the served class stays in the scheduler; what serving does to the queue and cumul is stated by HfscSched.ChargedSpec and to the totals by HfscSched.ChargedTotals |
| HfscSched.ChargedSpec | 3rd/linux-2.6.14/linux-2.6.14/net/sched/sch_hfsc.c:1709-1718 | serving removes the head packet and adds its length to cl_cumul only on the real-time path |
| HfscSched.ChargedTotals | 3rd/linux-2.6.14/linux-2.6.14/net/sched/sch_hfsc.c:1716 | serving adds the packet's length to cl_total of every non-root class on the way up, and of no other class |
| HfscSched.SettleFrame | 3rd/linux-2.6.14/linux-2.6.14/net/sched/sch_hfsc.c:1720-1732 | after serving only the class's e and d, the eligible index and the drop list change, and cl_cumul is kept |
| HfscSched.ServeCharges | 3rd/linux-2.6.14/linux-2.6.14/net/sched/sch_hfsc.c:1709-1738 | serving returns the head packet, lowers qlen, clears the throttle, charges totals on the path and cumul on the real-time path, and leaves every other class alone |
| HfscSched.ServeEmptiedPassive | 3rd/linux-2.6.14/linux-2.6.14/net/sched/sch_hfsc.c:1729-1732 | a class whose last packet was served leaves the drop list and, with a real-time curve, the eligible index |
| HfscSched.ServeKeepsElTree | 3rd/linux-2.6.14/linux-2.6.14/net/sched/sch_hfsc.c:1709-1738 | serving keeps the eligible index exact; when the last packet of a class with a real-time curve is served, the class is taken out and nothing else is |
| HfscSched.Dequeue | 3rd/linux-2.6.14/linux-2.6.14/net/sched/sch_hfsc.c:1682-1683 | dequeue from an empty scheduler returns nothing and changes nothing |
| HfscSched.DequeueAfterRequeue | 3rd/linux-2.6.14/linux-2.6.14/net/sched/sch_hfsc.c:1742-1750 | a requeued packet is the next one dequeued, and the rest of the state is as before it was requeued |
| HfscSched.DequeueServesPick | 3rd/linux-2.6.14/linux-2.6.14/net/sched/sch_hfsc.c:1694-1738 | dequeue serves the class the selection picks; when none is picked it arms the watchdog and sets the throttle |
| HfscSched.DequeueKeepsElTree | 3rd/linux-2.6.14/linux-2.6.14/net/sched/sch_hfsc.c:1682-1738 | dequeue keeps the eligible index exact |
| HfscConfig.HashNibbles | 3rd/linux-2.6.14/linux-2.6.14/net/sched/sch_hfsc.c:985-991 | the hash is the XOR of the four low nibbles and stays below the table size |
| HfscConfig.SameMajorShift | 3rd/linux-2.6.14/linux-2.6.14/net/sched/sch_hfsc.c:1119 | TC_H_MAJ(a ^ b) = 0 says exactly that both ids have the same upper 16 bits |
| HfscConfig.MaxLevelSpec | 3rd/linux-2.6.14/linux-2.6.14/net/sched/sch_hfsc.c:976-979 | the children's max level is at least every child's level and is attained by some child (or is 0) |
| HfscConfig.AdjustWalk | 3rd/linux-2.6.14/linux-2.6.14/net/sched/sch_hfsc.c:974-981 | the level walk keeps the set of classes; the levels it sets are stated by HfscConfig.AdjustWalkFrame, HfscConfig.AdjustWalkFirst and HfscConfig.AdjustLevelsSpec |
| HfscConfig.AdjustWalkFrame | 3rd/linux-2.6.14/linux-2.6.14/net/sched/sch_hfsc.c:974-981 | the level walk changes only levels, and only of classes on the walk |
| HfscConfig.AdjustWalkFirst | 3rd/linux-2.6.14/linux-2.6.14/net/sched/sch_hfsc.c:974-981 | the class the walk starts from, met only once, ends with the level the walk computes for it from its children (1 + their max as written, 0 for no children corrected) |
| HfscConfig.AdjustLevelsWith | 3rd/linux-2.6.14/linux-2.6.14/net/sched/sch_hfsc.c:969-982 | adjusting levels keeps the set of classes; the levels are stated by HfscConfig.AdjustLevelsSpec |
| HfscConfig.AdjustLevelsSpec | 3rd/linux-2.6.14/linux-2.6.14/net/sched/sch_hfsc.c:969-982 | only levels on the way to the root change; the class gets 1 + its children's max level as written, so a childless class gets level 1, and 0 in the corrected form |
| HfscConfig.CurveArg | 3rd/linux-2.6.14/linux-2.6.14/net/sched/sch_hfsc.c:1052-1074 | a short curve attribute is -EINVAL; a curve with m1 = m2 = 0 counts as absent; any other given curve is used as is |
| HfscConfig.ApplyCurves | 3rd/linux-2.6.14/linux-2.6.14/net/sched/sch_hfsc.c:1007-1035 | each given curve is installed and its flag set, the other curves and flags are kept, and the class's tree place, queue, cumul, total and vt are not touched |
| HfscConfig.ModifySpec | 3rd/linux-2.6.14/linux-2.6.14/net/sched/sch_hfsc.c:1076-1107 | changing an existing class is -EINVAL iff parentid names another parent; otherwise only the class's curves and flags change (as installed), and the tree, queues, drop list, qlen and every total are kept; a backlogged class with a real-time curve afterwards has one entry in the eligible index and every other entry stays, in order; otherwise the index is untouched |
| HfscConfig.InstallSpec | 3rd/linux-2.6.14/linux-2.6.14/net/sched/sch_hfsc.c:1085-1091 | installing curves changes only the class's configuration and its curve state |
| HfscConfig.RefreshKeeps | 3rd/linux-2.6.14/linux-2.6.14/net/sched/sch_hfsc.c:1093-1098 | bringing e, d and vt of a backlogged class up to date changes no configuration, queue or total |
| HfscConfig.RefreshTree | 3rd/linux-2.6.14/linux-2.6.14/net/sched/sch_hfsc.c:1093-1098 | the corrected refresh re-keys a backlogged class with a real-time curve in the eligible index under its new e, keeping the other entries and the order, and otherwise leaves the index and the class's e alone |
| HfscConfig.ModifyKeepsElTree | 3rd/linux-2.6.14/linux-2.6.14/net/sched/sch_hfsc.c:1076-1107 | the corrected change keeps the eligible index exact, and a backlogged class that gains its first real-time curve is inserted as init_ed inserts |
| HfscConfig.ModifyAsWrittenLosesElTree | 3rd/linux-2.6.14/linux-2.6.14/net/sched/sch_hfsc.c:1093-1096 | as written, giving a backlogged class its first real-time curve leaves the eligible index holding that class alone: every other class is lost, where the corrected change keeps it |
| HfscConfig.UpdateEdKeeps | 3rd/linux-2.6.14/linux-2.6.14/net/sched/sch_hfsc.c:1094-1095 | update_ed changes no configuration, queue or total |
| HfscConfig.InitEdKeeps | 3rd/linux-2.6.14/linux-2.6.14/net/sched/sch_hfsc.c:669-694 | init_ed changes no configuration, queue or total |
| HfscConfig.UpdateVfZeroKeeps | 3rd/linux-2.6.14/linux-2.6.14/net/sched/sch_hfsc.c:1096-1097 | update_vf with length 0 changes no total |
| HfscConfig.Attach | 3rd/linux-2.6.14/linux-2.6.14/net/sched/sch_hfsc.c:1151-1158 | a new class is linked under a known parent; the parent's children and the other links are stated by HfscConfig.CreateSpec |
| HfscConfig.PurgeIfLeaf | 3rd/linux-2.6.14/linux-2.6.14/net/sched/sch_hfsc.c:1154-1155 | purging a parent that was a leaf keeps the set of classes; the effect on its queue is stated by HfscConfig.PurgeIfLeafSpec |
| HfscConfig.PurgeIfLeafSpec | 3rd/linux-2.6.14/linux-2.6.14/net/sched/sch_hfsc.c:1154-1155 | only the parent's queue is affected when it was a leaf |
| HfscConfig.InheritCvtoff | 3rd/linux-2.6.14/linux-2.6.14/net/sched/sch_hfsc.c:1157 | the new class takes its parent's cvtoff as pcvtoff and nothing else changes |
| HfscConfig.Create | 3rd/linux-2.6.14/linux-2.6.14/net/sched/sch_hfsc.c:1109-1166 | the new class is present after creation; its place, curves and empty queue are stated by HfscConfig.CreateSpec |
| HfscConfig.CreateSpec | 3rd/linux-2.6.14/linux-2.6.14/net/sched/sch_hfsc.c:1127-1158 | the new class is added under the parent with no children and an empty queue, has exactly the given curves, is appended to the parent's children, and no parent link changes |
| HfscConfig.ChangeClass | 3rd/linux-2.6.14/linux-2.6.14/net/sched/sch_hfsc.c:1038-1167 | every failure of hfsc_change_class is -EINVAL, -EEXIST or -ENOENT |
| HfscConfig.CreateClassSpec | 3rd/linux-2.6.14/linux-2.6.14/net/sched/sch_hfsc.c:1049-1125 | creation fails with -EINVAL for bad attributes, -EEXIST for parent TC_H_ROOT, -ENOENT for an unknown parent, -EINVAL for id 0 or a foreign major, -EEXIST for a duplicate id, -EINVAL without rsc or fsc, and succeeds in every other case |
| HfscConfig.CreateClassAdds | 3rd/linux-2.6.14/linux-2.6.14/net/sched/sch_hfsc.c:1112-1158 | a successful creation adds exactly the new class under the named parent (the root for 0), with the given curves, appended to the parent's children |
| HfscConfig.Unlink | 3rd/linux-2.6.14/linux-2.6.14/net/sched/sch_hfsc.c:1206 | unlinking from the parent keeps the set of classes; that only the parent's children lose the class is stated by HfscConfig.UnlinkSpec |
| HfscConfig.UnlinkSpec | 3rd/linux-2.6.14/linux-2.6.14/net/sched/sch_hfsc.c:1206 | unlinking removes the class from its parent's children only |
| HfscConfig.Detach | 3rd/linux-2.6.14/linux-2.6.14/net/sched/sch_hfsc.c:1205-1207 | detaching changes only the class map, which keeps its keys; HfscConfig.DetachSpec and HfscConfig.DetachRecords state which fields change |
| HfscConfig.DetachSpec | 3rd/linux-2.6.14/linux-2.6.14/net/sched/sch_hfsc.c:1205-1207 | detaching is unlinking followed by level changes only |
| HfscConfig.DetachRecords | 3rd/linux-2.6.14/linux-2.6.14/net/sched/sch_hfsc.c:1205-1207 | detaching changes no class's configuration, queue or real-time state, nor the eligible index |
| HfscConfig.Drop | 3rd/linux-2.6.14/linux-2.6.14/net/sched/sch_hfsc.c:1205-1210 | dropping the class changes only the class and link-sharing maps; HfscConfig.PurgeDropSpec states that exactly the class and its packets go |
| HfscConfig.DeleteClassSpec | 3rd/linux-2.6.14/linux-2.6.14/net/sched/sch_hfsc.c:1195-1214 | delete is -EBUSY iff the class has a level above 0, bound filters, or is the root; otherwise exactly that class is gone, qlen drops by its packets and it leaves the drop list |
| HfscConfig.DeleteKeepsTree | 3rd/linux-2.6.14/linux-2.6.14/net/sched/sch_hfsc.c:1205-1207 | deleting keeps every other class's parent and removes the class from its parent's children only |
| HfscConfig.DeleteKeepsElTree | 3rd/linux-2.6.14/linux-2.6.14/net/sched/sch_hfsc.c:1195-1214 | deleting a class keeps the eligible index exact |
| HfscConfig.PurgeDropSpec | 3rd/linux-2.6.14/linux-2.6.14/net/sched/sch_hfsc.c:1208-1210 | purging then freeing removes exactly the class and its packets |
| HfscConfig.DeleteOnlyChildAsWritten | 3rd/linux-2.6.14/linux-2.6.14/net/sched/sch_hfsc.c:969-982 | as written, deleting a parent's only child leaves the parent childless at level 1, so deleting the parent is -EBUSY forever |
| HfscConfig.DeleteOnlyChild | 3rd/linux-2.6.14/linux-2.6.14/net/sched/sch_hfsc.c:1195-1214 | with the corrected level rule, deleting a parent's only child leaves the parent at level 0, and it can then be deleted unless it is the root or has filters |
| HfscConfig.OnlyChildDetached | 3rd/linux-2.6.14/linux-2.6.14/net/sched/sch_hfsc.c:1205-1210 | after removing the only child the parent has no children, level 1 as written and 0 corrected, and its filter count and the root are unchanged |
| EcCombine.TimeMerge | 3rd/glusterfs/xlators/cluster/ec/src/ec-combine.c:96-105 | the merged time is the lexicographic max of the two (sec, nsec) pairs and is dst itself when dst is not older |
| EcCombine.TimeMergeCommutes | 3rd/glusterfs/xlators/cluster/ec/src/ec-combine.c:96-105 | merging times is commutative and merging again with the same time changes nothing |
| EcCombine.MergeIatt | 3rd/glusterfs/xlators/cluster/ec/src/ec-combine.c:194-208 | merging sums ia_blocks (mod 2^64), keeps the larger blksize, merges the three times and changes no other field |
| EcCombine.MergeIattSymmetric | 3rd/glusterfs/xlators/cluster/ec/src/ec-combine.c:194-208 | the merged fields do not depend on the order of the two answers |
| EcCombine.IattCombine | 3rd/glusterfs/xlators/cluster/ec/src/ec-combine.c:138-209 | combining succeeds iff no pair differs in ino, gfid or device rdev, nor in uid, gid or mode when the first answer is trusted; on failure nothing changes, on success each entry is merged and the rest kept |
| EcCombine.RebuildIsCeiling | 3rd/glusterfs/xlators/cluster/ec/src/ec-combine.c:211-221 | the rebuilt block count is the ceiling of blocks·fragments / answers |
| EcCombine.Rebuild | 3rd/glusterfs/xlators/cluster/ec/src/ec-combine.c:211-221 | each of the first count entries gets the ceiling of blocks·fragments / answers and no other field or entry changes |
| EcCombine.Lift | 3rd/glusterfs/xlators/cluster/ec/src/ec-combine.c:851-871 | the side with the smaller fragment size has its block counts rescaled to the larger size; the other side is untouched |
| EcCombine.StatvfsCombine | 3rd/glusterfs/xlators/cluster/ec/src/ec-combine.c:844-902 | the result has the larger fragment size, the AND of the flags and dst's fsid; src keeps its fragment size |
| EcCombine.StatvfsCombineSpec | 3rd/glusterfs/xlators/cluster/ec/src/ec-combine.c:844-902 | blocks, bfree, bavail are the min after rescaling, ffree, favail and namemax the min, bsize and files the max |
| EcCombine.StatvfsSymmetric | 3rd/glusterfs/xlators/cluster/ec/src/ec-combine.c:844-902 | the combined answer, apart from fsid, does not depend on the order of the two answers |
| EcCombine.StatvfsIdempotent | 3rd/glusterfs/xlators/cluster/ec/src/ec-combine.c:844-902 | combining an answer with itself changes neither side |
| EcCombine.RescaleNoGrowth | 3rd/glusterfs/xlators/cluster/ec/src/ec-combine.c:851-871 | rescaling never claims more bytes than the counts described before |
| EcCombine.CombineCheck | 3rd/glusterfs/xlators/cluster/ec/src/ec-combine.c:904-942 | a mismatch of op_ret, of op_errno when op_ret < 0, or of xdata gives 0; the combine function runs iff the answers agree and op_ret ≥ 0, and its result is returned |
| EcCombine.CombineCheckSymmetric | 3rd/glusterfs/xlators/cluster/ec/src/ec-combine.c:904-942 | the check does not depend on the order of the two answers |
| EcCombine.FindFrom | 3rd/glusterfs/xlators/cluster/ec/src/ec-combine.c:320-326 | the search finds the first occurrence at or after the start, or reports none |
| EcCombine.ConcatPrepare | 3rd/glusterfs/xlators/cluster/ec/src/ec-combine.c:320-342 | a missing '{' or '}' gives -EINVAL; on success the prefix holds no '{' and the separator no '}' |
| EcCombine.ConcatPrepareSpec | 3rd/glusterfs/xlators/cluster/ec/src/ec-combine.c:308-342 | on success the input is exactly prefix + "{" + separator + "}" + suffix |
| EcCombine.ConcatPrepareExact | 3rd/glusterfs/xlators/cluster/ec/src/ec-combine.c:308-342 | any prefix without '{' and separator without '}' are split back out exactly (the inverse of ConcatPrepareSpec) |
| EcCombine.ConcatPrepareUnclosed | 3rd/glusterfs/xlators/cluster/ec/src/ec-combine.c:326-329 | a '{' that is never closed gives -EINVAL |
| EcCombine.DictMax | 3rd/glusterfs/xlators/cluster/ec/src/ec-combine.c:627-652 | the stored value is at least every present per-node value and is one of them, or 0 when none is present |
| EcCombine.DictMax32 | 3rd/glusterfs/xlators/cluster/ec/src/ec-combine.c:600-625 | the 32-bit maximum is at least every present value and is one of them, or 0 when none is present |
| EcCombine.TotalAsI32 | 3rd/glusterfs/xlators/cluster/ec/src/ec-combine.c:815-829 | the total length is truncated to a signed 32-bit int |
| EcCombine.VectorCompareSpec | 3rd/glusterfs/xlators/cluster/ec/src/ec-combine.c:815-829 | equal total lengths compare equal; the comparison is equality of the totals mod 2^32, and plain equality for totals below 2^31 |
| EcCombine.FlockCompare | 3rd/glusterfs/xlators/cluster/ec/src/ec-combine.c:831-842 | two locks compare equal (1) iff every field agrees, and the answer is 0 or 1 |
| Essid.EscapeAllShape | 3rd/linux-2.6.14/linux-2.6.14/net/ieee80211/ieee80211_module.c:282-290 | escaping adds one byte per NUL, so the output length is the input length plus the NUL count, and no NUL is left |
| Essid.EscapeEssid | 3rd/linux-2.6.14/linux-2.6.14/net/ieee80211/ieee80211_module.c:270-293 | an empty essid gives "<hidden>"; otherwise the first min(len, 32) bytes are escaped in order, and the text plus its terminator fits the 65-byte buffer without an inner NUL |
| Essid.UnescapeEscapeAll | 3rd/linux-2.6.14/linux-2.6.14/net/ieee80211/ieee80211_module.c:282-290 | an essid without backslashes is recovered exactly from its escaped form |
| Essid.EscapeAllFront | 3rd/linux-2.6.14/linux-2.6.14/net/ieee80211/ieee80211_module.c:282-290 | escaping works byte by byte from the front |
| Essid.EscapeAmbiguous | 3rd/linux-2.6.14/linux-2.6.14/net/ieee80211/ieee80211_module.c:282-290 | a NUL byte and the two bytes '\' '0' escape to the same text, so escaping is not invertible in general |
| AuthNull.NtohlHtonl | 3rd/linux-2.6.14/linux-2.6.14/net/sunrpc/auth_null.c:92-98 | the network byte-order conversion is its own inverse |
| AuthNull.Marshal | 3rd/linux-2.6.14/linux-2.6.14/net/sunrpc/auth_null.c:65-74 | four words are written (AUTH_NULL, length 0, AUTH_NULL, length 0), nothing else in the buffer changes, and p+4 is returned |
| AuthNull.Validate | 3rd/linux-2.6.14/linux-2.6.14/net/sunrpc/auth_null.c:86-105 | validation returns p+2 iff the flavour decodes to AUTH_NULL and the length to 0, and fails otherwise |
| AuthNull.MarshalValidate | 3rd/linux-2.6.14/linux-2.6.14/net/sunrpc/auth_null.c:65-105 | validation accepts what marshalling wrote, at both the credential and the verifier position |
| AuthNull.Match | 3rd/linux-2.6.14/linux-2.6.14/net/sunrpc/auth_null.c:56-60 | every credential matches |
| AuthNull.Refresh | 3rd/linux-2.6.14/linux-2.6.14/net/sunrpc/auth_null.c:79-84 | refresh returns 0, sets RPCAUTH_CRED_UPTODATE and keeps every other flag |
| AuthNull.RefreshIdempotent | 3rd/linux-2.6.14/linux-2.6.14/net/sunrpc/auth_null.c:79-84 | refreshing twice is the same as refreshing once |
| NfLog.Empty | 3rd/linux-2.6.14/linux-2.6.14/net/netfilter/nf_log.c:18-20 | the table starts with no logger in any of the NPROTO slots |
| NfLog.Register | 3rd/linux-2.6.14/linux-2.6.14/net/netfilter/nf_log.c:23-41 | pf ≥ NPROTO is -EINVAL; an empty slot gets the logger and 0; an occupied slot gives -EEXIST for the same logger and -EBUSY for another, with the table unchanged; 0 is returned iff the slot was free |
| NfLog.UnregisterPf | 3rd/linux-2.6.14/linux-2.6.14/net/netfilter/nf_log.c:44-57 | pf ≥ NPROTO is -EINVAL; otherwise slot pf is cleared, 0 is returned, and every other slot keeps its logger |
| NfLog.UnregisterLogger | 3rd/linux-2.6.14/linux-2.6.14/net/netfilter/nf_log.c:60-72 | the loop leaves the table with every slot holding the logger emptied: afterwards no slot holds it, exactly its slots are cleared and the others are unchanged |
| NfLog.Dispatch | 3rd/linux-2.6.14/linux-2.6.14/net/netfilter/nf_log.c:87-100 | a packet goes to the logger of its protocol iff one is registered |
| NfLog.RegisterThenDispatch | 3rd/linux-2.6.14/linux-2.6.14/net/netfilter/nf_log.c:87-100 | after a successful registration the protocol's packets go to the new logger, and other protocols' dispatch is unchanged |
| NfLog.RegisterTwice | 3rd/linux-2.6.14/linux-2.6.14/net/netfilter/nf_log.c:25-37 | registering the same logger twice gives -EEXIST the second time and leaves the table alone |
| NfLog.RegisterThenUnregisterPf | 3rd/linux-2.6.14/linux-2.6.14/net/netfilter/nf_log.c:23-57 | unregistering the protocol just registered restores the table |
| NfLog.RegisterThenUnregisterLogger | 3rd/linux-2.6.14/linux-2.6.14/net/netfilter/nf_log.c:23-72 | registering a new logger and then unregistering it restores the table, and no protocol dispatches to it afterwards |

## Left out

- Netlink attribute parsing beyond the three curve attributes, `hfsc_dump_*`, `sm2m`, `dx2d`, statistics and rate estimators: these only serialise state for user space.
- `tc_classify` and the filter chains of `hfsc_classify`: the class a packet goes to is a parameter of `HfscSched.Enqueue`.
- `hfsc_drop`: the model keeps the drop list in step, but dropping from it is not modelled.
- rb-tree balancing: the indexes are sorted sequences with the same order.
- The hash table behind `hfsc_find_class`: a class map stands in for it. Only `hfsc_hash`'s range and form are modelled.
- `kmalloc` failure (-ENOBUFS) in `hfsc_change_class`, reference counts, `hfsc_destroy_class`, `hfsc_graft_class`, and qdisc init/reset/destroy: these concern memory and object lifetime.
- The clock, jiffies conversion and `mod_timer`: time is a parameter, and the watchdog is modelled by the wake-up time it picks.
- The child qdisc is modelled as a FIFO of packet lengths. `qdisc_peek_len` is its head.
- The `#if 0` myfadj block in `update_vf`: it is compiled out.
- The PSCHED_JIFFIE2US(HZ) clock configurations other than microseconds.
- HfscSched.MinVtFromSpec: the descent of `vttree_get_minvt` assumes that a child's level is below its parent's. The model enforces this with the level as a termination measure, and stops at a child that breaks it.
- Long-run fairness between siblings: it is emergent behaviour, not a property of one operation.
- `NPROTO` (32), `IW_ESSID_MAX_SIZE` (32), `RPC_AUTH_NULL` (0), `RPCAUTH_CRED_UPTODATE` (bit 1) and the errno values come from headers that are not part of this model. They are written here with their Linux values.
- NfLog: `pf` is a natural number. A negative `pf` would pass the `pf >= NPROTO` check in C and index out of range; that case is not modelled.
- NfLog: RCU, the spinlock and `synchronize_net`, the proc file, and the prefix formatting of `nf_log_packet`.
- `ec_concat_prepare`: the `gf_vasprintf` formatting and its -ENOMEM failure are left out. The model starts from the formatted string.
- `ec_dict_data_merge`, `ec_dict_data_stime`, the `dict_t` walk and `ec_combine` itself: these are dictionary serialisation, foreign calls and locking. `EcCombine.DictMax` takes the per-node values already gathered.
- `ec_iatt_is_trusted`'s look-up of the inode lock list: the list of locked inodes is a parameter.
- `st_mode_from_ia` is not part of this model: it is taken to be one-to-one, so comparing the two modes is comparing type and protection bits separately.
- AuthNull: `htonl`/`ntohl` are modelled as the byte swap of a little-endian host. The properties use only the fact that it is its own inverse.
- AuthNull: `nul_create`, `nul_destroy` and `nul_lookup_cred` only take and drop references.
- Essid: `ieee80211_is_empty_essid` is a parameter. The 65-byte static buffer is modelled by a length bound on the result. Every call writes the same static buffer, so two `escape_essid` results passed to one `printk` print the same text; the model returns a fresh value per call and does not show this.
- Device allocation, proc files and `store_debug_level` in `ieee80211_module.c`.
- EcCombine.VectorCompare: the comparison is of the totals mod 2^32, because the C sums into `int32_t`. VectorCompareSpec states plain equality only for totals below 2^31.

- HfscSched.SetActive: runs `init_vf` in its corrected form, which always refreshes the parent's cfmin (the third Findings row), and whose two `rtsc_min` calls divide by the 64-bit slope difference (the second Findings row). `HfscVf.InitVfAsWritten` is the code's form of the cfmin update only.
- HfscSched.Enqueue: reaches `init_vf` through `SetActive`, so it too uses both corrected forms.
- HfscVf.JoinCurve: the `rtsc_min` of the virtual curve (sch_hfsc.c line 776) divides by the 64-bit slope difference (the second Findings row). For a link-sharing curve whose sm1 - sm2 does not fit in 32 bits the code traps or gets another dx; `Curves.RtscMinAsWritten` is the code's form and `Curves.RtscMinAsWrittenAgrees` shows the two agree otherwise.
- HfscVf.LimitVf: the same for the `rtsc_min` of the upper-limit curve (sch_hfsc.c line 799).
- HfscVf.InitVfAsWritten: is the code's form only of the cfmin update (the third Findings row). It reaches `rtsc_min` through `HfscVf.JoinCurve` and `HfscVf.LimitVf`, so it uses the 64-bit slope difference there.
- HfscConfig.DeleteClass: uses the corrected level rule, a childless class at level 0 (the first Findings row). `HfscConfig.DeleteClassAsWritten` is the code's form.
- HfscEd.InitEd: its `rtsc_min` divides by the 64-bit slope difference (the second Findings row). `Curves.RtscMinAsWritten` is the code's form.
- HfscConfig.Modify: uses `init_ed` for a backlogged class that gains its first real-time curve (the fourth Findings row). `HfscConfig.ModifyAsWritten` is the code's form. The model does not treat a backlogged class that gains its first link-sharing curve specially. The C runs `update_vf` for such a class, not `init_vf`, so the class was never counted active in its parent; the model follows the C there.
- Curves.RtscMinSpec: states the reading at x and the shape of the result, not that the result is the minimum of the two curves beyond x. The C comment promises the minimum; the code compares the curves at x (convex) or at x and x + dx (concave), which is not the same (`Curves.RtscMinConvexNotMin`).
- HfscVf.Activated: re-keys the class in the parent's vt and cf indexes where the C only inserts. `HfscVf.ActivateInserts` shows the two agree for a class in neither index. That the indexes hold exactly the active children is not proved as an invariant across operations; only the eligible index has one (`HfscState.ElTreeWf`).
- `lib/rbtree.c` is not part of this model: the effect of `rb_erase` on a node that was never linked is modelled from the zeroed node's fields (`HfscConfig.EraseUnlinked`).

## Findings

| source | as written | input that shows it | evidently intended | confidence | as-written member | corrected member |
|---|---|---|---|---|---|---|
| 3rd/linux-2.6.14/linux-2.6.14/net/sched/sch_hfsc.c:975-980 | `hfsc_adjust_levels` sets a class to 1 + the max child level even when it has no children, so a childless class gets level 1 | delete the only child of a class: the parent keeps level 1, and `hfsc_delete_class` refuses it with -EBUSY forever | a class without children is at level 0 (leaf), so it can be deleted | high (not executed) | HfscConfig.DeleteOnlyChildAsWritten | HfscConfig.DeleteOnlyChild |
| 3rd/linux-2.6.14/linux-2.6.14/net/sched/sch_hfsc.c:609-652 | `rtsc_min` keeps `sm1 - sm2` in a `u32 dsm` | rsc with m1 = 4096000000, m2 = 0 gives sm1 = 2^32 and sm2 = 0, so dsm = 0 and `do_div` divides by zero | the 64-bit difference, giving dx = 999 for the curve re-anchored at (500, 1) | medium (not executed) | Curves.RtscMinDivisorTruncated | Curves.RtscMinSpec |
| 3rd/linux-2.6.14/linux-2.6.14/net/sched/sch_hfsc.c:788-813 | `init_vf` inserts an activated class into the parent's cf index with f = 0, but calls `update_cfmin` only when f changes | a leaf without upper-limit curve (myf = 0, cfmin = 0) joins a parent whose cfmin is positive: f stays 0, the index starts at 0, the parent's cfmin stays positive | the parent's cfmin is refreshed after every activation | medium (not executed) | HfscVf.InitVfStaleCfMin | HfscVf.FinishSpec |
| 3rd/linux-2.6.14/linux-2.6.14/net/sched/sch_hfsc.c:1093-1096 | `hfsc_change_class` calls `update_ed` for every backlogged class that has a real-time curve after the change, including one that had none before; `update_ed` erases the class's `el_node`, which was never inserted | a backlogged class without a real-time curve is given one while other classes are in the eligible tree: `rb_erase` of the zeroed node sets the tree's root to NULL, and every other class is lost from it | `init_ed` for a class that had no real-time curve before, as later kernels do | medium (not executed) | HfscConfig.ModifyAsWrittenLosesElTree | HfscConfig.ModifyKeepsElTree |

=== FILE: auth_null.dfy ===
/**
 * The AUTH_NULL flavour of ONC RPC authentication (section 9.1 of RFC 1831):
 * the credential and the verifier are each the flavour word AUTH_NULL
 * followed by a zero body length.  The XDR stream is a sequence of 32-bit
 * words in network byte order.
 */
module AuthNull {
  import opened Wrappers

  /** The flavour number of AUTH_NULL. */
  const RPC_AUTH_NULL: bv32 := 0
  /** The credential flag nul_refresh sets. */
  const RPCAUTH_CRED_UPTODATE: bv32 := 0x0002

  /**
   * Host to network byte order, on a little-endian host: the four bytes of
   * the word in reverse order.
   */
  function Htonl(x: bv32): bv32 {
    ((x & 0xFF) << 24) | ((x & 0xFF00) << 8) | ((x >> 8) & 0xFF00) | (x >> 24)
  }

  /** Network to host byte order: the same byte reversal. */
  function Ntohl(x: bv32): bv32 {
    Htonl(x)
  }

  /** The two conversions are inverse to each other. */
  lemma NtohlHtonl(x: bv32)
    ensures Ntohl(Htonl(x)) == x && Htonl(Ntohl(x)) == x
  {
  }

  /**
   * nul_marshal: four words are written at position p -- flavour and zero
   * length for the credential, then the same for the verifier -- and the
   * position after them is returned.  The RPC client reserves four words of
   * credential slack for this flavour.
   */
  function Marshal(buf: seq<bv32>, p: nat): (r: (seq<bv32>, nat))
    requires p + 4 <= |buf|
    ensures r.1 == p + 4 && |r.0| == |buf|
    ensures r.0[..p] == buf[..p] && r.0[p + 4..] == buf[p + 4..]
    ensures Ntohl(r.0[p]) == RPC_AUTH_NULL && r.0[p + 1] == 0
    ensures Ntohl(r.0[p + 2]) == RPC_AUTH_NULL && r.0[p + 3] == 0
  {
    NtohlHtonl(RPC_AUTH_NULL);
    (buf[..p] + [Htonl(RPC_AUTH_NULL), 0, Htonl(RPC_AUTH_NULL), 0] + buf[p + 4..], p + 4)
  }

  /**
   * nul_validate: the verifier at position p is accepted, and the position
   * after its two words returned, iff its flavour is AUTH_NULL and its length
   * zero; anything else is rejected (NULL).  The client reserves two words of
   * reply slack for this flavour, so both words are there.
   */
  function Validate(buf: seq<bv32>, p: nat): (r: Option<nat>)
    requires p + 2 <= |buf|
    ensures r.Some? <==> Ntohl(buf[p]) == RPC_AUTH_NULL && Ntohl(buf[p + 1]) == 0
    ensures r.Some? ==> r.value == p + 2
  {
    if Ntohl(buf[p]) != RPC_AUTH_NULL then None
    else if Ntohl(buf[p + 1]) != 0 then None
    else Some(p + 2)
  }

  /** Round trip: the words marshalled are accepted at the credential and at the verifier position. */
  lemma MarshalValidate(buf: seq<bv32>, p: nat)
    requires p + 4 <= |buf|
    ensures var m := Marshal(buf, p);
      Validate(m.0, p) == Some(p + 2) && Validate(m.0, p + 2) == Some(m.1)
  {
    var m := Marshal(buf, p);
    NtohlHtonl(0);
    assert Ntohl(m.0[p + 1]) == 0 && Ntohl(m.0[p + 3]) == 0;
  }

  /** A credential: its flag word. */
  datatype Cred = Cred(flags: bv32)

  /** nul_match: the null credential matches every process. */
  function Match(cred: Cred, taskFlags: int): (r: int)
    ensures r == 1
  {
    1
  }

  /**
   * nul_refresh: the credential is marked up to date, its other flags kept,
   * and 0 returned.
   */
  function Refresh(c: Cred): (r: (int, Cred))
    ensures r.0 == 0
    ensures r.1.flags & RPCAUTH_CRED_UPTODATE == RPCAUTH_CRED_UPTODATE
    ensures r.1.flags & !RPCAUTH_CRED_UPTODATE == c.flags & !RPCAUTH_CRED_UPTODATE
  {
    (0, Cred(c.flags | RPCAUTH_CRED_UPTODATE))
  }

  /** Refreshing twice is refreshing once. */
  lemma RefreshIdempotent(c: Cred)
    ensures Refresh(Refresh(c).1) == Refresh(c)
  {
  }
}

=== FILE: curves.dfy ===
/**
 * Service-curve arithmetic of the H-FSC scheduler (sch_hfsc.c).
 *
 * A service curve is a two-segment piecewise-linear function from time (x,
 * in scheduler clock ticks) to service (y, in bytes).  Slopes are kept as
 * fixed-point numbers scaled by 2^SM_SHIFT, inverse slopes scaled by
 * 2^ISM_SHIFT, and every operation is 64-bit unsigned arithmetic: each add,
 * subtract and multiply of the C code is reduced modulo 2^64 here.
 */
module Curves {
  import opened Fixed
  import opened Wrappers

  const SM_SHIFT: nat := 20
  const ISM_SHIFT: nat := 18
  /** 1 << SM_SHIFT */
  const SM_UNIT: int := 0x10_0000
  /** 1 << ISM_SHIFT */
  const ISM_UNIT: int := 0x4_0000
  /** The "infinite time" sentinel. */
  const HT_INFINITY: u64 := 0xffff_ffff_ffff_ffff
  /** Scheduler clock ticks per second, PSCHED_JIFFIE2US(HZ), for the microsecond clock. */
  const TICKS_PER_SEC: int := 1_000_000
  const USEC_PER_SEC: int := 1_000_000

  /** Slopes below this bound make the low-bits product of SegX2Y fit in 64 bits. */
  const SM_LIMIT: int := 0x1000_0000_0000
  /** Inverse slopes below this bound make the low-bits product of SegY2X fit in 64 bits. */
  const ISM_LIMIT: int := 0x4000_0000_0000

  /** A curve as configured: slope m1 (bytes/s) for d microseconds, then slope m2. */
  datatype ServiceCurve = ServiceCurve(m1: u32, d: u32, m2: u32)

  /** The internal form of a configured curve (struct internal_sc). */
  datatype InternalSc = InternalSc(sm1: u64, ism1: u64, dx: u64, dy: u64, sm2: u64, ism2: u64)

  /** A curve anchored at (x, y) (struct runtime_sc). */
  datatype RuntimeSc = RuntimeSc(x: u64, y: u64, sm1: u64, ism1: u64, dx: u64, dy: u64, sm2: u64, ism2: u64)

  /** The first segment's y-extent is the first slope applied to its x-extent. */
  predicate IscConsistent(isc: InternalSc) {
    isc.dy == SegX2Y(isc.dx, isc.sm1)
  }

  predicate Consistent(r: RuntimeSc) {
    r.dy == SegX2Y(r.dx, r.sm1)
  }

  /** What the conversion of a configured curve guarantees about its internal form. */
  predicate IscWf(isc: InternalSc) {
    && isc.sm1 < SM_LIMIT && isc.sm2 < SM_LIMIT
    && (isc.sm1 == 0 <==> isc.ism1 == HT_INFINITY)
    && (isc.sm2 == 0 <==> isc.ism2 == HT_INFINITY)
    && (isc.ism1 != HT_INFINITY ==> isc.ism1 < ISM_LIMIT)
    && (isc.ism2 != HT_INFINITY ==> isc.ism2 < ISM_LIMIT)
    && IscConsistent(isc)
  }

  // ---------------------------------------------------------------------
  // Segment evaluation
  // ---------------------------------------------------------------------

  /** seg_x2y: y = x * sm >> SM_SHIFT, computed on the high and low bits of x separately. */
  function SegX2Y(x: u64, sm: u64): u64 {
    Wrap64((x / SM_UNIT) * sm + Wrap64((x % SM_UNIT) * sm) / SM_UNIT)
  }

  /** seg_y2x: x = y * ism >> ISM_SHIFT, with 0 for y = 0 and an infinite inverse slope kept infinite. */
  function SegY2X(y: u64, ism: u64): (x: u64)
    ensures y == 0 ==> x == 0
    ensures y != 0 && ism == HT_INFINITY ==> x == HT_INFINITY
  {
    if y == 0 then 0
    else if ism == HT_INFINITY then HT_INFINITY
    else Wrap64((y / ISM_UNIT) * ism + Wrap64((y % ISM_UNIT) * ism) / ISM_UNIT)
  }

  /**
   * Multiplying the high and low parts of v separately and adding the
   * scaled-down low product loses nothing when neither sum overflows.
   */
  lemma SplitMulExact(v: int, m: int, u: int)
    requires u > 0 && v >= 0 && m >= 0
    requires (v % u) * m < TWO64 && v * m / u < TWO64
    ensures Wrap64((v / u) * m + Wrap64((v % u) * m) / u) == v * m / u
  {
    var q, r := v / u, v % u;
    var hi, lo := q * m, r * m;
    assert v * m == hi * u + lo by {
      MulSplit(v, m, u);
    }
    assert hi + lo / u == v * m / u by {
      DivAddMultiple(hi, lo, u);
    }
    assert 0 <= hi by {
      MulMonotone(0, q, m);
    }
    assert Wrap64(lo) == lo;
  }

  lemma MulSplit(v: int, m: int, u: int)
    requires u > 0
    ensures v * m == ((v / u) * m) * u + (v % u) * m
  {
    var q, r := v / u, v % u;
    calc {
      v * m;
      (q * u + r) * m;
      { assert (q * u + r) * m == (q * u) * m + r * m; }
      (q * u) * m + r * m;
      { assert (q * u) * m == (q * m) * u; }
      (q * m) * u + r * m;
    }
  }

  /** The split computation of seg_x2y is exactly floor(x * sm / 2^SM_SHIFT) when nothing overflows. */
  lemma SegX2YIsExact(x: u64, sm: u64)
    requires sm < SM_LIMIT
    requires x * sm / SM_UNIT < TWO64
    ensures SegX2Y(x, sm) == x * sm / SM_UNIT
  {
    MulMonotone(x % SM_UNIT, SM_UNIT - 1, sm);
    MulMonotone(sm, SM_LIMIT, SM_UNIT - 1);
    SplitMulExact(x, sm, SM_UNIT);
  }

  /** The split computation of seg_y2x is exactly floor(y * ism / 2^ISM_SHIFT) when nothing overflows. */
  lemma SegY2XIsExact(y: u64, ism: u64)
    requires 0 < y && ism < ISM_LIMIT
    requires y * ism / ISM_UNIT < TWO64
    ensures SegY2X(y, ism) == y * ism / ISM_UNIT
  {
    MulMonotone(y % ISM_UNIT, ISM_UNIT - 1, ism);
    MulMonotone(ism, ISM_LIMIT, ISM_UNIT - 1);
    SplitMulExact(y, ism, ISM_UNIT);
  }

  // ---------------------------------------------------------------------
  // Conversion of configured curves
  // ---------------------------------------------------------------------

  /** m2sm: bytes per second into scaled bytes per tick, rounded up. */
  function M2Sm(m: u32): (sm: u64)
    ensures sm * TICKS_PER_SEC >= m * SM_UNIT
    ensures (sm - 1) * TICKS_PER_SEC < m * SM_UNIT
    ensures sm == 0 <==> m == 0
    ensures sm < 0x2_0000_0000
  {
    var n := m * SM_UNIT + TICKS_PER_SEC - 1;
    DivUnique(n, TICKS_PER_SEC, n / TICKS_PER_SEC, n % TICKS_PER_SEC);
    DivBound(n, TICKS_PER_SEC, 0x2_0000_0000);
    n / TICKS_PER_SEC
  }

  /** m2ism: bytes per second into scaled ticks per byte, rounded up; a zero rate is infinitely slow. */
  function M2Ism(m: u32): (ism: u64)
    ensures m == 0 <==> ism == HT_INFINITY
    ensures m > 0 ==> ism * m >= TICKS_PER_SEC * ISM_UNIT && (ism - 1) * m < TICKS_PER_SEC * ISM_UNIT
    ensures m > 0 ==> ism <= TICKS_PER_SEC * ISM_UNIT
  {
    if m == 0 then HT_INFINITY
    else
      var n := TICKS_PER_SEC * ISM_UNIT + m - 1;
      DivUnique(n, m, n / m, n % m);
      DivBound(n, m, TICKS_PER_SEC * ISM_UNIT + 1);
      n / m
  }

  /** d2dx: microseconds into clock ticks, rounded up. */
  function D2Dx(d: u32): (dx: u64)
    ensures dx * USEC_PER_SEC >= d * TICKS_PER_SEC
    ensures (dx - 1) * USEC_PER_SEC < d * TICKS_PER_SEC
    ensures TICKS_PER_SEC == USEC_PER_SEC ==> dx == d
  {
    var n := d * TICKS_PER_SEC + USEC_PER_SEC - 1;
    DivUnique(n, USEC_PER_SEC, d, USEC_PER_SEC - 1);
    n / USEC_PER_SEC
  }

  /** sc2isc: the internal form of a configured curve. */
  function Sc2Isc(sc: ServiceCurve): (isc: InternalSc)
    ensures IscWf(isc)
    ensures isc.sm1 == 0 <==> sc.m1 == 0
    ensures isc.sm2 == 0 <==> sc.m2 == 0
  {
    var dx := D2Dx(sc.d);
    var sm1 := M2Sm(sc.m1);
    InternalSc(sm1, M2Ism(sc.m1), dx, SegX2Y(dx, sm1), M2Sm(sc.m2), M2Ism(sc.m2))
  }

  /** The six shape fields of a runtime curve. */
  function Shape(r: RuntimeSc): InternalSc {
    InternalSc(r.sm1, r.ism1, r.dx, r.dy, r.sm2, r.ism2)
  }

  /** rtsc_init: the internal curve anchored at (x, y). */
  function RtscInit(isc: InternalSc, x: u64, y: u64): (r: RuntimeSc)
    ensures Shape(r) == isc && r.x == x && r.y == y
    ensures RtscX2Y(r, x) == y
    ensures IscConsistent(isc) ==> Consistent(r)
  {
    RuntimeSc(x, y, isc.sm1, isc.ism1, isc.dx, isc.dy, isc.sm2, isc.ism2)
  }

  // ---------------------------------------------------------------------
  // Evaluation of runtime curves
  // ---------------------------------------------------------------------

  /** rtsc_x2y: the service the curve allows by time x. */
  function RtscX2Y(r: RuntimeSc, x: u64): (y: u64)
    ensures x <= r.x ==> y == r.y
  {
    if x <= r.x then r.y
    else if x <= Wrap64(r.x + r.dx) then Wrap64(r.y + SegX2Y(x - r.x, r.sm1))
    else Wrap64(Wrap64(r.y + r.dy) + SegX2Y(Wrap64(x - r.x - r.dx), r.sm2))
  }

  /** rtsc_y2x: the time at which the curve reaches service y. */
  function RtscY2X(r: RuntimeSc, y: u64): (x: u64)
    ensures y < r.y ==> x == r.x
    ensures r.dy == 0 && y == r.y ==> x == Wrap64(r.x + r.dx)
  {
    if y < r.y then r.x
    else if y <= Wrap64(r.y + r.dy) then
      if r.dy == 0 then Wrap64(r.x + r.dx)
      else Wrap64(r.x + SegY2X(y - r.y, r.ism1))
    else Wrap64(Wrap64(r.x + r.dx) + SegY2X(Wrap64(y - r.y - r.dy), r.ism2))
  }

  /** The same curve in unbounded integers: the value the fixed-point code means to compute. */
  function X2YExact(r: RuntimeSc, x: int): int {
    if x <= r.x then r.y
    else if x <= r.x + r.dx then r.y + (x - r.x) * r.sm1 / SM_UNIT
    else r.y + r.dy + (x - r.x - r.dx) * r.sm2 / SM_UNIT
  }

  function SegY2XExact(y: int, ism: int): int {
    if y == 0 then 0 else if ism == HT_INFINITY then HT_INFINITY else y * ism / ISM_UNIT
  }

  function Y2XExact(r: RuntimeSc, y: int): int {
    if y < r.y then r.x
    else if y <= r.y + r.dy then
      if r.dy == 0 then r.x + r.dx else r.x + SegY2XExact(y - r.y, r.ism1)
    else r.x + r.dx + SegY2XExact(y - r.y - r.dy, r.ism2)
  }

  /** The curve stays within 64 bits up to time xmax. */
  predicate NoOverflow(r: RuntimeSc, xmax: int) {
    && r.x + r.dx < TWO64
    && r.sm1 < SM_LIMIT && r.sm2 < SM_LIMIT
    && r.dx * r.sm1 / SM_UNIT < TWO64
    && X2YExact(r, xmax) < TWO64
  }

  /** rtsc_x2y computes the exact curve value wherever that value fits in 64 bits. */
  lemma RtscX2YIsExact(r: RuntimeSc, x: u64)
    requires r.x + r.dx < TWO64 && r.sm1 < SM_LIMIT && r.sm2 < SM_LIMIT
    requires X2YExact(r, x) < TWO64
    ensures RtscX2Y(r, x) == X2YExact(r, x)
  {
    if x <= r.x {
    } else if x <= r.x + r.dx {
      SegX2YIsExact(x - r.x, r.sm1);
    } else {
      SegX2YIsExact(x - r.x - r.dx, r.sm2);
    }
  }

  /** The exact curve is non-decreasing when its first segment is consistent. */
  lemma {:induction false} X2YExactMonotone(r: RuntimeSc, x1: int, x2: int)
    requires r.dy == r.dx * r.sm1 / SM_UNIT
    requires x1 <= x2
    ensures X2YExact(r, x1) <= X2YExact(r, x2)
  {
    if x1 > r.x && x1 <= r.x + r.dx {
      var x2c := if x2 <= r.x + r.dx then x2 else r.x + r.dx;
      MulMonotone(x1 - r.x, x2c - r.x, r.sm1);
      DivMonotone((x1 - r.x) * r.sm1, (x2c - r.x) * r.sm1, SM_UNIT);
    } else if x1 > r.x + r.dx {
      MulMonotone(x1 - r.x - r.dx, x2 - r.x - r.dx, r.sm2);
      DivMonotone((x1 - r.x - r.dx) * r.sm2, (x2 - r.x - r.dx) * r.sm2, SM_UNIT);
    }
  }

  /** rtsc_x2y is non-decreasing in x as long as the curve does not overflow. */
  lemma RtscX2YMonotone(r: RuntimeSc, x1: u64, x2: u64)
    requires Consistent(r) && NoOverflow(r, x2)
    requires x1 <= x2
    ensures RtscX2Y(r, x1) <= RtscX2Y(r, x2)
  {
    SegX2YIsExact(r.dx, r.sm1);
    X2YExactMonotone(r, x1, x2);
    RtscX2YIsExact(r, x1);
    RtscX2YIsExact(r, x2);
  }

  /** Continuity at the segment break: the first segment ends at (x + dx, y + dy), where the second begins. */
  lemma RtscX2YContinuous(r: RuntimeSc)
    requires Consistent(r)
    requires r.x + r.dx < TWO64 && r.y + r.dy < TWO64
    ensures RtscX2Y(r, r.x + r.dx) == r.y + r.dy
    ensures Wrap64(Wrap64(r.y + r.dy) + SegX2Y(0, r.sm2)) == r.y + r.dy
  {
    SegX2YZero(r.sm1);
    SegX2YZero(r.sm2);
    if r.dx != 0 {
      assert Wrap64(r.x + r.dx) == r.x + r.dx;
    }
  }

  lemma SegX2YZero(sm: u64)
    ensures SegX2Y(0, sm) == 0
  {
    assert 0 / SM_UNIT == 0 && 0 % SM_UNIT == 0;
  }

  /** rtsc_y2x computes the exact inverse wherever that value fits in 64 bits; it never answers before the anchor. */
  lemma RtscY2XIsExact(r: RuntimeSc, y: u64)
    requires r.y + r.dy < TWO64
    requires r.ism1 == HT_INFINITY || r.ism1 < ISM_LIMIT
    requires r.ism2 == HT_INFINITY || r.ism2 < ISM_LIMIT
    requires Y2XExact(r, y) < TWO64
    ensures RtscY2X(r, y) == Y2XExact(r, y)
    ensures RtscY2X(r, y) >= r.x
  {
    if y < r.y {
    } else if y <= r.y + r.dy {
      if r.dy != 0 && y - r.y != 0 && r.ism1 != HT_INFINITY {
        SegY2XIsExact(y - r.y, r.ism1);
      }
    } else {
      if r.ism2 != HT_INFINITY {
        SegY2XIsExact(y - r.y - r.dy, r.ism2);
      }
    }
  }

  /**
   * As written, a zero second-segment rate (infinite inverse slope) is added to
   * the break point without saturation, so the inverse wraps to one tick
   * before the break.
   */
  lemma RtscY2XZeroRateWraps(r: RuntimeSc, y: u64)
    requires r.ism2 == HT_INFINITY && 0 < r.x + r.dx < TWO64
    requires r.y + r.dy < y
    ensures RtscY2X(r, y) == r.x + r.dx - 1
  {
  }

  // ---------------------------------------------------------------------
  // Lower envelope
  // ---------------------------------------------------------------------

  /** The offset from x at which the re-anchored curve's first segment meets the old curve. */
  function IntersectDx(r: RuntimeSc, x: u64, gap: u64, dsm: u64): (dx: u64)
    requires dsm > 0
  {
    var n := Wrap64(gap * SM_UNIT);
    DivShrinks(n, dsm);
    var dx0: u64 := n / dsm;
    var brk := Wrap64(r.x + r.dx);
    if brk > x then Wrap64(dx0 + (brk - x)) else dx0
  }

  /**
   * rtsc_min with the divisor of the intersection computed either in 64 bits
   * (truncate32 = false) or, as the C code does, stored into a u32
   * (truncate32 = true).  None stands for the division trap of a zero divisor.
   */
  function RtscMinUsing(r: RuntimeSc, isc: InternalSc, x: u64, y: u64, truncate32: bool): Option<RuntimeSc>
  {
    if isc.sm1 <= isc.sm2 then
      // convex: the curve anchored later is never below the current one beyond x
      if RtscX2Y(r, x) < y then Some(r) else Some(r.(x := x, y := y))
    else
      var y1 := RtscX2Y(r, x);
      if y1 <= y then Some(r)
      else
        var y2 := RtscX2Y(r, Wrap64(x + isc.dx));
        if y2 >= Wrap64(y + isc.dy) then Some(r.(x := x, y := y, dx := isc.dx, dy := isc.dy))
        else
          var dsm := if truncate32 then Wrap32(isc.sm1 - isc.sm2) else isc.sm1 - isc.sm2;
          if dsm == 0 then None
          else
            var dx := IntersectDx(r, x, y1 - y, dsm);
            Some(r.(x := x, y := y, dx := dx, dy := SegX2Y(dx, isc.sm1)))
  }

  /** rtsc_min exactly as written: the slope difference is truncated to 32 bits before dividing. */
  function RtscMinAsWritten(r: RuntimeSc, isc: InternalSc, x: u64, y: u64): Option<RuntimeSc> {
    RtscMinUsing(r, isc, x, y, true)
  }

  /**
   * rtsc_min with a 64-bit slope difference.  The result reads min(old
   * reading, y) at x.  Beyond x it is not in general the minimum of the two
   * curves: the convex case compares them at x alone, and the concave case
   * at x and at x + dx (RtscMinConvexNotMin).
   */
  function RtscMin(r: RuntimeSc, isc: InternalSc, x: u64, y: u64): RuntimeSc {
    RtscMinUsing(r, isc, x, y, false).value
  }

  /**
   * The envelope reads min(old reading, y) at x; it is the old curve when
   * that is already at or below the new anchor, and otherwise a curve
   * anchored at (x, y) with the same slopes.
   */
  lemma RtscMinSpec(r: RuntimeSc, isc: InternalSc, x: u64, y: u64)
    ensures var r' := RtscMin(r, isc, x, y);
      && RtscX2Y(r', x) == Min(RtscX2Y(r, x), y)
      && (isc.sm1 <= isc.sm2 && RtscX2Y(r, x) < y ==> r' == r)
      && (isc.sm1 > isc.sm2 && RtscX2Y(r, x) <= y ==> r' == r)
      && (r' != r ==> r'.x == x && r'.y == y)
      && r'.sm1 == r.sm1 && r'.ism1 == r.ism1 && r'.sm2 == r.sm2 && r'.ism2 == r.ism2
      && (Consistent(r) && IscConsistent(isc) && r.sm1 == isc.sm1 ==> Consistent(r'))
  {
  }

  /** The reading at the anchor point alone, the fact the callers need. */
  lemma RtscMinAt(r: RuntimeSc, isc: InternalSc, x: u64, y: u64)
    ensures RtscX2Y(RtscMin(r, isc, x, y), x) == Min(RtscX2Y(r, x), y)
  {
    RtscMinSpec(r, isc, x, y);
  }

  /**
   * The intersection offset of the concave case: dx is the time from x to
   * the old curve's break point, if that is still ahead, plus d, the largest
   * offset at which the first slope sm1 has gained no more than the gap
   * y1 - y over the second slope sm2 (in the scaled units both slopes use).
   */
  lemma RtscMinIntersectOffset(r: RuntimeSc, x: u64, gap: u64, sm1: u64, sm2: u64)
    requires sm2 < sm1 && gap < SM_LIMIT && r.x + r.dx < TWO64
    ensures var off := if r.x + r.dx > x then r.x + r.dx - x else 0;
      var dx := IntersectDx(r, x, gap, sm1 - sm2); var d := Wrap64(dx - off);
      && d * sm1 <= d * sm2 + gap * SM_UNIT
      && (d + 1) * sm1 > (d + 1) * sm2 + gap * SM_UNIT
      && (d + off < TWO64 ==> dx == d + off)
  {
    var dsm := sm1 - sm2;
    MulMonotone(gap, SM_LIMIT - 1, SM_UNIT);
    var n := gap * SM_UNIT;
    assert Wrap64(n) == n;
    DivShrinks(n, dsm);
    var d0 := n / dsm;
    assert n == d0 * dsm + n % dsm;
    var off := if r.x + r.dx > x then r.x + r.dx - x else 0;
    assert IntersectDx(r, x, gap, dsm) == Wrap64(d0 + off);
    Wrap64AddWrap(d0 + off, -off);
    assert d0 * sm1 == d0 * sm2 + d0 * dsm;
    assert (d0 + 1) * sm1 == (d0 + 1) * sm2 + (d0 + 1) * dsm;
  }

  /**
   * The convex case keeps the old curve when it is below y at x, even where
   * it later rises above the curve anchored at (x, y): for a curve that
   * serves nothing for 10 us and then 1000000 bytes/s, started at 0, the
   * reading at 105 after rtsc_min at (100, 91) is 95, where the curve
   * anchored at (100, 91) reads 91.
   */
  lemma RtscMinConvexNotMin()
    ensures var isc := Sc2Isc(ServiceCurve(0, 10, 1000000));
      var r := RtscInit(isc, 0, 0);
      && isc.sm1 <= isc.sm2
      && RtscX2Y(RtscMin(r, isc, 100, 91), 105) == 95
      && RtscX2Y(RtscInit(isc, 100, 91), 105) == 91
  {
    var isc := Sc2Isc(ServiceCurve(0, 10, 1000000));
    assert M2Sm(0) == 0;
    assert M2Sm(1000000) == SM_UNIT;
    assert isc.dx == 10 && isc.dy == 0;
    var r := RtscInit(isc, 0, 0);
    assert SegX2Y(90, SM_UNIT) == 90;
    assert SegX2Y(95, SM_UNIT) == 95;
    assert RtscX2Y(r, 100) == 90;
    assert RtscMin(r, isc, 100, 91) == r;
    assert RtscX2Y(r, 105) == 95;
    assert SegX2Y(5, 0) == 0;
  }

  /** Whenever sm1 - sm2 fits in 32 bits, the code as written computes the intended envelope. */
  lemma RtscMinAsWrittenAgrees(r: RuntimeSc, isc: InternalSc, x: u64, y: u64)
    requires isc.sm1 <= isc.sm2 || isc.sm1 - isc.sm2 < TWO32
    ensures RtscMinAsWritten(r, isc, x, y) == Some(RtscMin(r, isc, x, y))
  {
  }

  /**
   * A concave real-time curve of 4096000000 bytes/s for 1000 us, then 0:
   * its first slope is exactly 2^32 scaled units, so the 32-bit divisor is
   * zero and rtsc_min divides by zero, where the 64-bit form yields an offset.
   */
  lemma RtscMinDivisorTruncated()
    ensures var isc := Sc2Isc(ServiceCurve(4096000000, 1000, 0));
      var r := RtscInit(isc, 0, 0);
      && isc.sm1 == TWO32 && isc.sm2 == 0
      && RtscMinAsWritten(r, isc, 500, 1) == None
      && RtscMin(r, isc, 500, 1).dx == 999
  {
    var isc := Sc2Isc(ServiceCurve(4096000000, 1000, 0));
    assert M2Sm(4096000000) == TWO32;
    assert M2Sm(0) == 0;
    assert isc.dx == 1000;
    assert SegX2Y(1000, TWO32) == 4096000;
    var r := RtscInit(isc, 0, 0);
    assert RtscX2Y(r, 500) == 2048000 by {
      assert SegX2Y(500, TWO32) == 2048000;
    }
    assert RtscX2Y(r, 1500) == 4096000 by {
      assert SegX2Y(500, 0) == 0;
    }
    assert Wrap64(2047999 * SM_UNIT) / TWO32 == 499;
    assert IntersectDx(r, 500, 2047999, TWO32) == 999;
  }
}

=== FILE: ec_combine.dfy ===
/**
 * The answer-merging rules of the GlusterFS erasure-coding translator: when
 * several bricks answer the same request, their answers are checked for
 * agreement and merged into one.
 */
module EcCombine {
  import opened Fixed
  import opened Wrappers
  import opened Errno

  // ---------------------------------------------------------------------
  // Timestamps
  // ---------------------------------------------------------------------

  /** A timestamp: signed seconds and unsigned nanoseconds. */
  datatype Time = Time(sec: int, nsec: u32)

  /** Lexicographic order on (seconds, nanoseconds). */
  predicate TimeLe(a: Time, b: Time) {
    a.sec < b.sec || (a.sec == b.sec && a.nsec <= b.nsec)
  }

  /**
   * ec_iatt_time_merge: the later of the two timestamps.  The destination is
   * replaced only when it is strictly earlier.
   */
  function TimeMerge(dst: Time, src: Time): (r: Time)
    ensures TimeLe(dst, r) && TimeLe(src, r)
    ensures r == dst || r == src
    ensures TimeLe(src, dst) ==> r == dst
  {
    if dst.sec < src.sec || (dst.sec == src.sec && dst.nsec < src.nsec) then src else dst
  }

  /** The merge is the lexicographic maximum, so the order of the answers does not matter. */
  lemma TimeMergeCommutes(a: Time, b: Time)
    ensures TimeMerge(a, b) == TimeMerge(b, a)
    ensures TimeMerge(TimeMerge(a, b), b) == TimeMerge(a, b)
  {
  }

  // ---------------------------------------------------------------------
  // Inode attributes
  // ---------------------------------------------------------------------

  datatype IaType = Invalid | Reg | Dir | Lnk | Blk | Chr | Fifo | Sock

  /**
   * The fields of struct iatt the merge reads or writes.  gfid stands for the
   * 16-byte file id; the mode st_mode_from_ia computes is determined by
   * (typ, prot).
   */
  datatype Iatt = Iatt(
    ino: u64, gfid: seq<int>, typ: IaType, prot: nat, rdev: u64,
    uid: u32, gid: u32, nlink: u32, size: u64,
    blocks: u64, blksize: u32,
    atime: Time, mtime: Time, ctime: Time)

  /** Fields that must agree even without a lock (ino, gfid, and rdev of device files). */
  predicate BasicDiffer(d: Iatt, s: Iatt) {
    d.ino != s.ino || ((d.typ == Blk || d.typ == Chr) && d.rdev != s.rdev) || d.gfid != s.gfid
  }

  /** Fields that may change while the inode is not locked (uid, gid, mode). */
  predicate UnstableDiffer(d: Iatt, s: Iatt) {
    d.uid != s.uid || d.gid != s.gid || d.typ != s.typ || d.prot != s.prot
  }

  /**
   * ec_iatt_is_trusted: inside a lookup every answer is trusted; otherwise an
   * answer is trusted when its inode is one of those the top-level request
   * holds locked.
   */
  predicate Trusted(lookup: bool, locked: seq<u64>, a: Iatt) {
    lookup || a.ino in locked
  }

  /**
   * Whether the pair at one position makes the combine fail.  The trust test
   * is applied to the first destination entry whatever the position, as the
   * C code passes the array itself.
   */
  predicate Mismatch(d: Iatt, s: Iatt, trusted: bool) {
    BasicDiffer(d, s) || (UnstableDiffer(d, s) && trusted)
  }

  /** Everything but blocks, blksize and the three timestamps is as in a. */
  predicate SameExceptMerged(a: Iatt, b: Iatt) {
    a == b.(blocks := a.blocks, blksize := a.blksize, atime := a.atime, mtime := a.mtime, ctime := a.ctime)
  }

  /**
   * One destination entry after merging: blocks are added (in u64), the
   * larger block size and the later of each timestamp are kept.
   */
  function MergeIatt(d: Iatt, s: Iatt): (r: Iatt)
    ensures SameExceptMerged(d, r)
    ensures r.blocks == Wrap64(d.blocks + s.blocks)
    ensures r.blksize >= d.blksize && r.blksize >= s.blksize && (r.blksize == d.blksize || r.blksize == s.blksize)
    ensures r.atime == TimeMerge(d.atime, s.atime) && r.mtime == TimeMerge(d.mtime, s.mtime)
    ensures r.ctime == TimeMerge(d.ctime, s.ctime)
  {
    d.(blocks := Wrap64(d.blocks + s.blocks),
       blksize := if d.blksize < s.blksize then s.blksize else d.blksize,
       atime := TimeMerge(d.atime, s.atime),
       mtime := TimeMerge(d.mtime, s.mtime),
       ctime := TimeMerge(d.ctime, s.ctime))
  }

  /** The merged fields do not depend on which answer is the destination. */
  lemma MergeIattSymmetric(a: Iatt, b: Iatt)
    ensures var x := MergeIatt(a, b); var y := MergeIatt(b, a);
      x.blocks == y.blocks && x.blksize == y.blksize
      && x.atime == y.atime && x.mtime == y.mtime && x.ctime == y.ctime
  {
    TimeMergeCommutes(a.atime, b.atime);
    TimeMergeCommutes(a.mtime, b.mtime);
    TimeMergeCommutes(a.ctime, b.ctime);
  }

  /**
   * ec_iatt_combine: the first count entries of the two answers are compared
   * pairwise; on any mismatch the result is 0 and nothing is modified.
   * Otherwise each of those destination entries is merged with its source
   * entry and the result is 1.
   */
  method IattCombine(lookup: bool, locked: seq<u64>, dst: seq<Iatt>, src: seq<Iatt>, count: int)
    returns (ok: bool, r: seq<Iatt>)
    requires count <= |dst| && count <= |src|
    ensures ok <==> forall i :: 0 <= i < count ==> !Mismatch(dst[i], src[i], Trusted(lookup, locked, dst[0]))
    ensures !ok ==> r == dst
    ensures ok ==> |r| == |dst|
    ensures ok ==> forall i :: 0 <= i < count ==> r[i] == MergeIatt(dst[i], src[i])
    ensures ok ==> forall i :: count <= i < |dst| && 0 <= i ==> r[i] == dst[i]
  {
    var i := 0;
    while i < count
      invariant 0 <= i && (i == 0 || i <= count)
      invariant forall j :: 0 <= j < i ==> !Mismatch(dst[j], src[j], Trusted(lookup, locked, dst[0]))
    {
      var failed := BasicDiffer(dst[i], src[i]);
      if !failed && UnstableDiffer(dst[i], src[i]) {
        if Trusted(lookup, locked, dst[0]) {
          failed := true;
        }
      }
      if failed {
        return false, dst;
      }
      i := i + 1;
    }
    r := dst;
    var n := count;
    while n > 0
      invariant n <= count && |r| == |dst| && (count > 0 ==> 0 <= n)
      invariant forall j :: 0 <= j < |dst| && (j < n || j >= count) ==> r[j] == dst[j]
      invariant forall j :: n <= j < count && 0 <= j ==> r[j] == MergeIatt(dst[j], src[j])
    {
      n := n - 1;
      r := r[n := MergeIatt(r[n], src[n])];
    }
    ok := true;
  }

  /**
   * The block count ec_iatt_rebuild computes for one entry: the fragment
   * blocks scaled to the whole file, (blocks * fragments + answers - 1) /
   * answers in u64.
   */
  function RebuildBlocks(blocks: u64, fragments: u32, answers: int): (r: u64)
    requires 0 < answers < 0x8000_0000
  {
    var w := Wrap64(blocks * fragments + answers - 1);
    DivShrinks(w, answers);
    w / answers
  }

  /** Without overflow, the rebuilt count is the ceiling of blocks * fragments / answers. */
  lemma RebuildIsCeiling(blocks: u64, fragments: u32, answers: int)
    requires 0 < answers < 0x8000_0000
    requires blocks * fragments + answers - 1 < TWO64
    ensures var r := RebuildBlocks(blocks, fragments, answers);
      r * answers >= blocks * fragments && (r - 1) * answers < blocks * fragments
  {
    var n := blocks * fragments;
    var x := n + answers - 1;
    assert RebuildBlocks(blocks, fragments, answers) == x / answers;
    var q, m := x / answers, x % answers;
    var p := q * answers;
    assert x == p + m && 0 <= m < answers;
    assert (q - 1) * answers == p - answers;
  }

  /** ec_iatt_rebuild: the first count entries get their rebuilt block counts; nothing else changes. */
  function Rebuild(iatt: seq<Iatt>, count: int, answers: int, fragments: u32): (r: seq<Iatt>)
    requires count <= |iatt| && 0 < answers < 0x8000_0000
    ensures |r| == |iatt|
    ensures forall i :: 0 <= i < |r| ==> r[i] == iatt[i].(blocks := r[i].blocks)
    ensures forall i :: 0 <= i < |r| && count <= i ==> r[i].blocks == iatt[i].blocks
    ensures forall i :: 0 <= i < count && iatt[i].blocks * fragments + answers - 1 < TWO64 ==>
      r[i].blocks * answers >= iatt[i].blocks * fragments
      && (r[i].blocks - 1) * answers < iatt[i].blocks * fragments
  {
    var r := seq(|iatt|, i requires 0 <= i < |iatt| =>
      if i < count then iatt[i].(blocks := RebuildBlocks(iatt[i].blocks, fragments, answers)) else iatt[i]);
    forall i | 0 <= i < count && iatt[i].blocks * fragments + answers - 1 < TWO64
      ensures r[i].blocks * answers >= iatt[i].blocks * fragments
      ensures (r[i].blocks - 1) * answers < iatt[i].blocks * fragments
    {
      RebuildIsCeiling(iatt[i].blocks, fragments, answers);
    }
    r
  }

  // ---------------------------------------------------------------------
  // File-system statistics
  // ---------------------------------------------------------------------

  /** The fields of struct statvfs, all unsigned long (u64); f_flag as a bit set. */
  datatype Statvfs = Statvfs(
    bsize: u64, frsize: u64, blocks: u64, bfree: u64, bavail: u64,
    files: u64, ffree: u64, favail: u64, fsid: u64, flag: bv64, namemax: u64)

  /** A block count in units of `from` bytes re-expressed in units of `to` bytes, in u64. */
  function Rescale(n: u64, from: u64, to: u64): u64
    requires to > 0
  {
    var w := Wrap64(n * from);
    DivShrinks(w, to);
    w / to
  }

  /** The answer's block counts rescaled to the fragment size `to`, when `to` is larger than its own. */
  function Lift(a: Statvfs, to: u64): (r: Statvfs)
    ensures r.frsize == Max(a.frsize, to)
    ensures a.frsize < to ==> r.frsize == to && r == a.(blocks := r.blocks, bfree := r.bfree, bavail := r.bavail, frsize := to)
    ensures a.frsize >= to ==> r == a
  {
    if a.frsize < to then
      a.(blocks := Rescale(a.blocks, a.frsize, to),
         bfree := Rescale(a.bfree, a.frsize, to),
         bavail := Rescale(a.bavail, a.frsize, to),
         frsize := to)
    else a
  }

  /**
   * ec_statvfs_combine.  The side with the smaller fragment size is rescaled
   * to the larger one (the source record is rescaled in place too, and
   * returned second); then blocks, bfree, bavail, ffree, favail and namemax
   * take the minimum, bsize and files the maximum, and f_flag the bits both
   * answers have.
   */
  function StatvfsCombine(dst: Statvfs, src: Statvfs): (r: (Statvfs, Statvfs))
    ensures r.0.frsize == Max(dst.frsize, src.frsize) && r.1.frsize == src.frsize
    ensures r.0.flag == dst.flag & src.flag && r.0.fsid == dst.fsid
  {
    var s := Lift(src, dst.frsize);
    (Merge(dst, src, Lift(dst, src.frsize), s), s.(frsize := src.frsize))
  }

  /**
   * The combined record, given both answers and their block counts at the
   * common fragment size (d for the destination, s for the source).
   */
  function Merge(dst: Statvfs, src: Statvfs, d: Statvfs, s: Statvfs): (r: Statvfs)
  {
    Statvfs(
      if dst.bsize < src.bsize then src.bsize else dst.bsize,
      d.frsize,
      if d.blocks > s.blocks then s.blocks else d.blocks,
      if d.bfree > s.bfree then s.bfree else d.bfree,
      if d.bavail > s.bavail then s.bavail else d.bavail,
      if dst.files < src.files then src.files else dst.files,
      if dst.ffree > src.ffree then src.ffree else dst.ffree,
      if dst.favail > src.favail then src.favail else dst.favail,
      dst.fsid,
      dst.flag & src.flag,
      if dst.namemax > src.namemax then src.namemax else dst.namemax)
  }

  /**
   * The combined counts: the block counts are the smaller of the two after
   * rescaling to the larger fragment size, the other fields the smaller or
   * larger of the two answers' values.
   */
  lemma StatvfsCombineSpec(dst: Statvfs, src: Statvfs)
    ensures var r := StatvfsCombine(dst, src); var d := Lift(dst, src.frsize); var s := Lift(src, dst.frsize);
      && r.1 == s.(frsize := src.frsize)
      && r.0.bsize == Max(dst.bsize, src.bsize) && r.0.files == Max(dst.files, src.files)
      && r.0.blocks == Min(d.blocks, s.blocks) && r.0.bfree == Min(d.bfree, s.bfree)
      && r.0.bavail == Min(d.bavail, s.bavail)
      && r.0.ffree == Min(dst.ffree, src.ffree) && r.0.favail == Min(dst.favail, src.favail)
      && r.0.namemax == Min(dst.namemax, src.namemax)
  {
  }

  /** The combined record does not depend on which answer came first (apart from fsid). */
  lemma StatvfsSymmetric(a: Statvfs, b: Statvfs)
    ensures StatvfsCombine(a, b).0 == StatvfsCombine(b, a).0.(fsid := a.fsid)
  {
  }

  /** Combining an answer with itself gives it back. */
  lemma StatvfsIdempotent(a: Statvfs)
    ensures StatvfsCombine(a, a) == (a, a)
  {
  }

  /**
   * Rescaling never reports more bytes than the answer did: without u64
   * overflow, the rescaled count times the new fragment size is at most the
   * old count times the old one.
   */
  lemma {:induction false} RescaleNoGrowth(n: u64, from: u64, to: u64)
    requires to > 0 && n * from < TWO64
    ensures Rescale(n, from, to) * to <= n * from
  {
    var q := (n * from) / to;
    assert n * from == q * to + (n * from) % to;
  }

  // ---------------------------------------------------------------------
  // Agreement of two answers
  // ---------------------------------------------------------------------

  /** The return value and errno of one brick's answer. */
  datatype Answer = Answer(opRet: int, opErrno: int)

  /** What ec_combine_check decides, and whether it called the combine function. */
  datatype Check = Check(result: int, combined: bool)

  /**
   * ec_combine_check.  xdataEqual is ec_dict_compare's verdict on the two
   * extra-data dictionaries; combine is Some(v) when a combine function is
   * given, v being what it returns for these answers.
   */
  function CombineCheck(dst: Answer, src: Answer, xdataEqual: bool, combine: Option<int>): (r: Check)
    ensures var disagree := dst.opRet != src.opRet || (dst.opRet < 0 && dst.opErrno != src.opErrno) || !xdataEqual;
      && (disagree ==> r == Check(0, false))
      && (r.combined <==> !disagree && dst.opRet >= 0 && combine.Some?)
      && (r.combined ==> r.result == combine.value)
      && (!disagree && !r.combined ==> r.result == 1)
  {
    if dst.opRet != src.opRet then Check(0, false)
    else if dst.opRet < 0 && dst.opErrno != src.opErrno then Check(0, false)
    else if !xdataEqual then Check(0, false)
    else if dst.opRet >= 0 && combine.Some? then Check(combine.value, true)
    else Check(1, false)
  }

  /** Agreement is symmetric: swapping the answers gives the same verdict. */
  lemma CombineCheckSymmetric(a: Answer, b: Answer, xdataEqual: bool, combine: Option<int>)
    ensures CombineCheck(a, b, xdataEqual, combine) == CombineCheck(b, a, xdataEqual, combine)
  {
  }

  // ---------------------------------------------------------------------
  // Concatenation formats
  // ---------------------------------------------------------------------

  /** The first position of c in s at or after k (strchr on s + k). */
  function FindFrom(s: string, c: char, k: nat): (r: Option<nat>)
    requires k <= |s|
    decreases |s| - k
    ensures r.None? <==> forall m :: k <= m < |s| ==> s[m] != c
    ensures r.Some? ==> k <= r.value < |s| && s[r.value] == c
    ensures r.Some? ==> forall m :: k <= m < r.value ==> s[m] != c
  {
    if k == |s| then None
    else if s[k] == c then Some(k)
    else FindFrom(s, c, k + 1)
  }

  /** A position holding c with no c between k and it is what FindFrom finds. */
  lemma FindFromIs(s: string, c: char, k: nat, m: nat)
    requires k <= m < |s| && s[m] == c
    requires forall n :: k <= n < m ==> s[n] != c
    ensures FindFrom(s, c, k) == Some(m)
  {
    var r := FindFrom(s, c, k);
    assert r.Some?;
  }

  /**
   * ec_concat_prepare, on the already formatted string: split at the first
   * '{' and the next '}' after it into prefix, separator and suffix;
   * -EINVAL when either brace is missing.
   */
  function ConcatPrepare(str: string): (r: Result<(string, string, string)>)
    ensures r.Err? ==> r.code == -EINVAL
    ensures '{' !in str ==> r.Err?
    ensures r.Ok? ==> '{' !in r.value.0 && '}' !in r.value.1
  {
    var open := FindFrom(str, '{', 0);
    if open.None? then Err(-EINVAL)
    else
      var close := FindFrom(str, '}', open.value + 1);
      if close.None? then Err(-EINVAL)
      else Ok((str[..open.value], str[open.value + 1..close.value], str[close.value + 1..]))
  }

  /** The three parts, with the two braces between them, make up the formatted string. */
  lemma ConcatPrepareSpec(str: string)
    ensures var r := ConcatPrepare(str);
      r.Ok? ==> str == r.value.0 + "{" + r.value.1 + "}" + r.value.2
  {
    var open := FindFrom(str, '{', 0);
    if open.Some? {
      var close := FindFrom(str, '}', open.value + 1);
      if close.Some? {
        Reassemble(str, open.value, close.value);
      }
    }
  }

  /** A string is its parts around two positions put back together. */
  lemma Reassemble(s: string, i: nat, k: nat)
    requires i < k < |s|
    ensures s == s[..i] + [s[i]] + s[i + 1..k] + [s[k]] + s[k + 1..]
  {
    assert s == s[..i] + s[i..];
    assert s[i..] == [s[i]] + s[i + 1..];
    assert s[i + 1..] == s[i + 1..k] + s[k..];
    assert s[k..] == [s[k]] + s[k + 1..];
  }

  /**
   * The split is the only one: a string built from a prefix without '{' and a
   * separator without '}' splits back into exactly those parts.
   */
  lemma {:induction false} ConcatPrepareExact(pre: string, sep: string, post: string)
    requires '{' !in pre && '}' !in sep
    ensures ConcatPrepare(pre + "{" + sep + "}" + post) == Ok((pre, sep, post))
  {
    var str := pre + "{" + sep + "}" + post;
    var o, cl := |pre|, |pre| + 1 + |sep|;
    Layout(pre, sep, post);
    FindFromIs(str, '{', 0, o);
    FindFromIs(str, '}', o + 1, cl);
  }

  /** Where the parts and the braces sit in pre + "{" + sep + "}" + post. */
  lemma Layout(pre: string, sep: string, post: string)
    ensures var str := pre + "{" + sep + "}" + post; var o, cl := |pre|, |pre| + 1 + |sep|;
      && |str| == cl + 1 + |post|
      && str[o] == '{' && str[cl] == '}'
      && (forall n :: 0 <= n < o ==> str[n] == pre[n])
      && (forall n :: o + 1 <= n < cl ==> str[n] == sep[n - o - 1])
      && str[..o] == pre && str[o + 1..cl] == sep && str[cl + 1..] == post
  {
  }

  /** An opening brace with no closing brace after it is rejected. */
  lemma {:induction false} ConcatPrepareUnclosed(pre: string, post: string)
    requires '{' !in pre && '}' !in post
    ensures ConcatPrepare(pre + "{" + post) == Err(-EINVAL)
  {
    var str := pre + "{" + post;
    assert str[|pre|] == '{';
    assert forall n :: 0 <= n < |pre| ==> str[n] == pre[n];
    FindFromIs(str, '{', 0, |pre|);
    assert forall n :: |pre| + 1 <= n < |str| ==> str[n] == post[n - |pre| - 1];
  }

  // ---------------------------------------------------------------------
  // Per-brick values
  // ---------------------------------------------------------------------

  /**
   * ec_dict_data_max32 / ec_dict_data_max64 over the per-brick values of
   * one key (None for a brick without an answer or without the key): the
   * largest value present, or 0 when none is.
   */
  method DictMax(vals: seq<Option<u64>>) returns (m: u64)
    ensures forall i :: 0 <= i < |vals| && vals[i].Some? ==> vals[i].value <= m
    ensures m == 0 || exists i :: 0 <= i < |vals| && vals[i] == Some(m)
  {
    m := 0;
    var i := 0;
    while i < |vals|
      invariant 0 <= i <= |vals|
      invariant forall j :: 0 <= j < i && vals[j].Some? ==> vals[j].value <= m
      invariant m == 0 || exists j :: 0 <= j < i && vals[j] == Some(m)
    {
      if vals[i].Some? && m < vals[i].value {
        m := vals[i].value;
      }
      i := i + 1;
    }
  }

  /** The 32-bit variant: the same maximum, which then fits 32 bits. */
  method DictMax32(vals: seq<Option<u32>>) returns (m: u32)
    ensures forall i :: 0 <= i < |vals| && vals[i].Some? ==> vals[i].value <= m
    ensures m == 0 || exists i :: 0 <= i < |vals| && vals[i] == Some(m)
  {
    var wide := seq(|vals|, i requires 0 <= i < |vals| =>
      if vals[i].Some? then Some(vals[i].value as u64) else None);
    var w := DictMax(wide);
    if w != 0 {
      var k :| 0 <= k < |vals| && wide[k] == Some(w);
      assert vals[k] == Some(w);
    }
    m := w;
    assert forall i :: 0 <= i < |vals| && vals[i].Some? ==> wide[i].Some? && wide[i].value == vals[i].value;
  }

  // ---------------------------------------------------------------------
  // Read vectors and locks
  // ---------------------------------------------------------------------

  /** The total length of the first count buffers of an I/O vector (iov_length). */
  function IovLength(v: seq<nat>, count: nat): nat
    requires count <= |v|
  {
    if count == 0 then 0 else IovLength(v, count - 1) + v[count - 1]
  }

  /** The total, as the int32_t the C code stores it in: only its low 32 bits survive. */
  function TotalAsI32(v: seq<nat>, count: int): (r: int)
    requires count <= |v|
    ensures -0x8000_0000 <= r < 0x8000_0000
  {
    var t := if count > 0 then Wrap32(IovLength(v, count)) else 0;
    if t >= 0x8000_0000 then t - TWO32 else t
  }

  /** ec_vector_compare: whether the two vectors' total lengths, truncated to int32_t, agree. */
  function VectorCompare(dst: seq<nat>, dstCount: int, src: seq<nat>, srcCount: int): (r: bool)
    requires dstCount <= |dst| && srcCount <= |src|
  {
    TotalAsI32(dst, dstCount) == TotalAsI32(src, srcCount)
  }

  /**
   * Vectors of equal total length compare equal; vectors compare equal only
   * when their totals agree modulo 2^32, which for totals below 2^31 means
   * they are equal.
   */
  lemma VectorCompareSpec(dst: seq<nat>, dstCount: int, src: seq<nat>, srcCount: int)
    requires dstCount <= |dst| && srcCount <= |src|
    ensures var a := if dstCount > 0 then IovLength(dst, dstCount) else 0;
      var b := if srcCount > 0 then IovLength(src, srcCount) else 0;
      && (a == b ==> VectorCompare(dst, dstCount, src, srcCount))
      && (VectorCompare(dst, dstCount, src, srcCount) <==> Wrap32(a) == Wrap32(b))
      && (a < 0x8000_0000 && b < 0x8000_0000 ==> (VectorCompare(dst, dstCount, src, srcCount) <==> a == b))
  {
  }

  /** The fields of struct gf_flock that ec_flock_compare compares; the owner is its byte string. */
  datatype Flock = Flock(typ: int, whence: int, start: int, len: int, pid: int, owner: seq<int>)

  /** ec_flock_compare: 1 exactly when the two lock descriptions are identical, else 0. */
  function FlockCompare(dst: Flock, src: Flock): (r: int)
    ensures r == 1 <==> dst == src
    ensures r == 0 || r == 1
  {
    if dst.typ != src.typ || dst.whence != src.whence || dst.start != src.start
      || dst.len != src.len || dst.pid != src.pid || dst.owner != src.owner then 0
    else 1
  }
}

=== FILE: errno.dfy ===
/** The Linux error numbers returned (negated) by the modelled operations. */
module Errno {
  const ENOENT: int := 2
  const EBUSY: int := 16
  const EEXIST: int := 17
  const EINVAL: int := 22
}

=== FILE: essid.dfy ===
/**
 * escape_essid of the 802.11 stack: renders a network name (ESSID) for a
 * log line.  A hidden name becomes "<hidden>"; otherwise at most
 * IW_ESSID_MAX_SIZE bytes are copied, each NUL byte spelled as the two
 * characters backslash and '0', into a static buffer of
 * 2 * IW_ESSID_MAX_SIZE + 1 bytes.
 */
module Essid {
  import opened Fixed

  type byte = x: int | 0 <= x < 256

  /** The longest ESSID the wireless extensions carry. */
  const IW_ESSID_MAX_SIZE: nat := 32
  /** Size of the static output buffer, terminator included. */
  const ESCAPED_SIZE: nat := IW_ESSID_MAX_SIZE * 2 + 1

  const BACKSLASH: byte := 0x5C
  const DIGIT_ZERO: byte := 0x30

  /** The bytes of "<hidden>". */
  const HIDDEN: seq<byte> := [0x3C, 0x68, 0x69, 0x64, 0x64, 0x65, 0x6E, 0x3E]

  /** How one input byte is written out. */
  function EscapeByte(b: byte): seq<byte> {
    if b == 0 then [BACKSLASH, DIGIT_ZERO] else [b]
  }

  /** Reference definition: every byte escaped, in order. */
  function EscapeAll(s: seq<byte>): seq<byte> {
    if |s| == 0 then [] else EscapeAll(s[..|s| - 1]) + EscapeByte(s[|s| - 1])
  }

  /** Number of NUL bytes in s. */
  function Nuls(s: seq<byte>): nat {
    if |s| == 0 then 0 else Nuls(s[..|s| - 1]) + (if s[|s| - 1] == 0 then 1 else 0)
  }

  /** The escaped text is one byte per input byte plus one per NUL, and holds no NUL. */
  lemma {:induction false} EscapeAllShape(s: seq<byte>)
    ensures |EscapeAll(s)| == |s| + Nuls(s)
    ensures Nuls(s) <= |s|
    ensures forall i :: 0 <= i < |EscapeAll(s)| ==> EscapeAll(s)[i] != 0
  {
    if |s| > 0 {
      EscapeAllShape(s[..|s| - 1]);
    }
  }

  /**
   * escape_essid.  isEmpty is ieee80211_is_empty_essid, applied to the whole
   * essid_len bytes; the result is the buffer's text before its terminating
   * NUL.
   */
  method EscapeEssid(essid: seq<byte>, essidLen: nat, isEmpty: seq<byte> -> bool) returns (r: seq<byte>)
    requires essidLen < 256 && essidLen <= |essid|
    ensures isEmpty(essid[..essidLen]) ==> r == HIDDEN
    ensures !isEmpty(essid[..essidLen]) ==> r == EscapeAll(essid[..Min(essidLen, IW_ESSID_MAX_SIZE)])
    ensures |r| + 1 <= ESCAPED_SIZE
    ensures forall i :: 0 <= i < |r| ==> r[i] != 0
  {
    if isEmpty(essid[..essidLen]) {
      return HIDDEN;
    }
    var n := Min(essidLen, IW_ESSID_MAX_SIZE);
    r := [];
    var i := 0;
    while i < n
      invariant 0 <= i <= n
      invariant r == EscapeAll(essid[..i])
    {
      assert essid[..i + 1][..i] == essid[..i];
      if essid[i] == 0 {
        r := r + [BACKSLASH, DIGIT_ZERO];
      } else {
        r := r + [essid[i]];
      }
      i := i + 1;
    }
    EscapeAllShape(essid[..n]);
  }

  /**
   * Reading an escaped text back: backslash followed by '0' is a NUL, every
   * other byte stands for itself.
   */
  function Unescape(t: seq<byte>): seq<byte>
    decreases |t|
  {
    if |t| == 0 then []
    else if |t| >= 2 && t[0] == BACKSLASH && t[1] == DIGIT_ZERO then [0] + Unescape(t[2..])
    else [t[0]] + Unescape(t[1..])
  }

  /** The escaped text of a name without backslashes reads back as the name. */
  lemma {:induction false} UnescapeEscapeAll(s: seq<byte>)
    requires forall i :: 0 <= i < |s| ==> s[i] != BACKSLASH
    ensures Unescape(EscapeAll(s)) == s
  {
    EscapeAllFront(s);
    if |s| > 0 {
      UnescapeEscapeAll(s[1..]);
      assert EscapeAll(s) == EscapeByte(s[0]) + EscapeAll(s[1..]);
      if s[0] == 0 {
        assert EscapeAll(s)[2..] == EscapeAll(s[1..]);
      } else {
        assert EscapeAll(s)[1..] == EscapeAll(s[1..]);
      }
      assert s == [s[0]] + s[1..];
    }
  }

  /** The escape also peels from the front. */
  lemma {:induction false} EscapeAllFront(s: seq<byte>)
    ensures |s| > 0 ==> EscapeAll(s) == EscapeByte(s[0]) + EscapeAll(s[1..])
    decreases |s|
  {
    if |s| > 1 {
      EscapeAllFront(s[..|s| - 1]);
      assert s[..|s| - 1][1..] == s[1..][..|s[1..]| - 1];
      assert s[..|s| - 1][0] == s[0];
    } else if |s| == 1 {
      assert s[..0] == [] && s[1..] == [];
    }
  }

  /**
   * A backslash followed by '0' in the name is written exactly like a NUL,
   * so the escaped text does not determine the name in general.
   */
  lemma EscapeAmbiguous()
    ensures EscapeAll([0]) == EscapeAll([BACKSLASH, DIGIT_ZERO])
  {
    assert [BACKSLASH, DIGIT_ZERO][..1] == [BACKSLASH];
    assert [BACKSLASH][..0] == [];
    assert [0][..0] == [];
  }
}

=== FILE: fixed.dfy ===
/**
 * Machine integers of the kernel code: unsigned 32- and 64-bit values and the
 * wrap-around of C unsigned arithmetic, plus a few facts about integer
 * division that the fixed-point curve code relies on.
 */
module Fixed {

  const TWO32: int := 0x1_0000_0000
  const TWO64: int := 0x1_0000_0000_0000_0000

  type u32 = x: int | 0 <= x < 0x1_0000_0000
  type u64 = x: int | 0 <= x < 0x1_0000_0000_0000_0000

  /**
   * Reduction of a mathematical result to a C `u64` (arithmetic modulo
   * 2^64).  The results of one addition or subtraction of u64 values are
   * reduced by one correction; anything further out is left to `%`.
   * Wrap64Mod shows that this is x % 2^64 throughout.
   */
  function Wrap64(x: int): (r: u64)
    ensures 0 <= x < TWO64 ==> r == x
  {
    if 0 <= x < TWO64 then x
    else if TWO64 <= x < 2 * TWO64 then x - TWO64
    else if -TWO64 <= x < 0 then x + TWO64
    else WrapFar64(x)
  }

  /** The reduction of a value more than one wrap away, kept apart so that `%` stays out of Wrap64's unfolding. */
  function WrapFar64(x: int): u64 {
    x % TWO64
  }

  /** Reduction of a mathematical result to a C `u32` (arithmetic modulo 2^32), in the same way. */
  function Wrap32(x: int): (r: u32)
    ensures 0 <= x < TWO32 ==> r == x
  {
    if 0 <= x < TWO32 then x
    else if TWO32 <= x < 2 * TWO32 then x - TWO32
    else if -TWO32 <= x < 0 then x + TWO32
    else WrapFar32(x)
  }

  function WrapFar32(x: int): u32 {
    x % TWO32
  }

  lemma Wrap64Mod(x: int)
    ensures Wrap64(x) == x % TWO64
  {
    if 0 <= x < TWO64 {
      DivUnique(x, TWO64, 0, x);
    } else if TWO64 <= x < 2 * TWO64 {
      DivUnique(x, TWO64, 1, x - TWO64);
    } else if -TWO64 <= x < 0 {
      DivUnique(x, TWO64, -1, x + TWO64);
    }
  }

  lemma Wrap32Mod(x: int)
    ensures Wrap32(x) == x % TWO32
  {
    if 0 <= x < TWO32 {
      DivUnique(x, TWO32, 0, x);
    } else if TWO32 <= x < 2 * TWO32 {
      DivUnique(x, TWO32, 1, x - TWO32);
    } else if -TWO32 <= x < 0 {
      DivUnique(x, TWO32, -1, x + TWO32);
    }
  }

  /** Values that differ by a multiple of 2^64 wrap to the same u64. */
  lemma Wrap64Shift(a: int, b: int, k: int)
    requires a == b + k * TWO64
    ensures Wrap64(a) == Wrap64(b)
  {
    Wrap64Mod(a);
    Wrap64Mod(b);
    DivUnique(a, TWO64, b / TWO64 + k, b % TWO64);
  }

  /** Reducing an operand first does not change a wrapped sum. */
  lemma Wrap64AddWrap(x: int, y: int)
    ensures Wrap64(Wrap64(x) + y) == Wrap64(x + y)
  {
    var k := x / TWO64;
    Wrap64Mod(x);
    assert Wrap64(x) == x - k * TWO64;
    Wrap64Shift(x + y, Wrap64(x) + y, k);
  }

  /** Reducing the subtrahend first does not change a wrapped difference. */
  lemma Wrap64SubWrap(x: int, y: int)
    ensures Wrap64(x - Wrap64(y)) == Wrap64(x - y)
  {
    var k := y / TWO64;
    Wrap64Mod(y);
    assert Wrap64(y) == y - k * TWO64;
    Wrap64Shift(x - Wrap64(y), x - y, k);
  }

  function Max(a: int, b: int): (r: int)
    ensures r >= a && r >= b && (r == a || r == b)
  {
    if a >= b then a else b
  }

  function Min(a: int, b: int): (r: int)
    ensures r <= a && r <= b && (r == a || r == b)
  {
    if a <= b then a else b
  }

  /** Euclidean division is determined by any quotient/remainder pair. */
  lemma DivUnique(n: int, d: int, q: int, r: int)
    requires d > 0 && 0 <= r < d && n == q * d + r
    ensures n / d == q && n % d == r
  {
    var q0, r0 := n / d, n % d;
    var k := q0 - q;
    assert k * d == r - r0 by {
      assert q0 * d + r0 == q * d + r;
      assert k * d == q0 * d - q * d;
    }
    if k >= 1 {
      MulMonotone(1, k, d);
    } else if k <= -1 {
      MulMonotone(k, -1, d);
    }
  }

  /** Splitting the dividend at a multiple of the divisor. */
  lemma DivAddMultiple(a: int, b: int, d: int)
    requires d > 0 && b >= 0
    ensures (a * d + b) / d == a + b / d
  {
    var q, r := b / d, b % d;
    assert a * d + b == (a + q) * d + r;
    DivUnique(a * d + b, d, a + q, r);
  }

  /** Integer division is monotonic in the dividend. */
  lemma DivMonotone(a: int, b: int, d: int)
    requires d > 0 && a <= b
    ensures a / d <= b / d
  {
    var qa, qb := a / d, b / d;
    if qa > qb {
      MulMonotone(qb + 1, qa, d);
      assert false;
    }
  }

  /** Multiplication by a non-negative factor is monotonic. */
  lemma MulMonotone(a: int, b: int, m: int)
    requires 0 <= m && a <= b
    ensures a * m <= b * m
  {
    assert b * m - a * m == (b - a) * m;
  }

  /** A bound on a product bounds its quotient. */
  lemma DivBound(a: int, d: int, bound: int)
    requires d > 0 && 0 <= a < bound * d
    ensures a / d < bound
  {
    DivMonotone(a, bound * d - 1, d);
    DivUnique(bound * d - 1, d, bound - 1, d - 1);
  }

  /** Dividing a non-negative number by a positive one does not enlarge it. */
  lemma DivShrinks(a: int, d: int)
    requires d > 0 && a >= 0
    ensures 0 <= a / d <= a
  {
    DivMonotone(0, a, d);
    DivUnique(a, d, a / d, a % d);
    if a / d > a {
      MulMonotone(1, d, a / d);
      assert false;
    }
  }
}

=== FILE: hfsc_config.dfy ===
/**
 * Configuration of the class tree: the class hash, creating and changing a
 * class (hfsc_change_class with hfsc_change_rsc, _fsc and _usc), deleting
 * one (hfsc_delete_class), and the level bookkeeping both rely on
 * (hfsc_adjust_levels).
 *
 * Errors are Err(-errno); on an error the state is not changed, which the
 * Result type makes plain.  The netlink attributes arrive already split
 * into the three curve attributes; the clock is the parameter now.
 */
module HfscConfig {
  import opened Fixed
  import opened Wrappers
  import opened Errno
  import opened Curves
  import opened Index
  import opened HfscState
  import opened HfscEd
  import opened HfscVf
  import opened HfscSched

  // ---------------------------------------------------------------------
  // The class hash
  // ---------------------------------------------------------------------

  const HFSC_HSIZE: bv32 := 16

  /** hfsc_hash: fold the class id onto its low four bits. */
  function HfscHash(h: bv32): bv32 {
    var x1 := h ^ (h >> 8);
    var x2 := x1 ^ (x1 >> 4);
    x2 & (HFSC_HSIZE - 1)
  }

  /** The i-th four-bit group of h, counted from the least significant. */
  function Nibble(h: bv32, i: bv5): bv32 {
    (h >> (4 * i)) & 0xF
  }

  /** The bucket is below HFSC_HSIZE and is the exclusive or of the four low nibbles of the id. */
  lemma HashNibbles(h: bv32)
    ensures HfscHash(h) < HFSC_HSIZE
    ensures HfscHash(h) == Nibble(h, 0) ^ Nibble(h, 1) ^ Nibble(h, 2) ^ Nibble(h, 3)
  {
  }

  /** TC_H_MAJ(a ^ b) == 0: the two handles have the same major number (upper 16 bits). */
  predicate SameMajor(a: ClassId, b: ClassId) {
    (a as bv32 ^ b as bv32) & 0xFFFF_0000 == 0
  }

  lemma SameMajorShift(x: bv32, y: bv32)
    ensures (x ^ y) & 0xFFFF_0000 == 0 <==> x >> 16 == y >> 16
  {
  }

  // ---------------------------------------------------------------------
  // Levels
  // ---------------------------------------------------------------------

  /** The largest level among the listed children; 0 when there is none. */
  function MaxLevel(cs: map<ClassId, HClass>, kids: seq<ClassId>): nat {
    if |kids| == 0 then 0
    else
      var l := if kids[0] in cs then cs[kids[0]].node.level else 0;
      var m := MaxLevel(cs, kids[1..]);
      if l > m then l else m
  }

  /** MaxLevel bounds every listed child's level and is 0 or one of them. */
  lemma {:induction false} MaxLevelSpec(cs: map<ClassId, HClass>, kids: seq<ClassId>)
    ensures forall i :: 0 <= i < |kids| && kids[i] in cs ==> cs[kids[i]].node.level <= MaxLevel(cs, kids)
    ensures MaxLevel(cs, kids) == 0 || exists i :: 0 <= i < |kids| && kids[i] in cs && cs[kids[i]].node.level == MaxLevel(cs, kids)
  {
    if |kids| > 0 {
      MaxLevelSpec(cs, kids[1..]);
      var m := MaxLevel(cs, kids[1..]);
      if m > 0 && MaxLevel(cs, kids) == m {
        var j :| 0 <= j < |kids[1..]| && kids[1..][j] in cs && cs[kids[1..][j]].node.level == m;
        assert kids[j + 1] == kids[1..][j];
      }
      forall i | 0 <= i < |kids| && kids[i] in cs ensures cs[kids[i]].node.level <= MaxLevel(cs, kids) {
        if i > 0 {
          assert kids[i] == kids[1..][i - 1];
        }
      }
    }
  }

  /**
   * The level one pass of the loop gives a class: as written one more than
   * the largest child level, so that a class without children gets 1;
   * corrected, 0 for a class without children.
   */
  function NewLevel(cs: map<ClassId, HClass>, h: ClassId, corrected: bool): nat
    requires h in cs
  {
    var kids := cs[h].node.children;
    if corrected && |kids| == 0 then 0 else MaxLevel(cs, kids) + 1
  }

  /** The loop of hfsc_adjust_levels from position i of the chain upwards. */
  function AdjustWalk(cs: map<ClassId, HClass>, path: seq<ClassId>, i: nat, corrected: bool): (r: map<ClassId, HClass>)
    requires i <= |path|
    decreases |path| - i
    ensures r.Keys == cs.Keys
  {
    if i == |path| || path[i] !in cs then cs
    else
      var c := cs[path[i]];
      AdjustWalk(cs[path[i] := c.(node := c.node.(level := NewLevel(cs, path[i], corrected)))], path, i + 1, corrected)
  }

  /** hfsc_adjust_levels: recompute the level of h and of every ancestor, bottom up. */
  function AdjustLevelsWith(s: Sched, h: ClassId, corrected: bool): (r: Sched)
    ensures r.classes.Keys == s.classes.Keys
  {
    s.(classes := AdjustWalk(s.classes, Chain(s.classes, h), 0, corrected))
  }

  /** Two class maps that differ at most in levels. */
  predicate OnlyLevels(a: map<ClassId, HClass>, b: map<ClassId, HClass>) {
    a.Keys == b.Keys && forall k :: k in a ==> b[k] == a[k].(node := a[k].node.(level := b[k].node.level))
  }

  /** The walk changes levels only, and only of the classes on path[i..]. */
  lemma {:induction false} AdjustWalkFrame(cs: map<ClassId, HClass>, path: seq<ClassId>, i: nat, corrected: bool)
    requires i <= |path|
    decreases |path| - i
    ensures var r := AdjustWalk(cs, path, i, corrected);
      && OnlyLevels(cs, r)
      && forall k :: k in cs && (forall j :: i <= j < |path| ==> path[j] != k) ==> r[k] == cs[k]
  {
    if i < |path| && path[i] in cs {
      var c := cs[path[i]];
      var cs1 := cs[path[i] := c.(node := c.node.(level := NewLevel(cs, path[i], corrected)))];
      AdjustWalkFrame(cs1, path, i + 1, corrected);
    }
  }

  /**
   * The first class of a walk that does not return to it keeps the level
   * the walk gives it there.  It supports AdjustLevelsSpec.
   */
  lemma {:induction false} AdjustWalkFirst(cs: map<ClassId, HClass>, path: seq<ClassId>, corrected: bool)
    requires |path| > 0 && path[0] in cs
    requires forall j :: 0 < j < |path| ==> path[j] != path[0]
    ensures AdjustWalk(cs, path, 0, corrected)[path[0]].node.level == NewLevel(cs, path[0], corrected)
  {
    var c := cs[path[0]];
    var cs1 := cs[path[0] := c.(node := c.node.(level := NewLevel(cs, path[0], corrected)))];
    AdjustWalkFrame(cs1, path, 1, corrected);
  }

  /**
   * hfsc_adjust_levels changes nothing but levels, and only of h and its
   * ancestors; h itself gets one more than its largest child level, or,
   * corrected, 0 when it has no children.
   */
  lemma AdjustLevelsSpec(s: Sched, h: ClassId, corrected: bool)
    requires h in s.classes
    ensures var r := AdjustLevelsWith(s, h, corrected);
      && r == s.(classes := r.classes)
      && OnlyLevels(s.classes, r.classes)
      && (forall k :: k in s.classes && k !in Chain(s.classes, h) ==> r.classes[k] == s.classes[k])
      && r.classes[h].node.level == NewLevel(s.classes, h, corrected)
      && (corrected && |s.classes[h].node.children| == 0 ==> r.classes[h].node.level == 0)
      && (!corrected ==> r.classes[h].node.level >= 1)
  {
    var path := Chain(s.classes, h);
    AdjustWalkFrame(s.classes, path, 0, corrected);
    AdjustWalkFirst(s.classes, path, corrected);
  }

  // ---------------------------------------------------------------------
  // Changing and creating a class
  // ---------------------------------------------------------------------

  /** A curve attribute: missing, present but shorter than a tc_service_curve, or a curve. */
  datatype CurveAttr = Absent | Short | Given(sc: ServiceCurve)

  /** The parsed TCA_OPTIONS: the real-time, fair and upper-limit curve attributes. */
  datatype Opts = Opts(rsc: CurveAttr, fsc: CurveAttr, usc: CurveAttr)

  /** The three curves after validation; None is "not given". */
  datatype Curves3 = Curves3(rsc: Option<ServiceCurve>, fsc: Option<ServiceCurve>, usc: Option<ServiceCurve>)

  /**
   * One curve attribute: a short one is -EINVAL, and a curve with m1 = m2 = 0
   * counts as not given.
   */
  function CurveArg(a: CurveAttr): (r: Result<Option<ServiceCurve>>)
    ensures r.Err? <==> a.Short?
    ensures r.Err? ==> r.code == -EINVAL
    ensures r.Ok? && r.value.Some? <==> a.Given? && (a.sc.m1 != 0 || a.sc.m2 != 0)
    ensures r.Ok? && r.value.Some? ==> r.value.value == a.sc
  {
    match a
    case Absent => Ok(None)
    case Short => Err(-EINVAL)
    case Given(sc) => if sc.m1 == 0 && sc.m2 == 0 then Ok(None) else Ok(Some(sc))
  }

  function ParseCurves(o: Opts): Result<Curves3> {
    match CurveArg(o.rsc)
    case Err(e) => Err(e)
    case Ok(r) =>
      match CurveArg(o.fsc)
      case Err(e) => Err(e)
      case Ok(f) =>
        match CurveArg(o.usc)
        case Err(e) => Err(e)
        case Ok(u) => Ok(Curves3(r, f, u))
  }

  /**
   * hfsc_change_rsc: install the real-time curve, anchor the deadline curve
   * at (now, cumul), derive the eligible curve from it, set HFSC_RSC.
   */
  function ChangeRsc(c: HClass, sc: ServiceCurve, now: u64): HClass {
    var isc := Sc2Isc(sc);
    var dl := RtscInit(isc, now, c.rt.cumul);
    c.(cfg := c.cfg.(rsc := isc, hasRsc := true),
       rt := c.rt.(deadline := dl, eligibleSc := EligibleCurve(dl, isc)))
  }

  /** hfsc_change_fsc: install the fair curve and anchor the virtual curve at (vt, total). */
  function ChangeFsc(c: HClass, l: Ls, sc: ServiceCurve): (HClass, Ls) {
    var isc := Sc2Isc(sc);
    (c.(cfg := c.cfg.(fsc := isc, hasFsc := true)),
     l.(vf := l.vf.(virtualSc := RtscInit(isc, l.vf.vt, l.vf.total))))
  }

  /** hfsc_change_usc: install the upper-limit curve and anchor it at (now, total). */
  function ChangeUsc(c: HClass, l: Ls, sc: ServiceCurve, now: u64): (HClass, Ls) {
    var isc := Sc2Isc(sc);
    (c.(cfg := c.cfg.(usc := isc, hasUsc := true)),
     l.(vf := l.vf.(ulimit := RtscInit(isc, now, l.vf.total))))
  }

  /** The given curves, in the order real-time, fair, upper-limit. */
  function ApplyCurves(c: HClass, l: Ls, cv: Curves3, now: u64): (r: (HClass, Ls))
    ensures r.0.node == c.node && r.0.queue == c.queue && r.0.rt.cumul == c.rt.cumul
    ensures r.0.cfg.hasRsc == (c.cfg.hasRsc || cv.rsc.Some?)
    ensures r.0.cfg.hasFsc == (c.cfg.hasFsc || cv.fsc.Some?)
    ensures r.0.cfg.hasUsc == (c.cfg.hasUsc || cv.usc.Some?)
    ensures cv.rsc.Some? ==> r.0.cfg.rsc == Sc2Isc(cv.rsc.value)
    ensures cv.fsc.Some? ==> r.0.cfg.fsc == Sc2Isc(cv.fsc.value)
    ensures cv.usc.Some? ==> r.0.cfg.usc == Sc2Isc(cv.usc.value)
    ensures r.1.kids == l.kids && r.1.vf.total == l.vf.total && r.1.vf.vt == l.vf.vt
  {
    var c1 := if cv.rsc.Some? then ChangeRsc(c, cv.rsc.value, now) else c;
    var a := if cv.fsc.Some? then ChangeFsc(c1, l, cv.fsc.value) else (c1, l);
    if cv.usc.Some? then ChangeUsc(a.0, a.1, cv.usc.value, now) else a
  }

  /**
   * Changing an existing class cl: a parentid that does not name cl's
   * parent is -EINVAL; otherwise the given curves are installed at now and,
   * if the class holds packets, its e and d and its virtual time are brought
   * up to date with the new curves.  corrected selects how a backlogged
   * class that gains its first real-time curve is handled (see Refresh).
   */
  function ModifyWith(s: Sched, cl: ClassId, parentid: ClassId, cv: Curves3, now: u64, corrected: bool): Result<Sched>
    requires cl in s.classes && cl in s.ls
  {
    var par := s.classes[cl].node.parent;
    if parentid != 0 && ((par.Some? && par.value != parentid) || (par.None? && parentid != TC_H_ROOT)) then
      Err(-EINVAL)
    else
      Refresh(Install(s, cl, cv, now), cl, s.classes[cl].cfg.hasRsc, now, corrected)
  }

  /** The modify path of hfsc_change_class as written: update_ed whatever the old flags were. */
  function ModifyAsWritten(s: Sched, cl: ClassId, parentid: ClassId, cv: Curves3, now: u64): Result<Sched>
    requires cl in s.classes && cl in s.ls
  {
    ModifyWith(s, cl, parentid, cv, now, false)
  }

  /** The modify path with init_ed for a class new to real-time service; the model uses this one. */
  function Modify(s: Sched, cl: ClassId, parentid: ClassId, cv: Curves3, now: u64): Result<Sched>
    requires cl in s.classes && cl in s.ls
  {
    ModifyWith(s, cl, parentid, cv, now, true)
  }

  /** The locked part of hfsc_change_class: the new curves replace the old ones. */
  function Install(s: Sched, cl: ClassId, cv: Curves3, now: u64): Sched
    requires cl in s.classes && cl in s.ls
  {
    var n := ApplyCurves(s.classes[cl], s.ls[cl], cv, now);
    s.(classes := s.classes[cl := n.0], ls := s.ls[cl := n.1])
  }

  /**
   * rb_erase of an el_node that was never linked.  The class record is
   * zeroed when it is created (sch_hfsc.c:1127-1130), so the node has no
   * parent, no children and the colour red; erasing it stores its (absent)
   * child as the tree's root and does no rebalancing: the eligible tree is
   * left empty, and the classes that were in it are no longer reachable.
   */
  function EraseUnlinked(s: Sched): Sched {
    s.(elTree := [])
  }

  /**
   * A backlogged class has its e, d and virtual time recomputed with the
   * new curves; hadRsc is whether it had a real-time curve before the
   * change.  As written (corrected = false) update_ed runs either way, so a
   * class that gains its first real-time curve has its never-linked node
   * erased from the eligible tree (EraseUnlinked) before it is inserted.
   * Corrected, such a class goes through init_ed, as later kernels do.
   */
  function Refresh(s: Sched, cl: ClassId, hadRsc: bool, now: u64, corrected: bool): Result<Sched>
    requires cl in s.classes
  {
    var c := s.classes[cl];
    var busy := |c.queue| != 0;
    var s2 :=
      if !(busy && c.cfg.hasRsc) then s
      else if hadRsc then UpdateEd(s, cl, c.queue[0])
      else if corrected then InitEd(s, cl, c.queue[0], now)
      else UpdateEd(EraseUnlinked(s), cl, c.queue[0]);
    Ok(if busy && c.cfg.hasFsc then UpdateVf(s2, cl, 0) else s2)
  }

  /**
   * b has a's classes, link-sharing entries, packet count, drop list and
   * root, and every class keeps its place in the tree, its queue, its
   * configuration and its cl_total.
   */
  predicate KeepsConfig(a: Sched, b: Sched)
  {
    && b.classes.Keys == a.classes.Keys && b.ls.Keys == a.ls.Keys
    && b.qlen == a.qlen && b.droplist == a.droplist && b.root == a.root
    && (forall k :: k in a.classes ==>
          b.classes[k].node == a.classes[k].node && b.classes[k].queue == a.classes[k].queue
          && b.classes[k].cfg == a.classes[k].cfg)
    && (forall k :: k in a.ls ==> b.ls[k].vf.total == a.ls[k].vf.total)
  }

  /** update_ed touches only the service-curve timing of the class. */
  lemma UpdateEdKeeps(s: Sched, cl: ClassId, len: u32)
    requires cl in s.classes
    ensures KeepsConfig(s, UpdateEd(s, cl, len))
  {
    UpdateEdSpec(s, cl, len);
  }

  /** init_ed, too, touches only the class's real-time state and the eligible tree. */
  lemma InitEdKeeps(s: Sched, cl: ClassId, len: u32, now: u64)
    requires cl in s.classes
    ensures KeepsConfig(s, InitEd(s, cl, len, now))
  {
    InitEdFrame(s, cl, len, now);
  }

  /** update_vf with no new bytes leaves every cl_total where it was. */
  lemma UpdateVfZeroKeeps(s: Sched, cl: ClassId)
    requires cl in s.classes && Keyed(s)
    ensures KeepsConfig(s, UpdateVf(s, cl, 0))
  {
    UpdateVfTotals(s, cl, 0);
  }

  /**
   * Changing a class is refused with -EINVAL exactly when parentid names
   * another parent.  Otherwise the tree, the queues, the drop list, the
   * count of packets and every class's cl_total stay as they are, and only
   * the changed class's configuration changes, by ApplyCurves.  A class
   * that holds packets and has a real-time curve after the change has one
   * entry in the eligible tree, which keeps every other entry and its order;
   * any other change leaves the tree alone.
   */
  lemma ModifySpec(s: Sched, cl: ClassId, parentid: ClassId, cv: Curves3, now: u64)
    requires Keyed(s) && cl in s.classes
    ensures var r := Modify(s, cl, parentid, cv, now); var par := s.classes[cl].node.parent;
      && (r.Err? <==> parentid != 0 && ((par.Some? && par.value != parentid) || (par.None? && parentid != TC_H_ROOT)))
      && (r.Err? ==> r.code == -EINVAL)
      && (r.Ok? ==>
            KeepsConfig(s.(classes := s.classes[cl := s.classes[cl].(cfg := ApplyCurves(s.classes[cl], s.ls[cl], cv, now).0.cfg)]), r.value))
    ensures var r := Modify(s, cl, parentid, cv, now); var c := s.classes[cl];
      var rtNow := c.cfg.hasRsc || cv.rsc.Some?;
      r.Ok? ==>
        && (|c.queue| > 0 && rtNow ==>
              && cl in r.value.classes
              && Handles(r.value.elTree) == Handles(s.elTree) + {cl}
              && forall x :: x in r.value.elTree <==> x == Entry(r.value.classes[cl].rt.e, cl) || (x in s.elTree && x.cl != cl))
        && (!(|c.queue| > 0 && rtNow) ==> r.value.elTree == s.elTree)
        && (Sorted(s.elTree) ==> Sorted(r.value.elTree))
  {
    var par := s.classes[cl].node.parent;
    if !(parentid != 0 && ((par.Some? && par.value != parentid) || (par.None? && parentid != TC_H_ROOT))) {
      var s1 := Install(s, cl, cv, now);
      var s0 := s.(classes := s.classes[cl := s.classes[cl].(cfg := ApplyCurves(s.classes[cl], s.ls[cl], cv, now).0.cfg)]);
      InstallSpec(s, cl, cv, now);
      RefreshKeeps(s1, cl, s.classes[cl].cfg.hasRsc, now, true);
      KeepsConfigTrans(s0, s1, Refresh(s1, cl, s.classes[cl].cfg.hasRsc, now, true).value);
      RefreshTree(s1, cl, s.classes[cl].cfg.hasRsc, now);
    }
  }

  /**
   * The corrected change keeps the eligible tree exact: afterwards it holds
   * precisely the backlogged classes with a real-time curve, each under its
   * e, ordered and without repeats; a backlogged class that gains its first
   * real-time curve is inserted, as init_ed does.
   */
  lemma ModifyKeepsElTree(s: Sched, cl: ClassId, parentid: ClassId, cv: Curves3, now: u64)
    requires Keyed(s) && cl in s.classes && ElTreeWf(s)
    ensures var r := Modify(s, cl, parentid, cv, now); r.Ok? ==> ElTreeWf(r.value)
    ensures var r := Modify(s, cl, parentid, cv, now); var c := s.classes[cl];
      r.Ok? && |c.queue| > 0 && !c.cfg.hasRsc && cv.rsc.Some? ==>
        cl in r.value.classes && r.value.elTree == Insert(s.elTree, Entry(r.value.classes[cl].rt.e, cl))
  {
    var r := Modify(s, cl, parentid, cv, now);
    if r.Ok? {
      var c := s.classes[cl];
      var b := r.value;
      ModifyView(s, cl, parentid, cv, now);
      assert cl in Handles(s.elTree) <==> RtBacklogged(s, cl);
      if |c.queue| > 0 && b.classes[cl].cfg.hasRsc {
        ElTreeRekeyed(s, b, cl);
        if !c.cfg.hasRsc {
          UpdateAbsent(s.elTree, cl, b.classes[cl].rt.e);
        }
      } else {
        ElTreeKept(s, b, cl);
      }
    }
  }

  /** What the corrected change does to the classes' real-time view and the eligible tree. */
  lemma ModifyView(s: Sched, cl: ClassId, parentid: ClassId, cv: Curves3, now: u64)
    requires Keyed(s) && cl in s.classes
    ensures var r := Modify(s, cl, parentid, cv, now); var c := s.classes[cl];
      r.Ok? ==>
        && SameElView(s, r.value, cl) && cl in r.value.classes
        && r.value.classes[cl].cfg.hasRsc == (c.cfg.hasRsc || cv.rsc.Some?)
        && r.value.classes[cl].queue == c.queue
        && (|c.queue| > 0 && r.value.classes[cl].cfg.hasRsc ==>
              r.value.elTree == Update(s.elTree, cl, r.value.classes[cl].rt.e))
        && (!(|c.queue| > 0 && r.value.classes[cl].cfg.hasRsc) ==>
              r.value.elTree == s.elTree && r.value.classes[cl].rt.e == c.rt.e)
  {
    var r := Modify(s, cl, parentid, cv, now);
    if r.Ok? {
      var s1 := Install(s, cl, cv, now);
      assert r.value == Refresh(s1, cl, s.classes[cl].cfg.hasRsc, now, true).value;
      RefreshTree(s1, cl, s.classes[cl].cfg.hasRsc, now);
      assert SameElView(s, s1, cl);
    }
  }

  /**
   * As written, changing a backlogged class that had no real-time curve so
   * that it gains one empties the eligible tree of everything but that
   * class: every other class the tree held is lost, where the corrected
   * change keeps it.
   */
  lemma ModifyAsWrittenLosesElTree(s: Sched, cl: ClassId, parentid: ClassId, cv: Curves3, now: u64)
    requires cl in s.classes && cl in s.ls
    ensures var r := ModifyAsWritten(s, cl, parentid, cv, now); var c := s.classes[cl];
      r.Ok? && |c.queue| > 0 && !c.cfg.hasRsc && cv.rsc.Some? ==>
        && cl in r.value.classes
        && r.value.elTree == [Entry(r.value.classes[cl].rt.e, cl)]
        && forall x :: x in s.elTree && x.cl != cl ==> x !in r.value.elTree && x in Modify(s, cl, parentid, cv, now).value.elTree
  {
    var r := ModifyAsWritten(s, cl, parentid, cv, now);
    var c := s.classes[cl];
    if r.Ok? && |c.queue| > 0 && !c.cfg.hasRsc && cv.rsc.Some? {
      var s1 := Install(s, cl, cv, now);
      var e1 := EraseUnlinked(s1);
      var s2 := UpdateEd(e1, cl, c.queue[0]);
      UpdateEdSpec(e1, cl, c.queue[0]);
      assert s2.elTree == [Entry(s2.classes[cl].rt.e, cl)] by {
        assert Handles(s2.elTree) == {cl};
        UpdateSpec(e1.elTree, cl, Eligible(e1.classes[cl].rt));
      }
      if s1.classes[cl].cfg.hasFsc {
        UpdateVfWalkFrame(s2, Chain(s2.classes, cl), 0, 0, false);
      }
      assert r.value == (if s1.classes[cl].cfg.hasFsc then UpdateVf(s2, cl, 0) else s2);
      RefreshTree(s1, cl, false, now);
    }
  }

  /** Installing the curves changes only cl's configuration and keeps the keys. */
  lemma InstallSpec(s: Sched, cl: ClassId, cv: Curves3, now: u64)
    requires Keyed(s) && cl in s.classes
    ensures var r := Install(s, cl, cv, now);
      && Keyed(r) && cl in r.classes
      && KeepsConfig(s.(classes := s.classes[cl := s.classes[cl].(cfg := ApplyCurves(s.classes[cl], s.ls[cl], cv, now).0.cfg)]), r)
  {
  }

  /** Bringing e, d and the virtual time up to date changes no configuration or total. */
  lemma RefreshKeeps(s: Sched, cl: ClassId, hadRsc: bool, now: u64, corrected: bool)
    requires cl in s.classes && Keyed(s)
    ensures Refresh(s, cl, hadRsc, now, corrected).Ok? && KeepsConfig(s, Refresh(s, cl, hadRsc, now, corrected).value)
  {
    var c := s.classes[cl];
    var busy := |c.queue| != 0;
    var s2 :=
      if !(busy && c.cfg.hasRsc) then s
      else if hadRsc then UpdateEd(s, cl, c.queue[0])
      else if corrected then InitEd(s, cl, c.queue[0], now)
      else UpdateEd(EraseUnlinked(s), cl, c.queue[0]);
    if busy && c.cfg.hasRsc {
      if hadRsc {
        UpdateEdKeeps(s, cl, c.queue[0]);
      } else if corrected {
        InitEdKeeps(s, cl, c.queue[0], now);
      } else {
        UpdateEdKeeps(EraseUnlinked(s), cl, c.queue[0]);
      }
    }
    assert KeepsConfig(s, s2);
    var r := if busy && c.cfg.hasFsc then UpdateVf(s2, cl, 0) else s2;
    if busy && c.cfg.hasFsc {
      UpdateVfZeroKeeps(s2, cl);
    }
    KeepsConfigTrans(s, s2, r);
  }

  /**
   * The corrected refresh gives a backlogged class with a real-time curve
   * one entry in the eligible tree, under its e, keeping the other entries
   * and their order; a class that had no real-time curve is inserted, as
   * init_ed does.  Otherwise the tree is untouched.
   */
  lemma RefreshTree(s: Sched, cl: ClassId, hadRsc: bool, now: u64)
    requires cl in s.classes
    ensures var r := Refresh(s, cl, hadRsc, now, true).value; var c := s.classes[cl];
      && (|c.queue| > 0 && c.cfg.hasRsc ==>
            && cl in r.classes
            && r.elTree == Update(s.elTree, cl, r.classes[cl].rt.e)
            && Handles(r.elTree) == Handles(s.elTree) + {cl}
            && (forall x :: x in r.elTree <==> x == Entry(r.classes[cl].rt.e, cl) || (x in s.elTree && x.cl != cl))
            && (Sorted(s.elTree) ==> Sorted(r.elTree)))
      && (!(|c.queue| > 0 && c.cfg.hasRsc) ==> r.elTree == s.elTree)
      && SameElView(s, r, cl) && cl in r.classes
      && r.classes[cl].cfg == c.cfg && r.classes[cl].queue == c.queue
      && (!(|c.queue| > 0 && c.cfg.hasRsc) ==> r.classes[cl].rt.e == c.rt.e)
  {
    var c := s.classes[cl];
    var busy := |c.queue| != 0;
    var s2 :=
      if !(busy && c.cfg.hasRsc) then s
      else if hadRsc then UpdateEd(s, cl, c.queue[0])
      else InitEd(s, cl, c.queue[0], now);
    if busy && c.cfg.hasRsc {
      if hadRsc {
        UpdateEdSpec(s, cl, c.queue[0]);
      } else {
        InitEdFrame(s, cl, c.queue[0], now);
        InitEdTree(s, cl, c.queue[0], now);
      }
      UpdateSpec(s.elTree, cl, s2.classes[cl].rt.e);
    }
    if busy && c.cfg.hasFsc {
      UpdateVfWalkFrame(s2, Chain(s2.classes, cl), 0, 0, false);
    }
  }

  lemma KeepsConfigTrans(a: Sched, b: Sched, c: Sched)
    requires KeepsConfig(a, b) && KeepsConfig(b, c)
    ensures KeepsConfig(a, c)
  {
  }

  /**
   * A fresh class under parent: zeroed, with the given curves anchored at
   * time 0, and its own vt tree and cf tree empty.
   */
  function Fresh(parent: ClassId, cv: Curves3): (HClass, Ls) {
    ApplyCurves(NewClass(Some(parent)), NewLs, cv, 0)
  }

  /** The new class is hashed and appended to the parent's children. */
  function Attach(s: Sched, classid: ClassId, parent: ClassId, cv: Curves3): (r: Sched)
    requires Keyed(s) && parent in s.classes && classid !in s.classes
    ensures Keyed(r) && parent in r.classes && classid in r.classes
  {
    var n := Fresh(parent, cv);
    var pc := s.classes[parent];
    s.(classes := s.classes[classid := n.0][parent := pc.(node := pc.node.(children := pc.node.children + [classid]))],
       ls := s.ls[classid := n.1])
  }

  /** A parent that was a leaf loses its queued packets. */
  function PurgeIfLeaf(s: Sched, h: ClassId): (r: Sched)
    requires Keyed(s) && h in s.classes
    ensures Keyed(r) && r.classes.Keys == s.classes.Keys
  {
    PurgeQueueSpec(s, h);
    if s.classes[h].node.level == 0 then PurgeQueue(s, h) else s
  }

  /** The purge touches the parent's queue alone among the class records. */
  lemma PurgeIfLeafSpec(s: Sched, h: ClassId)
    requires Keyed(s) && h in s.classes
    ensures var r := PurgeIfLeaf(s, h);
      && (forall k :: k in s.classes && k != h ==> r.classes[k] == s.classes[k])
      && r.classes[h] == s.classes[h].(queue := r.classes[h].queue)
  {
    PurgeQueueSpec(s, h);
  }

  /** The class takes the parent's cvtoff as its pcvtoff. */
  function InheritCvtoff(s: Sched, classid: ClassId, parent: ClassId): (r: Sched)
    requires classid in s.ls && parent in s.ls
    ensures r == s.(ls := r.ls) && r.ls.Keys == s.ls.Keys
  {
    var l := s.ls[classid];
    s.(ls := s.ls[classid := l.(vf := l.vf.(pcvtoff := s.ls[parent].kids.cvtoff))])
  }

  /**
   * The creation half of hfsc_change_class once every check has passed: the
   * class is hashed and appended to the parent's children; a parent that
   * was a leaf loses its queued packets; the levels from the parent up are
   * recomputed; the class takes the parent's cvtoff as its pcvtoff.
   */
  function Create(s: Sched, classid: ClassId, parent: ClassId, cv: Curves3): (r: Sched)
    requires Keyed(s) && parent in s.classes && classid !in s.classes
    ensures Keyed(r) && classid in r.classes
  {
    var s3 := AdjustLevelsWith(PurgeIfLeaf(Attach(s, classid, parent, cv), parent), parent, true);
    InheritCvtoff(s3, classid, parent)
  }

  /**
   * Creation adds exactly the new class, under the parent as its last
   * child, a leaf without packets or children carrying the flags of the
   * given curves; every other class keeps its parent.
   */
  lemma CreateSpec(s: Sched, classid: ClassId, parent: ClassId, cv: Curves3)
    requires Keyed(s) && parent in s.classes && classid !in s.classes
    ensures var r := Create(s, classid, parent, cv); var c := r.classes[classid];
      && r.classes.Keys == s.classes.Keys + {classid}
      && c.node.parent == Some(parent) && c.node.children == [] && c.queue == []
      && c.cfg.hasRsc == cv.rsc.Some? && c.cfg.hasFsc == cv.fsc.Some? && c.cfg.hasUsc == cv.usc.Some?
      && r.classes[parent].node.children == s.classes[parent].node.children + [classid]
      && forall k :: k in s.classes ==> r.classes[k].node.parent == s.classes[k].node.parent
  {
    var s1 := Attach(s, classid, parent, cv);
    PurgeIfLeafSpec(s1, parent);
    AdjustLevelsSpec(PurgeIfLeaf(s1, parent), parent, true);
  }

  /**
   * hfsc_change_class.  arg is the class the caller found under classid,
   * if any: with one the call changes it, without one it creates a class.
   * The checks run in the order of the C code.
   */
  function ChangeClass(s: Sched, classid: ClassId, parentid: ClassId, opts: Option<Opts>, arg: Option<ClassId>, now: u64): (r: Result<Sched>)
    requires Keyed(s) && s.root in s.classes
    requires arg.Some? ==> arg.value in s.classes
    ensures r.Err? ==> r.code in {-EINVAL, -EEXIST, -ENOENT}
  {
    if opts.None? then Err(-EINVAL)
    else
      match ParseCurves(opts.value)
      case Err(e) => Err(e)
      case Ok(cv) =>
        if arg.Some? then Modify(s, arg.value, parentid, cv, now)
        else if parentid == TC_H_ROOT then Err(-EEXIST)
        else if parentid != 0 && parentid !in s.classes then Err(-ENOENT)
        else if classid == 0 || !SameMajor(classid, s.root) then Err(-EINVAL)
        else if classid in s.classes then Err(-EEXIST)
        else if cv.rsc.None? && cv.fsc.None? then Err(-EINVAL)
        else Ok(Create(s, classid, if parentid == 0 then s.root else parentid, cv))
  }

  /** The options of a creation request are well formed and give a real-time or a fair curve. */
  predicate CurvesOk(opts: Option<Opts>) {
    opts.Some? && ParseCurves(opts.value).Ok?
  }

  predicate HasCurve(opts: Option<Opts>)
    requires CurvesOk(opts)
  {
    var cv := ParseCurves(opts.value).value;
    cv.rsc.Some? || cv.fsc.Some?
  }

  /**
   * Creating a class fails, in this order: -EINVAL for missing or short
   * options, -EEXIST for parent TC_H_ROOT, -ENOENT for an unknown parent,
   * -EINVAL for class id 0 or a foreign major number, -EEXIST for an id in
   * use, -EINVAL when neither a real-time nor a fair curve is given; it
   * succeeds exactly when none of these holds, and then the new class hangs
   * under the parent (the root for parent id 0) as its last child, with
   * the curves that were given.
   */
  lemma CreateClassSpec(s: Sched, classid: ClassId, parentid: ClassId, opts: Option<Opts>, now: u64)
    requires Keyed(s) && s.root in s.classes
    ensures var r := ChangeClass(s, classid, parentid, opts, None, now);
      && (!CurvesOk(opts) ==> r == Err(-EINVAL))
      && (CurvesOk(opts) ==>
            && (parentid == TC_H_ROOT ==> r == Err(-EEXIST))
            && (parentid != TC_H_ROOT && parentid != 0 && parentid !in s.classes ==> r == Err(-ENOENT))
            && (parentid != TC_H_ROOT && (parentid == 0 || parentid in s.classes) ==>
                  && (classid == 0 || !SameMajor(classid, s.root) ==> r == Err(-EINVAL))
                  && (classid != 0 && SameMajor(classid, s.root) && classid in s.classes ==> r == Err(-EEXIST))
                  && (classid != 0 && SameMajor(classid, s.root) && classid !in s.classes && !HasCurve(opts) ==> r == Err(-EINVAL))))
      && (r.Ok? <==> CurvesOk(opts) && parentid != TC_H_ROOT && (parentid == 0 || parentid in s.classes)
                     && classid != 0 && SameMajor(classid, s.root) && classid !in s.classes && HasCurve(opts))
  {
  }

  /**
   * A successful creation adds exactly the new class, under the named
   * parent (the root for 0), as the parent's last child, as a leaf with
   * no packets, carrying the flags of the curves that were given; every
   * other class keeps its place in the tree.
   */
  lemma CreateClassAdds(s: Sched, classid: ClassId, parentid: ClassId, opts: Option<Opts>, now: u64)
    requires Keyed(s) && s.root in s.classes
    requires ChangeClass(s, classid, parentid, opts, None, now).Ok?
    ensures var r := ChangeClass(s, classid, parentid, opts, None, now).value;
      var parent := if parentid == 0 then s.root else parentid;
      var cv := ParseCurves(opts.value).value;
      && Keyed(r)
      && r.classes.Keys == s.classes.Keys + {classid}
      && r.classes[classid].node.parent == Some(parent)
      && r.classes[classid].node.children == []
      && r.classes[classid].queue == []
      && r.classes[classid].cfg.hasRsc == cv.rsc.Some?
      && r.classes[classid].cfg.hasFsc == cv.fsc.Some?
      && r.classes[classid].cfg.hasUsc == cv.usc.Some?
      && r.classes[parent].node.children == s.classes[parent].node.children + [classid]
      && forall k :: k in s.classes ==> r.classes[k].node.parent == s.classes[k].node.parent
  {
    var parent := if parentid == 0 then s.root else parentid;
    var cv := ParseCurves(opts.value).value;
    assert ChangeClass(s, classid, parentid, opts, None, now) == Ok(Create(s, classid, parent, cv));
    CreateSpec(s, classid, parent, cv);
  }

  // ---------------------------------------------------------------------
  // Deleting a class
  // ---------------------------------------------------------------------

  /** list_del of the class from its parent's children. */
  function Unlink(cs: map<ClassId, HClass>, cl: ClassId): (r: map<ClassId, HClass>)
    requires cl in cs
    ensures r.Keys == cs.Keys
  {
    match cs[cl].node.parent
    case None => cs
    case Some(p) =>
      if p !in cs then cs
      else cs[p := cs[p].(node := cs[p].node.(children := Unlist(cs[p].node.children, cl)))]
  }

  /**
   * hfsc_delete_class: a class with children (level > 0), with filters
   * bound to it, or the root is -EBUSY.  Otherwise the class leaves its
   * parent's children, the levels from the parent up are recomputed, its
   * packets are purged, and it is gone.
   */
  function DeleteClassWith(s: Sched, cl: ClassId, corrected: bool): Result<Sched>
    requires cl in s.classes && Keyed(s)
  {
    var n := s.classes[cl].node;
    if n.level > 0 || n.filterCnt > 0 || cl == s.root then Err(-EBUSY)
    else Ok(Drop(PurgeQueue(Detach(s, cl, corrected), cl), cl))
  }

  /** The class leaves its parent's children and the levels from the parent up are recomputed. */
  function Detach(s: Sched, cl: ClassId, corrected: bool): (r: Sched)
    requires cl in s.classes
    ensures r == s.(classes := r.classes) && r.classes.Keys == s.classes.Keys
  {
    var s1 := s.(classes := Unlink(s.classes, cl));
    match s.classes[cl].node.parent
    case None => s1
    case Some(p) => AdjustLevelsWith(s1, p, corrected)
  }

  /** The class's memory goes: its record and its link-sharing state. */
  function Drop(s: Sched, cl: ClassId): (r: Sched)
    ensures r == s.(classes := r.classes, ls := r.ls)
  {
    s.(classes := s.classes - {cl}, ls := s.ls - {cl})
  }

  /** Unlinking replaces the parent's children by the list without the class and changes nothing else. */
  lemma UnlinkSpec(cs: map<ClassId, HClass>, cl: ClassId)
    requires cl in cs
    ensures var r := Unlink(cs, cl); var par := cs[cl].node.parent;
      && (par.Some? && par.value in cs ==>
            r == cs[par.value := cs[par.value].(node := cs[par.value].node.(children := Unlist(cs[par.value].node.children, cl)))])
      && (par.None? || par.value !in cs ==> r == cs)
  {
  }

  /** Detaching changes nothing but levels after the unlinking. */
  lemma DetachSpec(s: Sched, cl: ClassId, corrected: bool)
    requires cl in s.classes
    ensures OnlyLevels(Unlink(s.classes, cl), Detach(s, cl, corrected).classes)
  {
    var s1 := s.(classes := Unlink(s.classes, cl));
    match s.classes[cl].node.parent
    case None =>
    case Some(p) =>
      if p in s1.classes {
        AdjustLevelsSpec(s1, p, corrected);
      }
  }

  /** hfsc_delete_class as written, with hfsc_adjust_levels giving a childless class level 1. */
  function DeleteClassAsWritten(s: Sched, cl: ClassId): Result<Sched>
    requires cl in s.classes && Keyed(s)
  {
    DeleteClassWith(s, cl, false)
  }

  /** hfsc_delete_class with a childless class at level 0; the model uses this one. */
  function DeleteClass(s: Sched, cl: ClassId): Result<Sched>
    requires cl in s.classes && Keyed(s)
  {
    DeleteClassWith(s, cl, true)
  }

  /**
   * Deletion is refused with -EBUSY exactly for a class with children,
   * with bound filters, or the root.  Otherwise the class is gone from the
   * class map, its link-sharing state and the drop list, and the
   * scheduler's count loses the class's packets.
   */
  lemma DeleteClassSpec(s: Sched, cl: ClassId)
    requires cl in s.classes && Keyed(s)
    ensures var r := DeleteClass(s, cl); var n := s.classes[cl].node;
      && (r.Err? <==> n.level > 0 || n.filterCnt > 0 || cl == s.root)
      && (r.Err? ==> r.code == -EBUSY)
      && (r.Ok? ==>
            && Keyed(r.value)
            && r.value.classes.Keys == s.classes.Keys - {cl}
            && r.value.qlen == Dec(s.qlen, |s.classes[cl].queue|)
            && (|s.classes[cl].queue| > 0 ==> cl !in r.value.droplist))
  {
    var n := s.classes[cl].node;
    if !(n.level > 0 || n.filterCnt > 0 || cl == s.root) {
      DetachSpec(s, cl, true);
      UnlinkSpec(s.classes, cl);
      assert Detach(s, cl, true).classes[cl].queue == s.classes[cl].queue;
      PurgeDropSpec(Detach(s, cl, true), cl);
    }
  }

  /**
   * Deletion leaves the tree of the other classes intact: every class keeps
   * its parent, and the deleted class's parent keeps its other children.
   */
  lemma DeleteKeepsTree(s: Sched, cl: ClassId)
    requires cl in s.classes && Keyed(s)
    requires DeleteClass(s, cl).Ok?
    ensures var r := DeleteClass(s, cl).value; var par := s.classes[cl].node.parent;
      && (forall k :: k in r.classes ==> k in s.classes && r.classes[k].node.parent == s.classes[k].node.parent)
      && (par.Some? && par.value in s.classes && par.value != cl ==>
            && par.value in r.classes
            && forall x :: x in r.classes[par.value].node.children <==> x in s.classes[par.value].node.children && x != cl)
  {
    var n := s.classes[cl].node;
    var s2 := Detach(s, cl, true);
    assert DeleteClass(s, cl).value == Drop(PurgeQueue(s2, cl), cl);
    DetachSpec(s, cl, true);
    UnlinkSpec(s.classes, cl);
    if n.parent.Some? && n.parent.value in s.classes {
      UnlistSpec(s.classes[n.parent.value].node.children, cl);
    }
    PurgeDropSpec(s2, cl);
  }

  /**
   * Deletion keeps the eligible tree exact: the deleted class's entry, if
   * it had one, is taken out and every other entry stays.
   */
  lemma DeleteKeepsElTree(s: Sched, cl: ClassId)
    requires cl in s.classes && Keyed(s) && ElTreeWf(s)
    ensures DeleteClass(s, cl).Ok? ==> ElTreeWf(DeleteClass(s, cl).value)
  {
    if DeleteClass(s, cl).Ok? {
      var s2 := Detach(s, cl, true);
      DetachRecords(s, cl, true);
      PurgeQueueSpec(s2, cl);
      var r := Drop(PurgeQueue(s2, cl), cl);
      assert DeleteClass(s, cl).value == r;
      assert r.elTree == if RtBacklogged(s, cl) then Remove(s.elTree, cl) else s.elTree;
      ElTreeDropped(s, r, cl);
    }
  }

  /** Detaching changes no class's configuration, queue or real-time state. */
  lemma DetachRecords(s: Sched, cl: ClassId, corrected: bool)
    requires cl in s.classes
    ensures var d := Detach(s, cl, corrected);
      && d.elTree == s.elTree && d.classes.Keys == s.classes.Keys
      && forall k :: k in s.classes ==>
           d.classes[k].cfg == s.classes[k].cfg && d.classes[k].queue == s.classes[k].queue && d.classes[k].rt == s.classes[k].rt
  {
    DetachSpec(s, cl, corrected);
    UnlinkSpec(s.classes, cl);
  }

  /** Purging and dropping the class removes exactly it and keeps every other record. */
  lemma PurgeDropSpec(s: Sched, cl: ClassId)
    requires cl in s.classes && Keyed(s)
    ensures var r := Drop(PurgeQueue(s, cl), cl);
      && Keyed(r)
      && r.classes == s.classes - {cl}
      && r.qlen == Dec(s.qlen, |s.classes[cl].queue|)
      && (|s.classes[cl].queue| > 0 ==> cl !in r.droplist)
  {
    PurgeQueueSpec(s, cl);
    var p := PurgeQueue(s, cl);
    assert p.classes - {cl} == s.classes - {cl};
  }

  /**
   * Deleting the only child of a class leaves that class without children.
   * As written hfsc_adjust_levels then gives it level 1, so the class can
   * never be deleted (-EBUSY) although it has no children.
   */
  lemma DeleteOnlyChildAsWritten(s: Sched, cl: ClassId)
    requires cl in s.classes && Keyed(s) && cl != s.root
    requires s.classes[cl].node.level == 0 && s.classes[cl].node.filterCnt == 0
    requires var par := s.classes[cl].node.parent;
      par.Some? && par.value in s.classes && par.value != cl && s.classes[par.value].node.children == [cl]
    ensures var p := s.classes[cl].node.parent.value; var r := DeleteClassAsWritten(s, cl);
      && r.Ok? && p in r.value.classes && Keyed(r.value)
      && r.value.classes[p].node.children == [] && r.value.classes[p].node.level == 1
      && DeleteClassAsWritten(r.value, p) == Err(-EBUSY)
  {
    assert Unlist([cl], cl) == [];
    OnlyChildDetached(s, cl, false);
  }

  /**
   * With the corrected level rule the parent of a deleted only child is a
   * leaf again (level 0) and, unless it is the root or has filters, can
   * itself be deleted.
   */
  lemma DeleteOnlyChild(s: Sched, cl: ClassId)
    requires cl in s.classes && Keyed(s) && cl != s.root
    requires s.classes[cl].node.level == 0 && s.classes[cl].node.filterCnt == 0
    requires var par := s.classes[cl].node.parent;
      par.Some? && par.value in s.classes && par.value != cl && s.classes[par.value].node.children == [cl]
    ensures var p := s.classes[cl].node.parent.value; var r := DeleteClass(s, cl);
      && r.Ok? && p in r.value.classes && Keyed(r.value)
      && r.value.classes[p].node.children == [] && r.value.classes[p].node.level == 0
      && (p != s.root && s.classes[p].node.filterCnt == 0 ==> DeleteClass(r.value, p).Ok?)
  {
    assert Unlist([cl], cl) == [];
    OnlyChildDetached(s, cl, true);
  }

  /** Detaching the only child leaves the parent childless, at level 1 as written and 0 corrected. */
  lemma OnlyChildDetached(s: Sched, cl: ClassId, corrected: bool)
    requires cl in s.classes && Keyed(s)
    requires var par := s.classes[cl].node.parent;
      par.Some? && par.value in s.classes && par.value != cl && s.classes[par.value].node.children == [cl]
    ensures var p := s.classes[cl].node.parent.value; var r := Drop(PurgeQueue(Detach(s, cl, corrected), cl), cl);
      && p in r.classes && Keyed(r)
      && r.classes[p].node.children == [] && r.classes[p].node.level == (if corrected then 0 else 1)
      && r.classes[p].node.filterCnt == s.classes[p].node.filterCnt
      && r.root == s.root
  {
    var p := s.classes[cl].node.parent.value;
    assert Unlist([cl], cl) == [];
    var s1 := s.(classes := Unlink(s.classes, cl));
    assert s1.classes[p].node.children == [];
    AdjustLevelsSpec(s1, p, corrected);
    PurgeQueueSpec(Detach(s, cl, corrected), cl);
  }
}

=== FILE: hfsc_ed.dfy ===
/**
 * Real-time bookkeeping of a class: its eligible time e and deadline d
 * (init_ed, update_ed, update_d), computed from the class's deadline and
 * eligible curves and its cumulative real-time service.
 */
module HfscEd {
  import opened Fixed
  import opened Curves
  import opened Index
  import opened HfscState

  /**
   * The eligible curve that goes with a deadline curve: for a concave
   * real-time curve (sm1 > sm2) the deadline curve itself, for a convex one
   * the straight line of slope sm2 from the same anchor.
   */
  function EligibleCurve(dl: RuntimeSc, rsc: InternalSc): (el: RuntimeSc)
    ensures rsc.sm1 > rsc.sm2 ==> el == dl
    ensures el.x == dl.x && el.y == dl.y && el.sm2 == dl.sm2
    ensures rsc.sm1 <= rsc.sm2 ==>
      forall x: u64 :: RtscX2Y(el, x) == if x <= dl.x then dl.y else Wrap64(dl.y + SegX2Y(x - dl.x, dl.sm2))
  {
    if rsc.sm1 <= rsc.sm2 then dl.(dx := 0, dy := 0) else dl
  }

  /** The deadline: when the deadline curve reaches the service done so far plus the next packet. */
  function Deadline(rt: Rt, nextLen: u32): u64 {
    RtscY2X(rt.deadline, Wrap64(rt.cumul + nextLen))
  }

  /** The eligible time: when the eligible curve reaches the service done so far. */
  function Eligible(rt: Rt): u64 {
    RtscY2X(rt.eligibleSc, rt.cumul)
  }

  /** Replaces the real-time state of a class. */
  function PutRt(s: Sched, h: ClassId, rt: Rt): (r: Sched)
    requires h in s.classes
  {
    s.(classes := s.classes[h := s.classes[h].(rt := rt)])
  }

  /**
   * The real-time state init_ed gives a class: the deadline curve lowered to
   * the real-time curve anchored at (now, cumul), the eligible curve derived
   * from it, and e and d read off the new curves.
   */
  function StartRt(c: HClass, nextLen: u32, now: u64): Rt {
    var dl := RtscMin(c.rt.deadline, c.cfg.rsc, now, c.rt.cumul);
    var rt1 := c.rt.(deadline := dl, eligibleSc := EligibleCurve(dl, c.cfg.rsc));
    rt1.(e := Eligible(rt1), d := Deadline(rt1, nextLen))
  }

  /** init_ed: start the class's real-time state and put it into the eligible tree under e. */
  function InitEd(s: Sched, h: ClassId, nextLen: u32, now: u64): (r: Sched)
    requires h in s.classes
    ensures h in r.classes
  {
    var rt := StartRt(s.classes[h], nextLen, now);
    PutRt(s, h, rt).(elTree := Update(s.elTree, h, rt.e))
  }

  /**
   * The started deadline curve reads min(old reading, cumul) at now, the
   * eligible curve belongs to it, e and d agree with the new curves, and the
   * service counter is untouched.
   */
  lemma StartRtSpec(c: HClass, nextLen: u32, now: u64)
    ensures var rt := StartRt(c, nextLen, now);
      && RtscX2Y(rt.deadline, now) == Min(RtscX2Y(c.rt.deadline, now), c.rt.cumul)
      && rt.eligibleSc == EligibleCurve(rt.deadline, c.cfg.rsc)
      && rt == c.rt.(deadline := rt.deadline, eligibleSc := rt.eligibleSc, e := rt.e, d := rt.d)
      && rt.e == Eligible(rt) && rt.d == Deadline(rt, nextLen)
  {
    RtscMinAt(c.rt.deadline, c.cfg.rsc, now, c.rt.cumul);
  }

  /** init_ed changes the class's real-time state and the eligible tree and nothing else. */
  lemma InitEdFrame(s: Sched, h: ClassId, nextLen: u32, now: u64)
    requires h in s.classes
    ensures var r := InitEd(s, h, nextLen, now);
      && r.classes == s.classes[h := s.classes[h].(rt := StartRt(s.classes[h], nextLen, now))]
      && r == s.(classes := r.classes, elTree := r.elTree)
  {
  }

  /** update_ed: recompute e and d from the current curves and move the class in the eligible tree. */
  function UpdateEd(s: Sched, h: ClassId, nextLen: u32): Sched
    requires h in s.classes
  {
    var rt := s.classes[h].rt;
    PutRt(s, h, rt.(e := Eligible(rt), d := Deadline(rt, nextLen))).(elTree := Update(s.elTree, h, Eligible(rt)))
  }

  /**
   * update_ed gives the class the deadline update_d would give it and the
   * eligible time its eligible curve gives.  A class already in the
   * eligible tree is moved: the tree holds the same classes, the class under
   * its new time, the other entries as they were, still ordered.  The C
   * calls it only on such classes, except from hfsc_change_class, whose
   * case of a class not yet in the tree is HfscConfig.ModifyAsWritten.
   */
  lemma UpdateEdSpec(s: Sched, h: ClassId, nextLen: u32)
    requires h in s.classes
    ensures var r := UpdateEd(s, h, nextLen); var rt := r.classes[h].rt;
      && r.classes == UpdateD(s, h, nextLen).classes[h := s.classes[h].(rt := rt)]
      && rt == s.classes[h].rt.(e := Eligible(s.classes[h].rt), d := rt.d)
      && rt.d == UpdateD(s, h, nextLen).classes[h].rt.d
      && (h in Handles(s.elTree) ==> Handles(r.elTree) == Handles(s.elTree))
      && (h !in Handles(s.elTree) ==> Handles(r.elTree) == Handles(s.elTree) + {h})
      && (forall x :: x in r.elTree <==> x == Entry(rt.e, h) || (x in s.elTree && x.cl != h))
      && (Sorted(s.elTree) ==> Sorted(r.elTree))
      && (Distinct(s.elTree) ==> Distinct(r.elTree))
  {
    UpdateSpec(s.elTree, h, Eligible(s.classes[h].rt));
  }

  /** update_d: recompute only the deadline; e and the eligible tree stay as they are. */
  function UpdateD(s: Sched, h: ClassId, nextLen: u32): Sched
    requires h in s.classes
  {
    var rt := s.classes[h].rt;
    PutRt(s, h, rt.(d := Deadline(rt, nextLen)))
  }

  /** update_ed right after init_ed with the same next length changes nothing. */
  lemma UpdateEdAfterInitEd(s: Sched, h: ClassId, nextLen: u32, now: u64)
    requires h in s.classes
    ensures UpdateEd(InitEd(s, h, nextLen, now), h, nextLen) == InitEd(s, h, nextLen, now)
  {
    var rt1 := StartRt(s.classes[h], nextLen, now);
    StartRtSpec(s.classes[h], nextLen, now);
    UpdateIdempotent(s.elTree, h, rt1.e);
  }

  /**
   * After init_ed the class has exactly one entry in the eligible tree,
   * under its eligible time, and the other entries are kept.
   */
  lemma InitEdTree(s: Sched, h: ClassId, nextLen: u32, now: u64)
    requires h in s.classes
    ensures var r := InitEd(s, h, nextLen, now);
      && Handles(r.elTree) == Handles(s.elTree) + {h}
      && (Sorted(s.elTree) ==> Sorted(r.elTree))
      && (Distinct(s.elTree) ==> Distinct(r.elTree))
      && forall x :: x in r.elTree <==> x == Entry(r.classes[h].rt.e, h) || (x in s.elTree && x.cl != h)
  {
    UpdateSpec(s.elTree, h, InitEd(s, h, nextLen, now).classes[h].rt.e);
  }
}

=== FILE: hfsc_sched.dfy ===
/**
 * The scheduler's transitions: a class becoming backlogged or idle
 * (set_active, set_passive, hfsc_purge_queue), the choice of the next class
 * (eltree_get_mindl, vttree_get_minvt), the watchdog's wake-up time, and
 * enqueue, dequeue and requeue.
 *
 * The clock is the parameter now.  Packets are their lengths; the leaf
 * qdisc is the class's queue, a FIFO whose head is what qdisc_peek_len
 * reports.  Classification is left to the caller, who names the class.
 */
module HfscSched {
  import opened Fixed
  import opened Wrappers
  import opened Index
  import opened HfscState
  import opened HfscEd
  import opened HfscVf

  // ---------------------------------------------------------------------
  // Frames of the bookkeeping functions
  // ---------------------------------------------------------------------

  lemma UpdateVfFrame(s: Sched, h: ClassId, len: u32)
    requires h in s.classes
    ensures VfFrame(s, UpdateVf(s, h, len))
  {
    var c := s.classes[h];
    UpdateVfWalkFrame(s, Chain(s.classes, h), 0, len, |c.queue| == 0 && c.cfg.hasFsc);
  }

  lemma InitVfFrame(s: Sched, h: ClassId, now: u64)
    requires h in s.classes
    ensures VfFrame(s, InitVf(s, h, now))
  {
    InitVfWalkTotals(s, Chain(s.classes, h), 0, true, now, true);
  }

  // ---------------------------------------------------------------------
  // set_active, set_passive, hfsc_purge_queue
  // ---------------------------------------------------------------------

  /** list_del on the drop list, which holds a class at most once. */
  function Unlist(d: seq<ClassId>, h: ClassId): seq<ClassId> {
    if |d| == 0 then []
    else if d[0] == h then Unlist(d[1..], h)
    else [d[0]] + Unlist(d[1..], h)
  }

  /** Unlisting removes exactly h and keeps the order of the rest. */
  lemma {:induction false} UnlistSpec(d: seq<ClassId>, h: ClassId)
    ensures forall x :: x in Unlist(d, h) <==> x in d && x != h
    ensures h !in d ==> Unlist(d, h) == d
  {
    if |d| > 0 {
      assert d == [d[0]] + d[1..];
      UnlistSpec(d[1..], h);
    }
  }

  /**
   * set_active: a class that has just become backlogged with a packet of
   * len bytes starts its real-time state (with a real-time curve) and its
   * link-sharing state (with a fair curve) and joins the drop list.
   */
  function SetActive(s: Sched, h: ClassId, len: u32, now: u64): Sched
    requires h in s.classes
  {
    var c := s.classes[h];
    var s1 := if c.cfg.hasRsc then InitEd(s, h, len, now) else s;
    var s2 := if c.cfg.hasFsc then InitVf(s1, h, now) else s1;
    s2.(droplist := s2.droplist + [h])
  }

  /**
   * set_passive for class h, whose HFSC_RSC flag is rsc: it leaves the
   * eligible tree and the drop list.  Leaving the vt trees is update_vf's
   * business.
   */
  function SetPassive(s: Sched, h: ClassId, rsc: bool): Sched {
    s.(elTree := if rsc then Remove(s.elTree, h) else s.elTree, droplist := Unlist(s.droplist, h))
  }

  /**
   * set_active puts the class at the end of the drop list and, with a
   * real-time curve, gives it exactly one entry in the eligible tree, under
   * the eligible time init_ed computes; the other entries stay.  No class
   * is charged any service and the set of classes does not change.
   */
  lemma SetActiveSpec(s: Sched, h: ClassId, len: u32, now: u64)
    requires h in s.classes
    ensures var r := SetActive(s, h, len, now); var c := s.classes[h];
      && r.droplist == s.droplist + [h]
      && r.classes.Keys == s.classes.Keys && r.ls.Keys == s.ls.Keys
      && (c.cfg.hasRsc ==>
            && r.classes[h].rt == StartRt(c, len, now)
            && Handles(r.elTree) == Handles(s.elTree) + {h}
            && (forall x :: x in r.elTree <==> x == Entry(r.classes[h].rt.e, h) || (x in s.elTree && x.cl != h))
            && (Sorted(s.elTree) ==> Sorted(r.elTree)))
      && (!c.cfg.hasRsc ==> r.classes == s.classes && r.elTree == s.elTree)
      && (!c.cfg.hasFsc ==> r.ls == s.ls)
      && forall k :: k in s.ls ==> r.ls[k].vf.total == s.ls[k].vf.total
  {
    var c := s.classes[h];
    var s1 := if c.cfg.hasRsc then InitEd(s, h, len, now) else s;
    if c.cfg.hasRsc {
      InitEdFrame(s, h, len, now);
      InitEdTree(s, h, len, now);
    }
    if c.cfg.hasFsc {
      InitVfTotals(s1, h, now);
    }
  }

  /**
   * set_passive takes exactly the class out of the drop list and, when it
   * has a real-time curve, out of the eligible tree; the order of the rest
   * is kept and nothing else changes.
   */
  lemma SetPassiveSpec(s: Sched, h: ClassId, rsc: bool)
    ensures var r := SetPassive(s, h, rsc);
      && r == s.(elTree := r.elTree, droplist := r.droplist)
      && (forall x :: x in r.droplist <==> x in s.droplist && x != h)
      && (rsc ==> Handles(r.elTree) == Handles(s.elTree) - {h})
      && (rsc ==> forall x :: x in r.elTree <==> x in s.elTree && x.cl != h)
      && (rsc && Sorted(s.elTree) ==> Sorted(r.elTree))
      && (!rsc ==> r.elTree == s.elTree)
  {
    UnlistSpec(s.droplist, h);
    RemoveSpec(s.elTree, h);
    RemoveMembers(s.elTree, h);
    RemoveSorted(s.elTree, h);
  }

  /**
   * A class that set_active has just listed, and that was not listed
   * before, is unlisted again by set_passive: the drop list and the
   * eligible tree (for a class that was not in it) are as they were.
   */
  lemma SetActiveThenPassive(s: Sched, h: ClassId, len: u32, now: u64)
    requires h in s.classes && h !in s.droplist && h !in Handles(s.elTree)
    ensures var r := SetPassive(SetActive(s, h, len, now), h, s.classes[h].cfg.hasRsc);
      r.droplist == s.droplist && Handles(r.elTree) == Handles(s.elTree)
  {
    var a := SetActive(s, h, len, now);
    SetActiveSpec(s, h, len, now);
    UnlistSpec(a.droplist, h);
    UnlistSpec(s.droplist, h);
    assert Unlist(s.droplist + [h], h) == s.droplist by {
      UnlistAppend(s.droplist, h);
    }
    SetPassiveSpec(a, h, s.classes[h].cfg.hasRsc);
  }

  lemma {:induction false} UnlistAppend(d: seq<ClassId>, h: ClassId)
    requires h !in d
    ensures Unlist(d + [h], h) == d
  {
    if |d| > 0 {
      assert (d + [h])[1..] == d[1..] + [h];
      UnlistAppend(d[1..], h);
    }
  }

  /** sch->q.qlen -= n, on the 32-bit counter. */
  function Dec(q: u32, n: nat): u32 {
    Wrap32(q - n)
  }

  /**
   * hfsc_purge_queue: drop every packet of the class; if there were any,
   * charge nothing but let update_vf take the emptied class out of the
   * vt trees, make it passive and take its packets off the scheduler's
   * count.
   */
  function PurgeQueue(s: Sched, h: ClassId): Sched
    requires h in s.classes
  {
    var c := s.classes[h];
    var s1 := Put(s, h, c.(queue := []));
    if |c.queue| > 0 then
      UpdateVfFrame(s1, h, 0);
      var s2 := SetPassive(UpdateVf(s1, h, 0), h, c.cfg.hasRsc);
      s2.(qlen := Dec(s2.qlen, |c.queue|))
    else s1
  }

  /**
   * After the purge the class holds no packet, the scheduler's count has
   * lost exactly its packets, a class that had packets is off the drop list
   * and (with a real-time curve) out of the eligible tree, whose other
   * entries stay, no cl_total
   * changes, and nothing but the class's queue, the link-sharing state, the
   * two lists and the count is touched.
   */
  lemma PurgeQueueSpec(s: Sched, h: ClassId)
    requires h in s.classes && Keyed(s)
    ensures var r := PurgeQueue(s, h); var c := s.classes[h];
      && r.classes == s.classes[h := c.(queue := [])]
      && r.ls.Keys == s.ls.Keys
      && r.qlen == Dec(s.qlen, |c.queue|)
      && r.root == s.root && r.requeue == s.requeue && r.throttled == s.throttled && r.wakeup == s.wakeup
      && (forall k :: k in s.ls ==> r.ls[k].vf.total == s.ls[k].vf.total)
      && (|c.queue| > 0 ==> h !in r.droplist && (c.cfg.hasRsc ==> h !in Handles(r.elTree)))
      && (|c.queue| == 0 ==> r == s.(classes := r.classes))
      && r.elTree == if |c.queue| > 0 && c.cfg.hasRsc then Remove(s.elTree, h) else s.elTree
  {
    var c := s.classes[h];
    var s1 := Put(s, h, c.(queue := []));
    if |c.queue| > 0 {
      UpdateVfTotals(s1, h, 0);
      var s2 := UpdateVf(s1, h, 0);
      SetPassiveSpec(s2, h, c.cfg.hasRsc);
    }
  }

  // ---------------------------------------------------------------------
  // Choosing the next class
  // ---------------------------------------------------------------------

  /**
   * Two states that differ at most in the cvtmin of their classes, and
   * there only upwards.
   */
  predicate CvtminRaised(s: Sched, r: Sched) {
    && r == s.(ls := r.ls)
    && r.ls.Keys == s.ls.Keys
    && forall k :: k in s.ls ==>
         r.ls[k] == s.ls[k].(kids := s.ls[k].kids.(cvtmin := r.ls[k].kids.cvtmin))
         && r.ls[k].kids.cvtmin >= s.ls[k].kids.cvtmin
  }

  lemma CvtminRaisedTrans(a: Sched, b: Sched, c: Sched)
    requires CvtminRaised(a, b) && CvtminRaised(b, c)
    ensures CvtminRaised(a, c)
  {
  }

  /** The parent's cvtmin goes up to the chosen child's vt if that is larger. */
  function RaiseCvtmin(s: Sched, p: ClassId, vt: u64): Sched
    requires p in s.ls
  {
    var k := s.ls[p].kids;
    s.(ls := s.ls[p := s.ls[p].(kids := k.(cvtmin := Max(k.cvtmin, vt)))])
  }

  lemma RaiseCvtminSpec(s: Sched, p: ClassId, vt: u64)
    requires p in s.ls
    ensures CvtminRaised(s, RaiseCvtmin(s, p, vt))
  {
  }

  /**
   * The loop of vttree_get_minvt from class cl down: while cl is not a
   * leaf (level > 0), go to the first child in vt order that fits at now,
   * raising cl's cvtmin to that child's vt; no fitting child means no
   * class.  The class whose vt tree is searched is the chosen child's
   * parent.  A child whose level is not below its parent's ends the walk
   * without a class; hfsc_adjust_levels never leaves such a pair.
   */
  function MinVtFrom(s: Sched, cl: ClassId, now: u64): (Option<ClassId>, Sched)
    requires cl in s.classes
    decreases s.classes[cl].node.level
  {
    var lvl := s.classes[cl].node.level;
    if lvl == 0 then (Some(cl), s)
    else if cl !in s.ls then (None, s)
    else
      match FirstFit(s.ls[cl].kids.vtTree, now, FitOf(s))
      case None => (None, s)
      case Some(e) =>
        if e.cl !in s.classes || e.cl !in s.ls || s.classes[e.cl].node.level >= lvl then (None, s)
        else MinVtFrom(RaiseCvtmin(s, cl, s.ls[e.cl].vf.vt), e.cl, now)
  }

  /** vttree_get_minvt from the root: nothing when the root's cfmin lies after now. */
  function GetMinVt(s: Sched, now: u64): (Option<ClassId>, Sched)
    requires s.root in s.classes && s.root in s.ls
  {
    if s.ls[s.root].kids.cfmin > now then (None, s) else MinVtFrom(s, s.root, now)
  }

  /**
   * The descent only ever raises cvtmin values and changes nothing else,
   * and a class it returns is a leaf; each step goes to a child that fits.
   */
  lemma {:induction false} MinVtFromSpec(s: Sched, cl: ClassId, now: u64)
    requires cl in s.classes
    decreases s.classes[cl].node.level
    ensures var r := MinVtFrom(s, cl, now);
      && CvtminRaised(s, r.1)
      && (r.0.Some? ==> r.0.value in s.classes && s.classes[r.0.value].node.level == 0)
      && (r.0.Some? && r.0.value != cl ==> r.0.value in s.ls && s.ls[r.0.value].vf.f <= now)
  {
    var lvl := s.classes[cl].node.level;
    if lvl > 0 && cl in s.ls {
      match FirstFit(s.ls[cl].kids.vtTree, now, FitOf(s))
      case None =>
      case Some(e) =>
        if e.cl in s.classes && e.cl in s.ls && s.classes[e.cl].node.level < lvl {
          var s1 := RaiseCvtmin(s, cl, s.ls[e.cl].vf.vt);
          RaiseCvtminSpec(s, cl, s.ls[e.cl].vf.vt);
          FirstFitFits(s.ls[cl].kids.vtTree, now, FitOf(s));
          var r1 := MinVtFrom(s1, e.cl, now);
          assert MinVtFrom(s, cl, now) == r1;
          MinVtFromSpec(s1, e.cl, now);
          CvtminRaisedTrans(s, s1, r1.1);
        }
    }
  }

  /** What FirstFit returns fits, whatever the order of the tree. */
  lemma {:induction false} FirstFitFits(t: seq<Entry>, now: u64, fit: Handle -> u64)
    ensures FirstFit(t, now, fit).Some? ==> fit(FirstFit(t, now, fit).value.cl) <= now
  {
    if |t| > 0 && fit(t[0].cl) > now {
      FirstFitFits(t[1..], now, fit);
    }
  }

  /**
   * vttree_get_minvt returns nothing and changes nothing when the root's
   * cfmin lies after now; otherwise it only raises cvtmin values, and a
   * class it returns is a leaf that fits at now (or the root, when the
   * root is the only class).
   */
  lemma GetMinVtSpec(s: Sched, now: u64)
    requires s.root in s.classes && s.root in s.ls
    ensures var r := GetMinVt(s, now);
      && (s.ls[s.root].kids.cfmin > now ==> r == (None, s))
      && CvtminRaised(s, r.1)
      && (r.0.Some? ==> r.0.value in s.classes && s.classes[r.0.value].node.level == 0)
      && (r.0.Some? && r.0.value != s.root ==> r.0.value in s.ls && s.ls[r.0.value].vf.f <= now)
  {
    if s.ls[s.root].kids.cfmin <= now {
      MinVtFromSpec(s, s.root, now);
    }
  }

  /**
   * The time hfsc_schedule_watchdog arms the timer for: the smaller of the
   * first eligible class's e and the root's cfmin, where 0 stands for "none".
   */
  function WatchdogTime(s: Sched): u64
    requires s.root in s.ls
  {
    var el := match First(s.elTree) case None => 0 case Some(e) => EOf(s)(e.cl);
    var cf := s.ls[s.root].kids.cfmin;
    if cf != 0 && (el == 0 || el > cf) then cf else el
  }

  /**
   * The wake-up time is one of the two candidates, 0 only when both are
   * absent, and no later than either candidate that is present.
   */
  lemma WatchdogSpec(s: Sched)
    requires s.root in s.ls
    ensures var el := if |s.elTree| == 0 then 0 else EOf(s)(s.elTree[0].cl);
      var cf := s.ls[s.root].kids.cfmin; var w := WatchdogTime(s);
      && (w == el || w == cf)
      && (w == 0 <==> el == 0 && cf == 0)
      && (el != 0 ==> w <= el)
      && (cf != 0 ==> w <= cf)
  {
  }

  /** hfsc_schedule_watchdog: the scheduler is throttled until the wake-up time. */
  function ScheduleWatchdog(s: Sched): Sched
    requires s.root in s.ls
  {
    s.(throttled := true, wakeup := WatchdogTime(s))
  }

  // ---------------------------------------------------------------------
  // Enqueue, dequeue, requeue
  // ---------------------------------------------------------------------

  /**
   * hfsc_enqueue of a len-byte packet that classification assigned to the
   * class h; accepted is the leaf qdisc's verdict.  A rejected packet
   * changes nothing.  An accepted one joins the class's queue, the class
   * becomes active when it is its first, and the scheduler counts it.
   * Returns whether the packet was taken.
   */
  function Enqueue(s: Sched, h: ClassId, len: u32, accepted: bool, now: u64): (r: (bool, Sched))
    requires h in s.classes
    ensures r.0 == accepted
    ensures !accepted ==> r.1 == s
  {
    if !accepted then (false, s)
    else
      var c := s.classes[h];
      var s1 := Put(s, h, c.(queue := c.queue + [len]));
      var s2 := if |c.queue| == 0 then SetActive(s1, h, len, now) else s1;
      (true, s2.(qlen := Wrap32(s2.qlen + 1)))
  }

  /**
   * An accepted packet is appended to the class's queue and counted.  The
   * class is activated only on its queue's 0 -> 1 transition: on any other
   * enqueue nothing but the queue and the count changes; on the first, the
   * class joins the drop list and (with a real-time curve) the eligible tree,
   * and no cl_total changes.
   */
  lemma EnqueueSpec(s: Sched, h: ClassId, len: u32, now: u64)
    requires h in s.classes
    ensures var r := Enqueue(s, h, len, true, now).1; var c := s.classes[h];
      && h in r.classes
      && r.classes[h].queue == c.queue + [len]
      && r.qlen == Wrap32(s.qlen + 1)
      && (|c.queue| > 0 ==> r == s.(classes := s.classes[h := c.(queue := c.queue + [len])], qlen := r.qlen))
      && (|c.queue| == 0 ==>
            && r.droplist == s.droplist + [h]
            && (c.cfg.hasRsc ==> h in Handles(r.elTree))
            && (forall k :: k in s.ls ==> k in r.ls && r.ls[k].vf.total == s.ls[k].vf.total))
  {
    var c := s.classes[h];
    var s1 := Put(s, h, c.(queue := c.queue + [len]));
    if |c.queue| == 0 {
      SetActiveSpec(s1, h, len, now);
      var s2 := SetActive(s1, h, len, now);
      if c.cfg.hasRsc {
        InitEdFrame(s1, h, len, now);
        var s1e := InitEd(s1, h, len, now);
        if c.cfg.hasFsc {
          InitVfFrame(s1e, h, now);
        }
        assert s2.classes[h].queue == c.queue + [len];
      } else if c.cfg.hasFsc {
        InitVfFrame(s1, h, now);
      }
    }
  }

  /**
   * Enqueueing keeps the eligible tree's invariant.  A class's first packet
   * puts a class with a real-time curve into the tree by a plain insertion
   * under its new e, which is all eltree_insert does; no other enqueue
   * touches the tree.
   */
  lemma EnqueueKeepsElTree(s: Sched, h: ClassId, len: u32, accepted: bool, now: u64)
    requires h in s.classes && ElTreeWf(s)
    ensures var r := Enqueue(s, h, len, accepted, now).1; var c := s.classes[h];
      && ElTreeWf(r)
      && (accepted && |c.queue| == 0 && c.cfg.hasRsc ==>
            h in r.classes && r.elTree == Insert(s.elTree, Entry(r.classes[h].rt.e, h)))
      && (!(accepted && |c.queue| == 0 && c.cfg.hasRsc) ==> r.elTree == s.elTree)
  {
    if accepted {
      var c := s.classes[h];
      var r := Enqueue(s, h, len, accepted, now).1;
      EnqueueShape(s, h, len, now);
      var c1 := c.(queue := c.queue + [len]);
      if |c.queue| == 0 && c.cfg.hasRsc {
        var nc := c1.(rt := StartRt(c1, len, now));
        assert r.classes == s.classes[h := nc];
        assert SameElView(s, r, h);
        assert h !in Handles(s.elTree);
        UpdateAbsent(s.elTree, h, nc.rt.e);
        assert r.classes[h].rt.e == nc.rt.e;
        assert r.elTree == Insert(s.elTree, Entry(nc.rt.e, h));
        ElTreeRekeyed(s, r, h);
      } else {
        assert r.classes == s.classes[h := c1];
        assert SameElView(s, r, h);
        ElTreeKept(s, r, h);
      }
    }
  }

  /**
   * What an accepted packet does to the class records and the eligible
   * tree: the class's queue grows and, on the first packet of a class with
   * a real-time curve, init_ed starts its real-time state and re-keys it.
   */
  lemma EnqueueShape(s: Sched, h: ClassId, len: u32, now: u64)
    requires h in s.classes
    ensures var r := Enqueue(s, h, len, true, now).1; var c := s.classes[h];
      var c1 := c.(queue := c.queue + [len]); var first := |c.queue| == 0 && c.cfg.hasRsc;
      && r.classes == s.classes[h := if first then c1.(rt := StartRt(c1, len, now)) else c1]
      && r.elTree == (if first then Update(s.elTree, h, StartRt(c1, len, now).e) else s.elTree)
  {
    var c := s.classes[h];
    var s1 := Put(s, h, c.(queue := c.queue + [len]));
    if |c.queue| == 0 {
      var s1e := if c.cfg.hasRsc then InitEd(s1, h, len, now) else s1;
      if c.cfg.hasRsc {
        InitEdFrame(s1, h, len, now);
      }
      if c.cfg.hasFsc {
        InitVfFrame(s1e, h, now);
      }
    }
  }

  /** The end of a dequeue that produced a packet: unthrottle and count it out. */
  function Sent(s: Sched): Sched {
    s.(throttled := false, qlen := Dec(s.qlen, 1))
  }

  /**
   * The class to serve: among the eligible classes the one with the
   * smallest deadline (real-time criterion), otherwise the leaf with the
   * smallest vt (link-sharing criterion), whose search may raise cvtmin
   * values.  Returns the class, whether it was chosen by the real-time
   * criterion, and the state after the search.
   */
  function Pick(s: Sched, now: u64): (r: (Option<ClassId>, bool, Sched))
    requires s.root in s.classes && s.root in s.ls
    ensures CvtminRaised(s, r.2)
  {
    match MinDl(s.elTree, now, DeadlineOf(s))
    case Some(e) => (Some(e.cl), true, s)
    case None =>
      GetMinVtSpec(s, now);
      var m := GetMinVt(s, now);
      (m.0, false, m.1)
  }

  /**
   * Whenever some class in the (ordered) eligible tree is eligible at now,
   * the real-time criterion decides and picks an eligible class with the
   * smallest deadline, leaving the state alone; otherwise the link-sharing
   * criterion decides.
   */
  lemma PickSpec(s: Sched, now: u64)
    requires s.root in s.classes && s.root in s.ls && Sorted(s.elTree)
    ensures var p := Pick(s, now);
      && ((exists e :: e in s.elTree && e.key <= now) <==> p.1)
      && (p.1 ==>
            && p.2 == s && p.0.Some?
            && (exists m :: m in s.elTree && m.key <= now && m.cl == p.0.value)
            && forall e :: e in s.elTree && e.key <= now ==> DeadlineOf(s)(p.0.value) <= DeadlineOf(s)(e.cl))
      && (!p.1 ==> (p.0, p.2) == GetMinVt(s, now))
  {
    MinDlSpec(s.elTree, now, DeadlineOf(s));
  }

  /**
   * The first half of serving class cl: take its head packet, charge it
   * through update_vf, and add it to cl_cumul when the real-time criterion
   * chose the class.
   */
  function Charged(s: Sched, cl: ClassId, realtime: bool): (r: Sched)
    requires cl in s.classes && |s.classes[cl].queue| > 0
    ensures cl in r.classes
  {
    var c := s.classes[cl];
    var len := c.queue[0];
    var s1 := Put(s, cl, c.(queue := c.queue[1..]));
    UpdateVfFrame(s1, cl, len);
    var s2 := UpdateVf(s1, cl, len);
    if realtime then PutRt(s2, cl, c.rt.(cumul := Wrap64(c.rt.cumul + len))) else s2
  }

  /**
   * The second half, for a class whose queue was c.queue before the packet
   * was taken: recompute e and d (real-time) or d alone (link-sharing) from
   * the next packet, or make the emptied class passive.
   */
  function Settle(s: Sched, cl: ClassId, c: HClass, realtime: bool): Sched
    requires cl in s.classes
  {
    if |c.queue| > 1 then
      if !c.cfg.hasRsc then s
      else if realtime then UpdateEd(s, cl, c.queue[1])
      else UpdateD(s, cl, c.queue[1])
    else SetPassive(s, cl, c.cfg.hasRsc)
  }

  /** Serving class cl: its head packet leaves, is charged, and the class is settled. */
  function Serve(s: Sched, cl: ClassId, realtime: bool): (Option<u32>, Sched)
    requires cl in s.classes && |s.classes[cl].queue| > 0
  {
    var c := s.classes[cl];
    (Some(c.queue[0]), Sent(Settle(Charged(s, cl, realtime), cl, c, realtime)))
  }

  /**
   * Charging takes the head packet off the class's queue, adds its length
   * to the class and every ancestor below the root and to no other class,
   * and to cl_cumul exactly on the real-time path; no other class changes.
   */
  lemma ChargedSpec(s: Sched, cl: ClassId, realtime: bool)
    requires cl in s.classes && |s.classes[cl].queue| > 0
    ensures var r := Charged(s, cl, realtime); var c := s.classes[cl]; var len := c.queue[0];
      && r == s.(classes := r.classes, ls := r.ls)
      && r.ls.Keys == s.ls.Keys
      && r.classes == s.classes[cl := c.(queue := c.queue[1..],
                                         rt := if realtime then c.rt.(cumul := Wrap64(c.rt.cumul + len)) else c.rt)]
  {
    var c := s.classes[cl];
    UpdateVfFrame(Put(s, cl, c.(queue := c.queue[1..])), cl, c.queue[0]);
  }

  lemma ChargedTotals(s: Sched, cl: ClassId, realtime: bool)
    requires cl in s.classes && |s.classes[cl].queue| > 0 && Keyed(s)
    ensures var r := Charged(s, cl, realtime); var len := s.classes[cl].queue[0];
      forall k :: k in s.ls ==> (k in r.ls &&
        r.ls[k].vf.total == if k in Path(s.classes, cl) then Wrap64(s.ls[k].vf.total + len) else s.ls[k].vf.total)
  {
    var c := s.classes[cl];
    var len := c.queue[0];
    var s1 := Put(s, cl, c.(queue := c.queue[1..]));
    assert SameParents(s.classes, s1.classes);
    ChainSameParents(s.classes, s1.classes, cl);
    UpdateVfTotals(s1, cl, len);
  }

  /**
   * Settling touches only the class's real-time state other than cl_cumul,
   * the eligible tree and the drop list.
   */
  lemma SettleFrame(s: Sched, cl: ClassId, c: HClass, realtime: bool)
    requires cl in s.classes
    ensures var r := Settle(s, cl, c, realtime);
      && r == s.(classes := r.classes, elTree := r.elTree, droplist := r.droplist)
      && r.classes == s.classes[cl := s.classes[cl].(rt := r.classes[cl].rt)]
      && r.classes[cl].rt.cumul == s.classes[cl].rt.cumul
  {
    if |c.queue| > 1 && c.cfg.hasRsc && realtime {
      UpdateEdSpec(s, cl, c.queue[1]);
    }
  }

  /**
   * hfsc_dequeue: nothing while the scheduler holds no packet; a requeued
   * packet first; otherwise the picked class's head packet.  When no class
   * can be picked the watchdog is armed; a picked class with an empty queue
   * (a leaf qdisc that does not hand out what it holds) yields nothing.
   */
  function Dequeue(s: Sched, now: u64): (r: (Option<u32>, Sched))
    requires s.root in s.classes && s.root in s.ls
    ensures s.qlen == 0 ==> r == (None, s)
  {
    if s.qlen == 0 then (None, s)
    else if |s.requeue| > 0 then (Some(s.requeue[0]), Sent(s.(requeue := s.requeue[1..])))
    else
      var p := Pick(s, now);
      match p.0
      case None => (None, ScheduleWatchdog(p.2))
      case Some(cl) =>
        if cl !in p.2.classes || |p.2.classes[cl].queue| == 0 then (None, p.2)
        else Serve(p.2, cl, p.1)
  }

  /** hfsc_requeue: the packet goes back to the head of the requeue list and is counted again. */
  function Requeue(s: Sched, len: u32): Sched {
    s.(requeue := [len] + s.requeue, qlen := Wrap32(s.qlen + 1))
  }

  /**
   * A requeued packet is the next one dequeued, and that dequeue restores
   * the requeue list and the count and clears the throttle flag.
   */
  lemma DequeueAfterRequeue(s: Sched, len: u32, now: u64)
    requires s.root in s.classes && s.root in s.ls && s.qlen < TWO32 - 1
    ensures Dequeue(Requeue(s, len), now) == (Some(len), s.(throttled := false))
  {
    var q := Requeue(s, len);
    assert q.requeue[1..] == s.requeue;
  }

  /**
   * Serving a class charges the packet's length to the class and every
   * ancestor below the root and to no other class, adds it to cl_cumul
   * exactly when the real-time criterion chose the class, hands out the
   * head packet, and counts it out.
   */
  lemma ServeCharges(s: Sched, cl: ClassId, realtime: bool)
    requires cl in s.classes && |s.classes[cl].queue| > 0 && Keyed(s)
    ensures var r := Serve(s, cl, realtime); var c := s.classes[cl]; var len := c.queue[0];
      && r.0 == Some(len)
      && r.1.qlen == Dec(s.qlen, 1) && !r.1.throttled
      && r.1.classes.Keys == s.classes.Keys
      && r.1.classes[cl].queue == c.queue[1..]
      && r.1.classes[cl].rt.cumul == (if realtime then Wrap64(c.rt.cumul + len) else c.rt.cumul)
      && (forall k :: k in s.classes && k != cl ==> r.1.classes[k] == s.classes[k])
      && (forall k :: k in s.ls ==> (k in r.1.ls &&
            r.1.ls[k].vf.total == if k in Path(s.classes, cl) then Wrap64(s.ls[k].vf.total + len) else s.ls[k].vf.total))
  {
    var c := s.classes[cl];
    ChargedSpec(s, cl, realtime);
    ChargedTotals(s, cl, realtime);
    SettleFrame(Charged(s, cl, realtime), cl, c, realtime);
  }

  /**
   * A class whose last packet is served goes passive: it is off the drop
   * list and, with a real-time curve, out of the eligible tree, whose
   * other entries stay.
   */
  lemma ServeEmptiedPassive(s: Sched, cl: ClassId, realtime: bool)
    requires cl in s.classes && |s.classes[cl].queue| == 1
    ensures var r := Serve(s, cl, realtime).1; var c := s.classes[cl];
      && cl !in r.droplist
      && (forall x :: x in r.droplist <==> x in s.droplist && x != cl)
      && (c.cfg.hasRsc ==> forall x :: x in r.elTree <==> x in s.elTree && x.cl != cl)
      && (!c.cfg.hasRsc ==> r.elTree == s.elTree)
  {
    var c := s.classes[cl];
    ChargedSpec(s, cl, realtime);
    SetPassiveSpec(Charged(s, cl, realtime), cl, c.cfg.hasRsc);
  }

  /**
   * Serving keeps the eligible tree's invariant: a class that still holds
   * packets is re-keyed (real-time) or stays where it is (link-sharing), and
   * a class whose last packet left is taken out, which set_passive's
   * eltree_remove does to a node that is in the tree.
   */
  lemma ServeKeepsElTree(s: Sched, cl: ClassId, realtime: bool)
    requires cl in s.classes && |s.classes[cl].queue| > 0 && ElTreeWf(s)
    ensures var r := Serve(s, cl, realtime).1; var c := s.classes[cl];
      && ElTreeWf(r)
      && (|c.queue| == 1 && c.cfg.hasRsc ==> cl in Handles(s.elTree) && r.elTree == Remove(s.elTree, cl))
  {
    var c := s.classes[cl];
    var a := Charged(s, cl, realtime);
    var r := Serve(s, cl, realtime).1;
    ServeShape(s, cl, realtime);
    if |c.queue| > 1 && c.cfg.hasRsc && realtime {
      ElTreeRekeyed(s, r, cl);
    } else if |c.queue| == 1 && c.cfg.hasRsc {
      ElTreeRemoved(s, r, cl);
    } else {
      ElTreeKept(s, r, cl);
    }
  }

  /**
   * Serving changes only the served class among the records the eligible
   * tree depends on; its queue loses the head, and the tree is re-keyed to
   * the class's new e, emptied of it, or left alone.
   */
  lemma ServeShape(s: Sched, cl: ClassId, realtime: bool)
    requires cl in s.classes && |s.classes[cl].queue| > 0
    ensures var r := Serve(s, cl, realtime).1; var c := s.classes[cl];
      && SameElView(s, r, cl) && cl in r.classes
      && r.classes[cl].cfg == c.cfg && r.classes[cl].queue == c.queue[1..]
      && (|c.queue| > 1 && c.cfg.hasRsc && realtime ==> r.elTree == Update(s.elTree, cl, r.classes[cl].rt.e))
      && (|c.queue| == 1 && c.cfg.hasRsc ==> r.elTree == Remove(s.elTree, cl))
      && (!(|c.queue| > 1 && c.cfg.hasRsc && realtime) && !(|c.queue| == 1 && c.cfg.hasRsc) ==>
            r.elTree == s.elTree && r.classes[cl].rt.e == c.rt.e)
  {
    var c := s.classes[cl];
    var a := Charged(s, cl, realtime);
    ChargedSpec(s, cl, realtime);
    SettleFrame(a, cl, c, realtime);
  }

  /** Two states with the same class records and eligible tree agree on the invariant. */
  lemma ElTreeSameView(a: Sched, b: Sched)
    requires a.classes == b.classes && a.elTree == b.elTree && ElTreeWf(a)
    ensures ElTreeWf(b)
  {
  }

  /** Dequeueing keeps the eligible tree's invariant, whichever way the packet is found. */
  lemma DequeueKeepsElTree(s: Sched, now: u64)
    requires s.root in s.classes && s.root in s.ls && ElTreeWf(s)
    ensures ElTreeWf(Dequeue(s, now).1)
  {
    var r := Dequeue(s, now).1;
    if s.qlen != 0 && |s.requeue| == 0 {
      var p := Pick(s, now);
      ElTreeSameView(s, p.2);
      match p.0
      case None =>
        ElTreeSameView(s, r);
      case Some(cl) =>
        if cl in p.2.classes && |p.2.classes[cl].queue| > 0 {
          ServeKeepsElTree(p.2, cl, p.1);
        }
    } else {
      ElTreeSameView(s, r);
    }
  }

  /**
   * A dequeue with no requeued packet serves the class Pick chooses, when
   * that class holds a packet; when none can be picked it throttles the
   * scheduler until the watchdog time and hands out nothing.
   */
  lemma DequeueServesPick(s: Sched, now: u64)
    requires s.root in s.classes && s.root in s.ls && s.qlen > 0 && |s.requeue| == 0
    ensures var p := Pick(s, now); var r := Dequeue(s, now);
      && (p.0.None? ==> r.0.None? && r.1.throttled && r.1 == p.2.(throttled := true, wakeup := WatchdogTime(p.2)))
      && (p.0.Some? && p.0.value in p.2.classes && |p.2.classes[p.0.value].queue| > 0 ==>
            r == Serve(p.2, p.0.value, p.1))
  {
  }
}

=== FILE: hfsc_state.dfy ===
/**
 * The state of one H-FSC scheduler instance (struct hfsc_sched) and of its
 * classes (struct hfsc_class), as immutable values.
 *
 * Classes live in a map keyed by class id; the parent pointer and the
 * children list are class ids.  The leaf qdisc is an abstract FIFO of packet
 * lengths.  The three rb-trees are the sorted sequences of module Index: the
 * eligible tree belongs to the scheduler, the vt and cf trees to the parent
 * class whose active children they order.
 */
module HfscState {
  import opened Fixed
  import opened Wrappers
  import opened Curves
  import opened Index

  type ClassId = Handle

  /** TC_H_ROOT: the parent id that names "no parent". */
  const TC_H_ROOT: ClassId := 0xFFFF_FFFF

  /** The class's place in the class tree. */
  datatype Node = Node(parent: Option<ClassId>, children: seq<ClassId>, level: nat, filterCnt: nat)

  /** The configured curves; has* are the HFSC_RSC, HFSC_FSC and HFSC_USC bits of cl_flags. */
  datatype Cfg = Cfg(hasRsc: bool, hasFsc: bool, hasUsc: bool, rsc: InternalSc, fsc: InternalSc, usc: InternalSc)

  /** Real-time state: deadline and eligible curves, real-time service so far, d and e. */
  datatype Rt = Rt(deadline: RuntimeSc, eligibleSc: RuntimeSc, cumul: u64, d: u64, e: u64)

  /** The class's own link-sharing state. */
  datatype Vf = Vf(total: u64, virtualSc: RuntimeSc, ulimit: RuntimeSc,
                   vt: u64, f: u64, myf: u64, myfadj: u64,
                   vtadj: u64, vtoff: u64, pcvtoff: u64, parentperiod: nat)

  /** What the class keeps about its active children (cl_nactive, cl_vtperiod, cl_cfmin, ..., the two trees). */
  datatype Kids = Kids(nactive: nat, vtperiod: nat,
                       cfmin: u64, cvtmin: u64, cvtmax: u64, cvtoff: u64,
                       /** active children ordered by vt */
                       vtTree: seq<Entry>,
                       /** active children ordered by fit-time f */
                       cfTree: seq<Entry>)

  /** A class; queue holds the lengths of the packets in its leaf qdisc, head first. */
  datatype HClass = HClass(node: Node, cfg: Cfg, queue: seq<u32>, rt: Rt)

  /**
   * The link-sharing state of a class: its own virtual time and fit-time
   * (vf) and what it keeps about its active children (kids).  It is held
   * apart from the rest of the class because init_vf and update_vf change
   * nothing else.
   */
  datatype Ls = Ls(vf: Vf, kids: Kids)

  datatype Sched = Sched(
    classes: map<ClassId, HClass>,
    /** the link-sharing state of each class, under the same ids */
    ls: map<ClassId, Ls>,
    /** the root class's id, which is also the qdisc handle */
    root: ClassId,
    /** backlogged classes with a real-time curve, ordered by eligible time */
    elTree: seq<Entry>,
    /** backlogged classes in the order they became backlogged */
    droplist: seq<ClassId>,
    /** sch->q.qlen: packets held by the whole scheduler */
    qlen: u32,
    /** lengths of requeued packets, head first */
    requeue: seq<u32>,
    /** TCQ_F_THROTTLED, and the time the watchdog was last armed for */
    throttled: bool,
    wakeup: u64)

  const ZeroIsc: InternalSc := InternalSc(0, 0, 0, 0, 0, 0)
  const ZeroRtsc: RuntimeSc := RuntimeSc(0, 0, 0, 0, 0, 0, 0, 0)

  /** A freshly zeroed class under the given parent. */
  function NewClass(parent: Option<ClassId>): HClass {
    HClass(Node(parent, [], 0, 0), Cfg(false, false, false, ZeroIsc, ZeroIsc, ZeroIsc), [],
           Rt(ZeroRtsc, ZeroRtsc, 0, 0, 0))
  }

  /** The zeroed link-sharing state of a fresh class. */
  const NewLs: Ls := Ls(Vf(0, ZeroRtsc, ZeroRtsc, 0, 0, 0, 0, 0, 0, 0, 0), Kids(0, 0, 0, 0, 0, 0, [], []))

  /** Every class has link-sharing state and nothing else has. */
  predicate Keyed(s: Sched) {
    s.classes.Keys == s.ls.Keys
  }

  /**
   * The classes met by following parent pointers from h, h first.  The
   * walk stops at a class without a parent, at an unknown id, or at a class
   * already met, so it is defined for any map.
   */
  function ChainFrom(cs: map<ClassId, HClass>, h: ClassId, seen: set<ClassId>): (c: seq<ClassId>)
    decreases cs.Keys - seen
    ensures forall i :: 0 <= i < |c| ==> c[i] in cs && c[i] !in seen
    ensures forall i, j :: 0 <= i < j < |c| ==> c[i] != c[j]
    ensures |c| > 0 <==> h in cs && h !in seen
    ensures |c| > 0 ==> c[0] == h
    ensures forall i :: 0 <= i < |c| - 1 ==> cs[c[i]].node.parent == Some(c[i + 1])
  {
    if h !in cs || h in seen then []
    else
      match cs[h].node.parent
      case None => [h]
      case Some(p) =>
        assert cs.Keys - (seen + {h}) < cs.Keys - seen by {
          assert h in cs.Keys - seen;
        }
        [h] + ChainFrom(cs, p, seen + {h})
  }

  function Chain(cs: map<ClassId, HClass>, h: ClassId): seq<ClassId> {
    ChainFrom(cs, h, {})
  }

  /** The chain from h reaches a class without a parent: h hangs in a tree. */
  predicate Rooted(cs: map<ClassId, HClass>, h: ClassId) {
    var c := Chain(cs, h);
    |c| > 0 && cs[c[|c| - 1]].node.parent.None?
  }

  /** h and its ancestors except the top one: the classes a leaf-to-root loop of the C code visits. */
  function Path(cs: map<ClassId, HClass>, h: ClassId): set<ClassId> {
    var c := Chain(cs, h);
    set i | 0 <= i < |c| - 1 :: c[i]
  }

  /** Two class maps with the same ids and the same parent pointers. */
  predicate SameParents(a: map<ClassId, HClass>, b: map<ClassId, HClass>) {
    a.Keys == b.Keys && forall h :: h in a ==> b[h].node.parent == a[h].node.parent
  }

  /** The chain depends on nothing but the parent pointers. */
  lemma {:induction false} ChainFromSameParents(a: map<ClassId, HClass>, b: map<ClassId, HClass>, h: ClassId, seen: set<ClassId>)
    requires SameParents(a, b)
    ensures ChainFrom(a, h, seen) == ChainFrom(b, h, seen)
    decreases a.Keys - seen
  {
    if h in a && h !in seen {
      match a[h].node.parent
      case None =>
      case Some(p) =>
        assert a.Keys - (seen + {h}) < a.Keys - seen by {
          assert h in a.Keys - seen;
        }
        ChainFromSameParents(a, b, p, seen + {h});
    }
  }

  lemma ChainSameParents(a: map<ClassId, HClass>, b: map<ClassId, HClass>, h: ClassId)
    requires SameParents(a, b)
    ensures Chain(a, h) == Chain(b, h)
    ensures Path(a, h) == Path(b, h)
  {
    ChainFromSameParents(a, b, h, {});
  }

  /** Looks up a class that the caller knows is present. */
  function Get(s: Sched, h: ClassId): HClass
    requires h in s.classes
  {
    s.classes[h]
  }

  function Put(s: Sched, h: ClassId, c: HClass): Sched {
    s.(classes := s.classes[h := c])
  }

  /**
   * cl and p are distinct classes with link-sharing state: what one
   * iteration of the init_vf and update_vf loops needs of a class and its
   * parent.
   */
  predicate Edge(s: Sched, cl: ClassId, p: ClassId) {
    cl in s.classes && cl in s.ls && p in s.ls && cl != p
  }

  function PutVf(s: Sched, h: ClassId, v: Vf): (r: Sched)
    requires h in s.ls
    ensures VfFrame(s, r)
  {
    s.(ls := s.ls[h := s.ls[h].(vf := v)])
  }

  function PutKids(s: Sched, h: ClassId, k: Kids): (r: Sched)
    requires h in s.ls
    ensures VfFrame(s, r)
  {
    s.(ls := s.ls[h := s.ls[h].(kids := k)])
  }

  /** Two states that differ at most in the link-sharing state of their classes. */
  predicate VfFrame(a: Sched, b: Sched) {
    b == a.(ls := b.ls) && b.ls.Keys == a.ls.Keys
  }

  lemma VfFrameTrans(a: Sched, b: Sched, c: Sched)
    requires VfFrame(a, b) && VfFrame(b, c)
    ensures VfFrame(a, c)
  {
  }

  // ---------------------------------------------------------------------
  // The eligible tree's invariant
  // ---------------------------------------------------------------------

  /** The class is backlogged and has a real-time curve: what puts it into the eligible tree. */
  predicate RtBacklogged(s: Sched, h: ClassId)
    requires h in s.classes
  {
    s.classes[h].cfg.hasRsc && |s.classes[h].queue| > 0
  }

  /**
   * The eligible tree holds exactly the backlogged classes with a real-time
   * curve, each once, under its eligible time cl_e, in key order.  This is
   * what makes init_ed's plain eltree_insert and set_passive's
   * eltree_remove act on a node that is, respectively, not yet and still
   * linked.
   */
  predicate ElTreeWf(s: Sched) {
    && Sorted(s.elTree) && Distinct(s.elTree)
    && (forall h :: h in Handles(s.elTree) <==> h in s.classes && RtBacklogged(s, h))
    && (forall x :: x in s.elTree ==> x.cl in s.classes && x.key == s.classes[x.cl].rt.e)
  }

  /**
   * b has a's classes, and every class but h has in b the real-time flag,
   * the backlog and the eligible time it has in a.
   */
  predicate SameElView(a: Sched, b: Sched, h: ClassId) {
    && a.classes.Keys == b.classes.Keys
    && forall k :: k in a.classes && k != h ==>
         && b.classes[k].cfg.hasRsc == a.classes[k].cfg.hasRsc
         && (|b.classes[k].queue| > 0) == (|a.classes[k].queue| > 0)
         && b.classes[k].rt.e == a.classes[k].rt.e
  }

  /** Re-keying a class that is backlogged with a real-time curve under its own e keeps the invariant. */
  lemma ElTreeRekeyed(a: Sched, b: Sched, h: ClassId)
    requires ElTreeWf(a) && SameElView(a, b, h) && h in b.classes && RtBacklogged(b, h)
    requires b.elTree == Update(a.elTree, h, b.classes[h].rt.e)
    ensures ElTreeWf(b)
  {
    UpdateSpec(a.elTree, h, b.classes[h].rt.e);
  }

  /** Taking out a class that is no longer backlogged with a real-time curve keeps the invariant. */
  lemma ElTreeRemoved(a: Sched, b: Sched, h: ClassId)
    requires ElTreeWf(a) && SameElView(a, b, h) && h in b.classes && !RtBacklogged(b, h)
    requires b.elTree == Remove(a.elTree, h)
    ensures ElTreeWf(b)
  {
    RemoveSpec(a.elTree, h);
    RemoveMembers(a.elTree, h);
    RemoveSorted(a.elTree, h);
  }

  /**
   * Leaving the tree alone keeps the invariant when h's membership still
   * matches its state and, if it is in the tree, its e has not moved.
   */
  lemma ElTreeKept(a: Sched, b: Sched, h: ClassId)
    requires ElTreeWf(a) && SameElView(a, b, h) && h in b.classes && b.elTree == a.elTree
    requires h in Handles(a.elTree) <==> RtBacklogged(b, h)
    requires h in Handles(a.elTree) ==> b.classes[h].rt.e == a.classes[h].rt.e
    ensures ElTreeWf(b)
  {
    forall x | x in b.elTree ensures x.cl in b.classes && x.key == b.classes[x.cl].rt.e {
      HandlesMembership(a.elTree, x.cl);
    }
  }

  /**
   * Dropping class h, with its entry taken out if it had one, keeps the
   * invariant when every remaining class keeps its real-time view.
   */
  lemma ElTreeDropped(a: Sched, b: Sched, h: ClassId)
    requires ElTreeWf(a) && h in a.classes && b.classes.Keys == a.classes.Keys - {h}
    requires forall k :: k in b.classes ==>
      && b.classes[k].cfg.hasRsc == a.classes[k].cfg.hasRsc
      && (|b.classes[k].queue| > 0) == (|a.classes[k].queue| > 0)
      && b.classes[k].rt.e == a.classes[k].rt.e
    requires b.elTree == if RtBacklogged(a, h) then Remove(a.elTree, h) else a.elTree
    ensures ElTreeWf(b)
  {
    RemoveSpec(a.elTree, h);
    RemoveMembers(a.elTree, h);
    RemoveSorted(a.elTree, h);
  }

  /** The eligible time, fit-time, vt and deadline of a class, as the index queries read them. */
  function EOf(s: Sched): Handle -> u64 {
    h => if h in s.classes then s.classes[h].rt.e else 0
  }

  function FitOf(s: Sched): Handle -> u64 {
    h => if h in s.ls then s.ls[h].vf.f else 0
  }

  function VtOf(s: Sched): Handle -> u64 {
    h => if h in s.ls then s.ls[h].vf.vt else 0
  }

  function DeadlineOf(s: Sched): Handle -> u64 {
    h => if h in s.classes then s.classes[h].rt.d else 0
  }
}

=== FILE: hfsc_vf.dfy ===
/**
 * Link-sharing bookkeeping: virtual time vt and fit-time f of each class on
 * the path from a leaf to the root (init_vf, update_vf, update_cfmin).
 *
 * Both C functions are loops over `cl = cl->cl_parent` that stop at the
 * root; here they are walks over Chain(classes, leaf), where element i + 1 is
 * the parent of element i.  One step handles one class together with its
 * parent, whose vt tree, cf tree and period counters it updates.
 */
module HfscVf {
  import opened Fixed
  import opened Wrappers
  import opened Curves
  import opened Index
  import opened HfscState

  // ---------------------------------------------------------------------
  // Fit-time
  // ---------------------------------------------------------------------

  /** update_cfmin: the smallest fit-time among the active children, 0 when there is none. */
  function CfMin(t: seq<Entry>): u64 {
    match First(t)
    case None => 0
    case Some(e) => e.key
  }

  /** cfmin is 0 for an empty tree and otherwise a key in it, the smallest when the tree is ordered. */
  lemma CfMinSpec(t: seq<Entry>)
    ensures |t| == 0 ==> CfMin(t) == 0
    ensures |t| > 0 ==> Entry(CfMin(t), t[0].cl) in t
    ensures Sorted(t) ==> forall e :: e in t ==> CfMin(t) <= e.key
  {
    if |t| > 0 && Sorted(t) {
      FirstSmallest(t);
    }
  }

  /** The fit-time a class should have: its own myf, or later if a child does not fit before. */
  function FitTime(l: Ls): u64 {
    Max(l.vf.myf, l.kids.cfmin)
  }

  /**
   * The closing block of each loop iteration: f becomes max(myf, cfmin);
   * only when that changes f is the class moved in the parent's cf tree and
   * the parent's cfmin recomputed.
   */
  function RefreshFit(s: Sched, cl: ClassId, p: ClassId): (r: Sched)
    requires cl in s.ls && p in s.ls && cl != p
    ensures VfFrame(s, r)
    ensures r.ls[cl] == s.ls[cl].(vf := s.ls[cl].vf.(f := FitTime(s.ls[cl])))
    ensures FitTime(s.ls[cl]) == s.ls[cl].vf.f ==> r == s
    ensures var kp, kp' := s.ls[p].kids, r.ls[p].kids;
      && r.ls[p].vf == s.ls[p].vf
      && (FitTime(s.ls[cl]) != s.ls[cl].vf.f ==>
            kp' == kp.(cfTree := Update(kp.cfTree, cl, FitTime(s.ls[cl])), cfmin := CfMin(kp'.cfTree)))
  {
    var l := s.ls[cl];
    if FitTime(l) == l.vf.f then s
    else
      var kp := s.ls[p].kids;
      var t := Update(kp.cfTree, cl, FitTime(l));
      PutKids(PutVf(s, cl, l.vf.(f := FitTime(l))), p, kp.(cfTree := t, cfmin := CfMin(t)))
  }

  /**
   * After the refresh f is the larger of myf and cfmin, and one of them.
   * A class that was in the parent's cf tree under its old f, or whose f
   * changed, is there under the new f; the tree keeps its other entries
   * and, if it was ordered, its order, and the parent's cfmin is its
   * smallest key.  Nothing outside the two classes' link-sharing state moves.
   */
  lemma RefreshFitSpec(s: Sched, cl: ClassId, p: ClassId)
    requires cl in s.ls && p in s.ls && cl != p
    ensures var r := RefreshFit(s, cl, p); var f := r.ls[cl].vf.f; var l := s.ls[cl];
      && f >= l.vf.myf && f >= l.kids.cfmin && (f == l.vf.myf || f == l.kids.cfmin)
      && r.ls[cl].kids == l.kids
      && (forall k :: k in s.ls && k != cl && k != p ==> r.ls[k] == s.ls[k])
    ensures var r := RefreshFit(s, cl, p); var f := r.ls[cl].vf.f; var kp, kp' := s.ls[p].kids, r.ls[p].kids;
      && (Entry(s.ls[cl].vf.f, cl) in kp.cfTree || f != s.ls[cl].vf.f ==> Entry(f, cl) in kp'.cfTree)
      && (forall e :: e in kp'.cfTree && e.cl != cl <==> e in kp.cfTree && e.cl != cl)
      && (Distinct(kp.cfTree) ==> Distinct(kp'.cfTree))
      && (f != s.ls[cl].vf.f && Sorted(kp.cfTree) ==>
            && Sorted(kp'.cfTree)
            && Entry(kp'.cfmin, kp'.cfTree[0].cl) in kp'.cfTree
            && forall e :: e in kp'.cfTree ==> kp'.cfmin <= e.key)
  {
    var l := s.ls[cl];
    if FitTime(l) != l.vf.f {
      var t := Update(s.ls[p].kids.cfTree, cl, FitTime(l));
      UpdateSpec(s.ls[p].kids.cfTree, cl, FitTime(l));
      assert Entry(FitTime(l), cl) in t;
      CfMinSpec(t);
    }
  }

  // ---------------------------------------------------------------------
  // update_vf
  // ---------------------------------------------------------------------

  /**
   * A class's vt may not fall behind its parent's cvtmin (a class skipped
   * earlier for not fitting): the shortfall is added to vtadj, so that
   * vt - vtadj, the curve's own reading, stays what it was.
   */
  function VtFloor(vt: u64, vtadj: u64, cvtmin: u64): (r: (u64, u64))
    ensures r.0 == Max(vt, cvtmin) && r.0 >= cvtmin
    ensures vt >= cvtmin ==> r.1 == vtadj
    ensures vt < cvtmin ==> r.1 == Wrap64(vtadj + (cvtmin - vt))
    ensures Wrap64(r.0 - r.1) == Wrap64(vt - vtadj)
  {
    if vt < cvtmin then
      Wrap64SubWrap(cvtmin, vtadj + (cvtmin - vt));
      (cvtmin, Wrap64(vtadj + (cvtmin - vt)))
    else (vt, vtadj)
  }

  /** The class's virtual time as its virtual curve gives it: y2x(total) - vtoff + vtadj. */
  function CurveVt(v: Vf): u64 {
    Wrap64(Wrap64(RtscY2X(v.virtualSc, v.total) - v.vtoff) + v.vtadj)
  }

  /**
   * The parent's side of a child going passive: cvtmax records the child's
   * vt and the child leaves both trees.
   */
  function Leave(kp: Kids, cl: ClassId, vt: u64): Kids {
    var ct := Remove(kp.cfTree, cl);
    kp.(cvtmax := Max(kp.cvtmax, vt), vtTree := Remove(kp.vtTree, cl), cfTree := ct, cfmin := CfMin(ct))
  }

  /**
   * After the child leaves, neither tree holds it and nothing else left
   * them, cfmin is again the smallest fit-time of the cf tree, and cvtmax
   * has not gone down.
   */
  lemma LeaveSpec(kp: Kids, cl: ClassId, vt: u64)
    ensures var k := Leave(kp, cl, vt);
      && k.cvtmax == Max(kp.cvtmax, vt) && k.cvtmax >= kp.cvtmax && k.cvtmax >= vt
      && Handles(k.vtTree) == Handles(kp.vtTree) - {cl}
      && Handles(k.cfTree) == Handles(kp.cfTree) - {cl}
      && (Distinct(kp.vtTree) ==> Distinct(k.vtTree))
      && (Sorted(kp.cfTree) ==> Sorted(k.cfTree) && k.cfmin == CfMin(k.cfTree))
      && k.nactive == kp.nactive && k.vtperiod == kp.vtperiod
  {
    RemoveSpec(kp.cfTree, cl);
    RemoveSpec(kp.vtTree, cl);
    RemoveSorted(kp.cfTree, cl);
  }

  /** myf from the upper-limit curve: myfadj + y2x(total), for a class that has one. */
  function MyFit(v: Vf, cfg: Cfg): u64 {
    if cfg.hasUsc then Wrap64(v.myfadj + RtscY2X(v.ulimit, v.total)) else v.myf
  }

  /** The class's own state after the recomputation, before f is refreshed. */
  function NewVf(v: Vf, cfg: Cfg, cvtmin: u64): Vf {
    v.(vt := VtFloor(CurveVt(v), v.vtadj, cvtmin).0,
       vtadj := VtFloor(CurveVt(v), v.vtadj, cvtmin).1,
       myf := MyFit(v, cfg))
  }

  /** The recomputed state of class cl under parent p. */
  function NewVfOf(s: Sched, cl: ClassId, p: ClassId): Vf
    requires Edge(s, cl, p)
  {
    NewVf(s.ls[cl].vf, s.classes[cl].cfg, s.ls[p].kids.cvtmin)
  }

  /** Store the recomputed vt and move the class to it in the parent's vt tree. */
  function MoveVt(s: Sched, cl: ClassId, p: ClassId): (r: Sched)
    requires Edge(s, cl, p)
    ensures VfFrame(s, r)
    ensures r.ls[cl] == s.ls[cl].(vf := NewVfOf(s, cl, p))
    ensures var kp := s.ls[p].kids;
      r.ls[p] == s.ls[p].(kids := kp.(vtTree := Update(kp.vtTree, cl, NewVfOf(s, cl, p).vt)))
  {
    var kp := s.ls[p].kids;
    PutKids(PutVf(s, cl, NewVfOf(s, cl, p)), p, kp.(vtTree := Update(kp.vtTree, cl, NewVfOf(s, cl, p).vt)))
  }

  /**
   * After the move the class's vt is its curve's reading, raised to the
   * parent's cvtmin if it fell behind, with vtadj absorbing the shortfall so
   * that vt - vtadj is still the curve's own reading; the class sits in the
   * parent's vt tree under that vt, the tree's other entries stay, and an
   * ordered tree without repeats stays so.  The parent's cf tree, cfmin and
   * cvtmin, and every other class, are untouched.
   */
  lemma MoveVtSpec(s: Sched, cl: ClassId, p: ClassId)
    requires Edge(s, cl, p)
    ensures var r := MoveVt(s, cl, p); var v, v' := s.ls[cl].vf, r.ls[cl].vf; var kp := s.ls[p].kids;
      && v'.vt == Max(CurveVt(v), kp.cvtmin) && v'.vt >= kp.cvtmin
      && Wrap64(v'.vt - v'.vtadj) == Wrap64(RtscY2X(v.virtualSc, v.total) - v.vtoff)
      && v'.total == v.total
      && (forall k :: k in s.ls && k != cl && k != p ==> r.ls[k] == s.ls[k])
    ensures var r := MoveVt(s, cl, p); var kp, kp' := s.ls[p].kids, r.ls[p].kids;
      && Entry(r.ls[cl].vf.vt, cl) in kp'.vtTree
      && Handles(kp'.vtTree) == Handles(kp.vtTree) + {cl}
      && (forall e :: e in kp'.vtTree && e.cl != cl <==> e in kp.vtTree && e.cl != cl)
      && (Sorted(kp.vtTree) ==> Sorted(kp'.vtTree))
      && (Distinct(kp.vtTree) ==> Distinct(kp'.vtTree))
      && kp'.cfTree == kp.cfTree && kp'.cfmin == kp.cfmin && kp'.cvtmin == kp.cvtmin
  {
    NewVfFloor(s.ls[cl].vf, s.classes[cl].cfg, s.ls[p].kids.cvtmin);
    UpdateSpec(s.ls[p].kids.vtTree, cl, NewVfOf(s, cl, p).vt);
  }

  /** The class stays active: recompute vt from the virtual curve, move it in the parent's vt tree, then myf and f. */
  function Recompute(s: Sched, cl: ClassId, p: ClassId): Sched
    requires Edge(s, cl, p)
  {
    RefreshFit(MoveVt(s, cl, p), cl, p)
  }

  /**
   * After the recomputation vt is never below the parent's cvtmin, vtadj has
   * grown by exactly the shortfall, and vt - vtadj is still the curve's
   * reading y2x(total) - vtoff.
   */
  lemma NewVfFloor(v: Vf, cfg: Cfg, cvtmin: u64)
    ensures var v' := NewVf(v, cfg, cvtmin);
      && v'.vt == Max(CurveVt(v), cvtmin) && v'.vt >= cvtmin
      && (CurveVt(v) >= cvtmin ==> v'.vtadj == v.vtadj)
      && (CurveVt(v) < cvtmin ==> v'.vtadj == Wrap64(v.vtadj + (cvtmin - CurveVt(v))))
      && Wrap64(v'.vt - v'.vtadj) == Wrap64(RtscY2X(v.virtualSc, v.total) - v.vtoff)
      && v'.total == v.total
  {
    var a := Wrap64(RtscY2X(v.virtualSc, v.total) - v.vtoff);
    Wrap64AddWrap(a + v.vtadj, -(v.vtadj as int));
    assert Wrap64(CurveVt(v) - v.vtadj) == a;
  }

  /** The recomputed class sits in the parent's vt tree under its new vt, and its fit-time is max(myf, cfmin). */
  lemma RecomputeSpec(s: Sched, cl: ClassId, p: ClassId)
    requires Edge(s, cl, p)
    ensures var r := Recompute(s, cl, p);
      && VfFrame(s, r)
      && (forall k :: k in s.ls && k != cl && k != p ==> r.ls[k] == s.ls[k])
      && r.ls[cl].vf == NewVfOf(s, cl, p).(f := r.ls[cl].vf.f)
      && r.ls[cl].vf.f == FitTime(r.ls[cl])
      && Entry(r.ls[cl].vf.vt, cl) in r.ls[p].kids.vtTree
      && r.ls[p].vf == s.ls[p].vf
  {
    var s1 := MoveVt(s, cl, p);
    var kp := s.ls[p].kids;
    UpdateSpec(kp.vtTree, cl, NewVfOf(s, cl, p).vt);
    assert Entry(NewVfOf(s, cl, p).vt, cl) in s1.ls[p].kids.vtTree;
  }

  /**
   * One iteration of the update_vf loop for class cl with parent p: charge
   * len to cl_total, then (for an active class with a fair curve) either
   * take the class out of the parent's trees, when the leaf's going passive
   * empties it, or recompute vt and f.  Returns the go_passive flag for the
   * parent.
   */
  function UpdateVfStep(s: Sched, cl: ClassId, p: ClassId, len: u32, goPassive: bool): (r: (Sched, bool))
    requires Edge(s, cl, p)
  {
    if !s.classes[cl].cfg.hasFsc || s.ls[cl].kids.nactive == 0 then (Charge(s, cl, len), goPassive)
    else if goPassive && s.ls[cl].kids.nactive == 1 then (StepPassive(s, cl, p, len), true)
    else if goPassive then (StepShrink(s, cl, p, len), false)
    else (StepActive(s, cl, p, len), false)
  }

  /** cl_total += len */
  function Charge(s: Sched, cl: ClassId, len: u32): (r: Sched)
    requires cl in s.ls
    ensures VfFrame(s, r)
    ensures r.ls == s.ls[cl := s.ls[cl].(vf := s.ls[cl].vf.(total := Wrap64(s.ls[cl].vf.total + len)))]
  {
    PutVf(s, cl, s.ls[cl].vf.(total := Wrap64(s.ls[cl].vf.total + len)))
  }

  function SetNactive(s: Sched, cl: ClassId, n: nat): (r: Sched)
    requires cl in s.ls
    ensures VfFrame(s, r)
    ensures r.ls == s.ls[cl := s.ls[cl].(kids := s.ls[cl].kids.(nactive := n))]
  {
    PutKids(s, cl, s.ls[cl].kids.(nactive := n))
  }

  /**
   * What a step of the update_vf loop may do to the state: charge len to
   * the class alone and change nothing outside the link-sharing state of
   * the class and its parent.
   */
  predicate StepFrame(s: Sched, r: Sched, cl: ClassId, p: ClassId, len: u32)
    requires cl in s.ls
  {
    && VfFrame(s, r)
    && r.ls[cl].vf.total == Wrap64(s.ls[cl].vf.total + len)
    && (forall k :: k in s.ls && k != cl ==> r.ls[k].vf == s.ls[k].vf)
    && (forall k :: k in s.ls && k != cl && k != p ==> r.ls[k] == s.ls[k])
  }

  /** The recomputation keeps the class's cl_total and every other class's own state. */
  lemma RecomputeFrame(s0: Sched, s: Sched, cl: ClassId, p: ClassId, len: u32)
    requires Edge(s0, cl, p)
    requires VfFrame(s0, s) && s.ls[cl].vf.total == Wrap64(s0.ls[cl].vf.total + len)
    requires forall k :: k in s0.ls && k != cl ==> s.ls[k] == s0.ls[k]
    ensures StepFrame(s0, Recompute(s, cl, p), cl, p, len)
  {
    RecomputeSpec(s, cl, p);
    NewVfFloor(s.ls[cl].vf, s.classes[cl].cfg, s.ls[p].kids.cvtmin);
    VfFrameTrans(s0, s, Recompute(s, cl, p));
  }

  /**
   * The leaf's going passive empties the class: it is charged, its nactive
   * drops to zero and it leaves the parent's trees.
   */
  function StepPassive(s: Sched, cl: ClassId, p: ClassId, len: u32): Sched
    requires Edge(s, cl, p)
  {
    var l := s.ls[cl];
    var idle := Ls(l.vf.(total := Wrap64(l.vf.total + len)), l.kids.(nactive := 0));
    s.(ls := s.ls[cl := idle][p := s.ls[p].(kids := Leave(s.ls[p].kids, cl, l.vf.vt))])
  }

  /** One active child fewer, but some remain: the class is recomputed. */
  function StepShrink(s: Sched, cl: ClassId, p: ClassId, len: u32): Sched
    requires Edge(s, cl, p) && s.ls[cl].kids.nactive > 0
  {
    Recompute(SetNactive(Charge(s, cl, len), cl, s.ls[cl].kids.nactive - 1), cl, p)
  }

  /** The class stays active with the same number of active children: it is recomputed. */
  function StepActive(s: Sched, cl: ClassId, p: ClassId, len: u32): Sched
    requires Edge(s, cl, p)
  {
    Recompute(Charge(s, cl, len), cl, p)
  }

  lemma StepPassiveFrame(s: Sched, cl: ClassId, p: ClassId, len: u32)
    requires Edge(s, cl, p)
    ensures StepFrame(s, StepPassive(s, cl, p, len), cl, p, len)
  {
  }

  lemma StepShrinkFrame(s: Sched, cl: ClassId, p: ClassId, len: u32)
    requires Edge(s, cl, p) && s.ls[cl].kids.nactive > 0
    ensures StepFrame(s, StepShrink(s, cl, p, len), cl, p, len)
  {
    var s1 := Charge(s, cl, len);
    var s2 := SetNactive(s1, cl, s.ls[cl].kids.nactive - 1);
    VfFrameTrans(s, s1, s2);
    RecomputeFrame(s, s2, cl, p, len);
  }

  lemma StepActiveFrame(s: Sched, cl: ClassId, p: ClassId, len: u32)
    requires Edge(s, cl, p)
    ensures StepFrame(s, StepActive(s, cl, p, len), cl, p, len)
  {
    RecomputeFrame(s, Charge(s, cl, len), cl, p, len);
  }

  /**
   * A step charges len to the class alone, touches no class but the class
   * and its parent, and hands go_passive on exactly when the class has no
   * fair curve or this was its last active child (or it was inactive).
   */
  lemma UpdateVfStepSpec(s: Sched, cl: ClassId, p: ClassId, len: u32, goPassive: bool)
    requires Edge(s, cl, p)
    ensures StepFrame(s, UpdateVfStep(s, cl, p, len, goPassive).0, cl, p, len)
    ensures UpdateVfStep(s, cl, p, len, goPassive).1 <==>
      goPassive && (!s.classes[cl].cfg.hasFsc || s.ls[cl].kids.nactive <= 1)
  {
    var l := s.ls[cl];
    if !s.classes[cl].cfg.hasFsc || l.kids.nactive == 0 {
    } else if goPassive && l.kids.nactive == 1 {
      StepPassiveFrame(s, cl, p, len);
    } else if goPassive {
      StepShrinkFrame(s, cl, p, len);
    } else {
      StepActiveFrame(s, cl, p, len);
    }
  }

  /** The update_vf loop from position i of the chain upwards. */
  function UpdateVfWalk(s: Sched, path: seq<ClassId>, i: nat, len: u32, goPassive: bool): Sched
    requires i <= |path|
    decreases |path| - i
  {
    if i + 1 >= |path| || !Edge(s, path[i], path[i + 1]) then s
    else
      var st := UpdateVfStep(s, path[i], path[i + 1], len, goPassive);
      UpdateVfWalk(st.0, path, i + 1, len, st.1)
  }

  /**
   * update_vf: charge len bytes to the class and its ancestors and bring
   * their virtual times up to date; a class whose leaf queue is empty goes
   * passive on the way.  The cur_time argument is read only by code the C
   * compiles out, so it is not modelled.
   */
  function UpdateVf(s: Sched, h: ClassId, len: u32): Sched
    requires h in s.classes
  {
    var c := s.classes[h];
    UpdateVfWalk(s, Chain(s.classes, h), 0, len, |c.queue| == 0 && c.cfg.hasFsc)
  }

  /** The classes of path[i..] that have a parent on the path. */
  function Below(path: seq<ClassId>, i: nat): set<ClassId>
    decreases |path| - i
  {
    if i + 1 >= |path| then {} else {path[i]} + Below(path, i + 1)
  }

  lemma {:induction false} BelowRange(path: seq<ClassId>, i: nat, k: ClassId)
    decreases |path| - i
    ensures k in Below(path, i) <==> exists j :: i <= j < |path| - 1 && path[j] == k
  {
    if i + 1 < |path| {
      BelowRange(path, i + 1, k);
      if k == path[i] {
      } else if exists j :: i <= j < |path| - 1 && path[j] == k {
        var j :| i <= j < |path| - 1 && path[j] == k;
        assert j != i;
      }
    }
  }

  /** The walk changes nothing outside the link-sharing state. */
  lemma {:induction false} UpdateVfWalkFrame(s: Sched, path: seq<ClassId>, i: nat, len: u32, goPassive: bool)
    requires i <= |path|
    decreases |path| - i
    ensures VfFrame(s, UpdateVfWalk(s, path, i, len, goPassive))
  {
    if i + 1 < |path| && Edge(s, path[i], path[i + 1]) {
      var st := UpdateVfStep(s, path[i], path[i + 1], len, goPassive);
      UpdateVfStepSpec(s, path[i], path[i + 1], len, goPassive);
      UpdateVfWalkFrame(st.0, path, i + 1, len, st.1);
      VfFrameTrans(s, st.0, UpdateVfWalk(st.0, path, i + 1, len, st.1));
    }
  }

  /** A step charges len to the class and to no other class, and keeps the set of classes. */
  lemma StepTotal(s: Sched, cl: ClassId, p: ClassId, len: u32, goPassive: bool, k: ClassId)
    requires Edge(s, cl, p) && k in s.ls
    ensures var r := UpdateVfStep(s, cl, p, len, goPassive).0;
      && r.classes == s.classes && r.ls.Keys == s.ls.Keys
      && r.ls[k].vf.total == if k == cl then Wrap64(s.ls[k].vf.total + len) else s.ls[k].vf.total
  {
    UpdateVfStepSpec(s, cl, p, len, goPassive);
  }

  /** The walk from position i charges len to class k exactly when k is below the top of path[i..]. */
  lemma {:induction false} UpdateVfWalkTotal(s: Sched, path: seq<ClassId>, i: nat, len: u32, goPassive: bool, k: ClassId)
    requires i <= |path| && k in s.ls
    requires forall j :: 0 <= j < |path| ==> path[j] in s.classes && path[j] in s.ls
    requires forall j, l :: 0 <= j < l < |path| ==> path[j] != path[l]
    decreases |path| - i
    ensures var r := UpdateVfWalk(s, path, i, len, goPassive);
      k in r.ls && r.ls[k].vf.total == if k in Below(path, i) then Wrap64(s.ls[k].vf.total + len) else s.ls[k].vf.total
  {
    if i + 1 < |path| {
      var st := UpdateVfStep(s, path[i], path[i + 1], len, goPassive);
      StepTotal(s, path[i], path[i + 1], len, goPassive, k);
      UpdateVfWalkTotal(st.0, path, i + 1, len, st.1, k);
      BelowRange(path, i + 1, k);
    }
  }

  /**
   * update_vf adds len to cl_total of exactly the class and its ancestors
   * below the root, and changes nothing outside the link-sharing state.
   */
  lemma UpdateVfTotals(s: Sched, h: ClassId, len: u32)
    requires h in s.classes && Keyed(s)
    ensures var r := UpdateVf(s, h, len);
      && VfFrame(s, r)
      && forall k :: k in s.ls ==>
           r.ls[k].vf.total == if k in Path(s.classes, h) then Wrap64(s.ls[k].vf.total + len) else s.ls[k].vf.total
  {
    var c := s.classes[h];
    var path := Chain(s.classes, h);
    UpdateVfWalkFrame(s, path, 0, len, |c.queue| == 0 && c.cfg.hasFsc);
    var r := UpdateVf(s, h, len);
    assert Below(path, 0) == Path(s.classes, h) by {
      forall k ensures k in Below(path, 0) <==> k in Path(s.classes, h) {
        BelowRange(path, 0, k);
      }
    }
    forall k | k in s.ls
      ensures r.ls[k].vf.total == if k in Path(s.classes, h) then Wrap64(s.ls[k].vf.total + len) else s.ls[k].vf.total
    {
      UpdateVfWalkTotal(s, path, 0, len, |c.queue| == 0 && c.cfg.hasFsc, k);
    }
  }

  // ---------------------------------------------------------------------
  // init_vf
  // ---------------------------------------------------------------------

  /**
   * The vt a class joining a busy parent starts from: the average of the
   * parent's cvtmin and the largest vt among the active siblings (the
   * largest alone while cvtmin is 0).
   */
  function AvgVt(kp: Kids, maxVt: u64): (vt: u64)
    ensures kp.cvtmin == 0 ==> vt == maxVt
    ensures kp.cvtmin != 0 && kp.cvtmin <= maxVt && kp.cvtmin + maxVt < TWO64 ==> kp.cvtmin <= vt <= maxVt
  {
    if kp.cvtmin != 0 then Wrap64(kp.cvtmin + maxVt) / 2 else maxVt
  }

  /**
   * The joining class takes that vt, except that within the parent period
   * it was last active in its vt never goes back.
   */
  function JoinVt(v: Vf, kp: Kids, maxVt: u64): (vt: u64)
    ensures vt == v.vt || vt == AvgVt(kp, maxVt)
    ensures vt >= AvgVt(kp, maxVt) || vt == v.vt
    ensures kp.vtperiod == v.parentperiod ==> vt == Max(v.vt, AvgVt(kp, maxVt))
    ensures kp.vtperiod != v.parentperiod ==> vt == AvgVt(kp, maxVt)
  {
    if kp.vtperiod != v.parentperiod || AvgVt(kp, maxVt) > v.vt then AvgVt(kp, maxVt) else v.vt
  }

  /**
   * The first child of a new backlog period: the parent's cvtoff grows by
   * the largest vt of the last period, so that every new vt (vt + vtoff)
   * lies beyond the old ones, and cvtmax, cvtmin start again from 0.
   */
  function NewPeriod(kp: Kids): (r: Kids)
    ensures Wrap64(r.cvtoff - kp.cvtoff) == kp.cvtmax
    ensures r.cvtmax == 0 && r.cvtmin == 0
    ensures r == kp.(cvtoff := r.cvtoff, cvtmax := 0, cvtmin := 0)
  {
    Wrap64AddWrap(kp.cvtoff + kp.cvtmax, -(kp.cvtoff as int));
    kp.(cvtoff := Wrap64(kp.cvtoff + kp.cvtmax), cvtmax := 0, cvtmin := 0)
  }

  /**
   * The largest vt among the parent's active children (the class at the
   * end of its vt tree), None when it has none.
   */
  function LastVt(s: Sched, p: ClassId): Option<u64>
    requires p in s.ls
  {
    match Last(s.ls[p].kids.vtTree)
    case None => None
    case Some(e) => Some(VtOf(s)(e.cl))
  }

  /** The vt of an activated class: 0 as the first child of a new period, JoinVt otherwise. */
  function PlacedVt(v: Vf, kp: Kids, last: Option<u64>): u64 {
    match last
    case None => 0
    case Some(m) => JoinVt(v, kp, m)
  }

  /** The offset between the class's own virtual curve and the parent's vt scale. */
  function VtOff(v: Vf, kp: Kids): u64 {
    Wrap64(kp.cvtoff - v.pcvtoff)
  }

  /**
   * The virtual curve lowered to pass through the class's position (vt +
   * vtoff, total), by rtsc_min with the 64-bit slope difference.
   */
  function JoinCurve(v: Vf, fsc: InternalSc, kp: Kids): RuntimeSc {
    RtscMin(v.virtualSc, fsc, Wrap64(v.vt + VtOff(v, kp)), v.total)
  }

  /**
   * The class's own state at the start of its new active period: vtoff and
   * the virtual curve, vtadj and f cleared, and the parent's period number
   * recorded (one ahead when the parent is itself about to become active).
   * When the curve now starts at the class's position its origin is moved
   * back onto the class's own scale and vtoff becomes 0.
   */
  function PeriodVf(v: Vf, fsc: InternalSc, kp: Kids): (r: Vf)
    ensures r.vt == v.vt && r.total == v.total && r.vtadj == 0 && r.f == 0
    ensures r.parentperiod == kp.vtperiod + (if kp.nactive == 0 then 1 else 0)
    ensures r == v.(virtualSc := r.virtualSc, vtoff := r.vtoff, vtadj := 0, parentperiod := r.parentperiod, f := 0)
  {
    var period := kp.vtperiod + (if kp.nactive == 0 then 1 else 0);
    if JoinCurve(v, fsc, kp).x == Wrap64(v.vt + VtOff(v, kp)) then
      v.(virtualSc := JoinCurve(v, fsc, kp).(x := Wrap64(JoinCurve(v, fsc, kp).x - VtOff(v, kp))),
         vtoff := 0, vtadj := 0, parentperiod := period, f := 0)
    else
      v.(virtualSc := JoinCurve(v, fsc, kp), vtoff := VtOff(v, kp), vtadj := 0, parentperiod := period, f := 0)
  }

  /**
   * The new virtual curve, read at the class's position vt + vtoff, gives
   * no more than the service received (rtsc_min), whichever of the two
   * offsets the class ends up with.
   */
  lemma PeriodVfCurve(v: Vf, fsc: InternalSc, kp: Kids)
    ensures var r := PeriodVf(v, fsc, kp);
      && (r.vtoff == 0 || r.vtoff == VtOff(v, kp))
      && RtscX2Y(r.virtualSc, Wrap64(v.vt + r.vtoff)) == Min(RtscX2Y(v.virtualSc, Wrap64(v.vt + VtOff(v, kp))), v.total)
  {
    if JoinCurve(v, fsc, kp).x == Wrap64(v.vt + VtOff(v, kp)) {
      PeriodVfRebased(v, fsc, kp);
    } else {
      PeriodVfShifted(v, fsc, kp);
    }
  }

  /** The lowered curve starts at the class's position: it is moved onto the class's own scale, vtoff 0. */
  lemma PeriodVfRebased(v: Vf, fsc: InternalSc, kp: Kids)
    requires JoinCurve(v, fsc, kp).x == Wrap64(v.vt + VtOff(v, kp))
    ensures var r := PeriodVf(v, fsc, kp);
      && r.vtoff == 0
      && RtscX2Y(r.virtualSc, Wrap64(v.vt + r.vtoff)) == Min(RtscX2Y(v.virtualSc, Wrap64(v.vt + VtOff(v, kp))), v.total)
  {
    Rebase(JoinCurve(v, fsc, kp), v.vt, VtOff(v, kp));
  }

  /** The lowered curve keeps an earlier start: it stays on the parent's scale, vtoff the offset. */
  lemma PeriodVfShifted(v: Vf, fsc: InternalSc, kp: Kids)
    requires JoinCurve(v, fsc, kp).x != Wrap64(v.vt + VtOff(v, kp))
    ensures var r := PeriodVf(v, fsc, kp);
      && r.vtoff == VtOff(v, kp)
      && RtscX2Y(r.virtualSc, Wrap64(v.vt + r.vtoff)) == Min(RtscX2Y(v.virtualSc, Wrap64(v.vt + VtOff(v, kp))), v.total)
  {
    assert PeriodVf(v, fsc, kp).virtualSc == JoinCurve(v, fsc, kp);
  }

  /** Moving a curve that starts at vt + off back by off makes it start, with the same reading, at vt. */
  lemma Rebase(c: RuntimeSc, vt: u64, off: int)
    requires c.x == Wrap64(vt + off)
    ensures RtscX2Y(c.(x := Wrap64(c.x - off)), Wrap64(vt + 0)) == RtscX2Y(c, c.x)
  {
    Wrap64AddWrap(vt + off, -off);
    assert Wrap64(c.x - off) == vt;
  }

  /**
   * A class with an upper-limit curve lowers it to pass through (now,
   * total), by rtsc_min with the 64-bit slope difference, and takes its
   * fit-time myf from it.
   */
  function LimitVf(v: Vf, cfg: Cfg, now: u64): (r: Vf)
    ensures !cfg.hasUsc ==> r == v
    ensures cfg.hasUsc ==> r == v.(ulimit := r.ulimit, myf := r.myf, myfadj := 0)
  {
    if cfg.hasUsc then
      v.(ulimit := RtscMin(v.ulimit, cfg.usc, now, v.total),
         myf := RtscY2X(RtscMin(v.ulimit, cfg.usc, now, v.total), v.total), myfadj := 0)
    else v
  }

  /** The lowered upper-limit curve is at most the service received at now, and myf is where it reaches that service. */
  lemma LimitVfCurve(v: Vf, cfg: Cfg, now: u64)
    requires cfg.hasUsc
    ensures var r := LimitVf(v, cfg, now);
      && RtscX2Y(r.ulimit, now) == Min(RtscX2Y(v.ulimit, now), v.total)
      && r.myf == RtscY2X(r.ulimit, v.total)
  {
  }

  /** The class's own state at the start of its new period, from its state and its parent's. */
  function StartLs(l: Ls, cfg: Cfg, kp: Kids, now: u64): Ls {
    Ls(LimitVf(PeriodVf(l.vf, cfg.fsc, kp), cfg, now), l.kids.(vtperiod := l.kids.vtperiod + 1))
  }

  /**
   * The activation block for the class (l) and its parent's kids (kp):
   * the parent opens a new period when it had no active child, the class
   * gets its vt and starts its own new period, and it enters the parent's
   * vt tree under its vt and the cf tree under f = 0.
   */
  function Activated(l: Ls, cfg: Cfg, kp: Kids, last: Option<u64>, cl: ClassId, now: u64): (Ls, Kids) {
    var kp1 := if last.None? then NewPeriod(kp) else kp;
    var l1 := StartLs(l.(vf := l.vf.(vt := PlacedVt(l.vf, kp, last))), cfg, kp1, now);
    (l1, kp1.(vtTree := Update(kp1.vtTree, cl, l1.vf.vt), cfTree := Update(kp1.cfTree, cl, l1.vf.f)))
  }

  /**
   * What init_vf may do in one iteration: nothing outside the link-sharing
   * state of the class and its parent, no cl_total changed, the parent's
   * own state kept and its count of active children left to the next
   * iteration.
   */
  predicate InitFrame(s: Sched, r: Sched, cl: ClassId, p: ClassId)
    requires cl in s.ls && p in s.ls
  {
    && VfFrame(s, r)
    && (forall k :: k in s.ls && k != cl && k != p ==> r.ls[k] == s.ls[k])
    && r.ls[cl].vf.total == s.ls[cl].vf.total
    && r.ls[p].vf == s.ls[p].vf
    && r.ls[p].kids.nactive == s.ls[p].kids.nactive
  }

  lemma InitFrameTrans(a: Sched, b: Sched, c: Sched, cl: ClassId, p: ClassId)
    requires cl in a.ls && p in a.ls
    requires InitFrame(a, b, cl, p) && InitFrame(b, c, cl, p)
    ensures InitFrame(a, c, cl, p)
  {
  }

  /** The activation block of init_vf for a class whose first active child (or own packet) just arrived. */
  function Activate(s: Sched, cl: ClassId, p: ClassId, now: u64): Sched
    requires Edge(s, cl, p)
  {
    var a := Activated(s.ls[cl], s.classes[cl].cfg, s.ls[p].kids, LastVt(s, p), cl, now);
    s.(ls := s.ls[cl := a.0][p := s.ls[p].(kids := a.1)])
  }

  lemma ActivateFrame(s: Sched, cl: ClassId, p: ClassId, now: u64)
    requires Edge(s, cl, p)
    ensures InitFrame(s, Activate(s, cl, p, now), cl, p)
    ensures Activate(s, cl, p, now).ls[cl].kids.nactive == s.ls[cl].kids.nactive
  {
  }

  /**
   * The head of an init_vf iteration: with go_active set the class gains an
   * active child, and it is activated when that child is its first.
   */
  function Enter(s: Sched, cl: ClassId, p: ClassId, goActive: bool, now: u64): Sched
    requires Edge(s, cl, p)
  {
    if !goActive then s
    else if s.ls[cl].kids.nactive == 0 then Activate(SetNactive(s, cl, 1), cl, p, now)
    else SetNactive(s, cl, s.ls[cl].kids.nactive + 1)
  }

  lemma EnterFrame(s: Sched, cl: ClassId, p: ClassId, goActive: bool, now: u64)
    requires Edge(s, cl, p)
    ensures InitFrame(s, Enter(s, cl, p, goActive, now), cl, p)
    ensures Enter(s, cl, p, goActive, now).ls[cl].kids.nactive == s.ls[cl].kids.nactive + (if goActive then 1 else 0)
  {
    if goActive && s.ls[cl].kids.nactive == 0 {
      var s1 := SetNactive(s, cl, 1);
      ActivateFrame(s1, cl, p, now);
      InitFrameTrans(s, s1, Activate(s1, cl, p, now), cl, p);
    }
  }

  /** update_cfmin on the parent: cfmin is brought back to the smallest key of its cf tree. */
  function SyncCfMin(s: Sched, p: ClassId): (r: Sched)
    requires p in s.ls
    ensures VfFrame(s, r)
    ensures r.ls == s.ls[p := s.ls[p].(kids := s.ls[p].kids.(cfmin := CfMin(s.ls[p].kids.cfTree)))]
  {
    PutKids(s, p, s.ls[p].kids.(cfmin := CfMin(s.ls[p].kids.cfTree)))
  }

  /**
   * The tail of an init_vf iteration.  As written the parent's cfmin is
   * recomputed only when f changed; corrected, it is recomputed always, so
   * that a class entering the cf tree with f = 0 is seen in the parent's
   * cfmin.
   */
  function Finish(s: Sched, cl: ClassId, p: ClassId, corrected: bool): Sched
    requires cl in s.ls && p in s.ls && cl != p
  {
    if corrected then SyncCfMin(RefreshFit(s, cl, p), p) else RefreshFit(s, cl, p)
  }

  lemma FinishSpec(s: Sched, cl: ClassId, p: ClassId, corrected: bool)
    requires cl in s.ls && p in s.ls && cl != p
    ensures var r := Finish(s, cl, p, corrected);
      && InitFrame(s, r, cl, p)
      && r.ls[cl].kids == s.ls[cl].kids
      && r.ls[cl].vf.f == FitTime(s.ls[cl])
      && (corrected ==> r.ls[p].kids.cfmin == CfMin(r.ls[p].kids.cfTree))
  {
    VfFrameTrans(s, RefreshFit(s, cl, p), SyncCfMin(RefreshFit(s, cl, p), p));
  }

  /**
   * Activation leaves the class's myf and cfmin alone when it has no
   * upper-limit curve, and does not touch the parent's cfmin.
   */
  lemma ActivateKeepsFit(s: Sched, cl: ClassId, p: ClassId, now: u64)
    requires Edge(s, cl, p)
    ensures var r := Activate(s, cl, p, now);
      && (!s.classes[cl].cfg.hasUsc ==> r.ls[cl].vf.myf == s.ls[cl].vf.myf)
      && r.ls[cl].kids.cfmin == s.ls[cl].kids.cfmin
      && r.ls[p].kids.cfmin == s.ls[p].kids.cfmin
  {
  }

  /** One iteration of the init_vf loop; returns go_active for the parent. */
  function InitVfStep(s: Sched, cl: ClassId, p: ClassId, goActive: bool, now: u64, corrected: bool): (r: (Sched, bool))
    requires Edge(s, cl, p)
  {
    (Finish(Enter(s, cl, p, goActive, now), cl, p, corrected), goActive && s.ls[cl].kids.nactive == 0)
  }

  /** The init_vf loop from position i of the chain upwards. */
  function InitVfWalk(s: Sched, path: seq<ClassId>, i: nat, goActive: bool, now: u64, corrected: bool): Sched
    requires i <= |path|
    decreases |path| - i
  {
    if i + 1 >= |path| || !Edge(s, path[i], path[i + 1]) then s
    else
      var st := InitVfStep(s, path[i], path[i + 1], goActive, now, corrected);
      InitVfWalk(st.0, path, i + 1, st.1, now, corrected)
  }

  /**
   * init_vf as written: activate the class and, as long as each newly
   * active class is the first active child of its parent, the ancestors.
   * The upper-limit curve reads the clock, which is the parameter now.
   * It is the code's form in its cfmin update; its two rtsc_min calls use
   * the 64-bit slope difference (JoinCurve, LimitVf).
   */
  function InitVfAsWritten(s: Sched, h: ClassId, now: u64): Sched
    requires h in s.classes
  {
    InitVfWalk(s, Chain(s.classes, h), 0, true, now, false)
  }

  /** init_vf with the parent's cfmin recomputed in every iteration; the scheduler operations use this one. */
  function InitVf(s: Sched, h: ClassId, now: u64): Sched
    requires h in s.classes
  {
    InitVfWalk(s, Chain(s.classes, h), 0, true, now, true)
  }

  /**
   * One iteration of init_vf counts the new active child, hands go_active
   * on exactly when it was the class's first, and changes no cl_total.
   */
  lemma InitVfStepSpec(s: Sched, cl: ClassId, p: ClassId, goActive: bool, now: u64, corrected: bool)
    requires Edge(s, cl, p)
    ensures var r := InitVfStep(s, cl, p, goActive, now, corrected);
      && InitFrame(s, r.0, cl, p)
      && r.0.ls[cl].kids.nactive == s.ls[cl].kids.nactive + (if goActive then 1 else 0)
      && (r.1 <==> goActive && s.ls[cl].kids.nactive == 0)
      && r.0.ls[cl].vf.f == FitTime(r.0.ls[cl])
      && (corrected ==> r.0.ls[p].kids.cfmin == CfMin(r.0.ls[p].kids.cfTree))
  {
    var s1 := Enter(s, cl, p, goActive, now);
    EnterFrame(s, cl, p, goActive, now);
    FinishSpec(s1, cl, p, corrected);
    InitFrameTrans(s, s1, Finish(s1, cl, p, corrected), cl, p);
  }

  /** Activation puts the class into its parent's vt tree, under its vt, and keeps the tree ordered. */
  lemma ActivateVtTree(s: Sched, cl: ClassId, p: ClassId, now: u64)
    requires Edge(s, cl, p)
    ensures var r := Activate(s, cl, p, now);
      var t, t' := s.ls[p].kids.vtTree, r.ls[p].kids.vtTree;
      && Handles(t') == Handles(t) + {cl}
      && Entry(r.ls[cl].vf.vt, cl) in t'
      && (Sorted(t) ==> Sorted(t')) && (Distinct(t) ==> Distinct(t'))
  {
    var a := Activated(s.ls[cl], s.classes[cl].cfg, s.ls[p].kids, LastVt(s, p), cl, now);
    UpdateSpec(s.ls[p].kids.vtTree, cl, a.0.vf.vt);
  }

  /** Activation puts the class into its parent's cf tree under f = 0. */
  lemma ActivateCfTree(s: Sched, cl: ClassId, p: ClassId, now: u64)
    requires Edge(s, cl, p)
    ensures var r := Activate(s, cl, p, now);
      var t, t' := s.ls[p].kids.cfTree, r.ls[p].kids.cfTree;
      && Handles(t') == Handles(t) + {cl}
      && Entry(0, cl) in t'
      && (Sorted(t) ==> Sorted(t')) && (Distinct(t) ==> Distinct(t'))
  {
    var a := Activated(s.ls[cl], s.classes[cl].cfg, s.ls[p].kids, LastVt(s, p), cl, now);
    UpdateSpec(s.ls[p].kids.cfTree, cl, a.0.vf.f);
  }
  /**
   * A class that is in neither of its parent's trees, as a class going
   * from passive to active is not, is simply inserted into both, as the
   * C's vttree_insert and cftree_insert do.
   */
  lemma ActivateInserts(s: Sched, cl: ClassId, p: ClassId, now: u64)
    requires Edge(s, cl, p)
    requires cl !in Handles(s.ls[p].kids.vtTree) && cl !in Handles(s.ls[p].kids.cfTree)
    ensures var r := Activate(s, cl, p, now); var kp, kp' := s.ls[p].kids, r.ls[p].kids;
      && kp'.vtTree == Insert(kp.vtTree, Entry(r.ls[cl].vf.vt, cl))
      && kp'.cfTree == Insert(kp.cfTree, Entry(r.ls[cl].vf.f, cl))
  {
    var a := Activated(s.ls[cl], s.classes[cl].cfg, s.ls[p].kids, LastVt(s, p), cl, now);
    UpdateAbsent(s.ls[p].kids.vtTree, cl, a.0.vf.vt);
    UpdateAbsent(s.ls[p].kids.cfTree, cl, a.0.vf.f);
  }


  /** The activated class starts with vtadj and f at 0 and the period numbers advanced. */
  lemma ActivateReset(s: Sched, cl: ClassId, p: ClassId, now: u64)
    requires Edge(s, cl, p)
    ensures var r := Activate(s, cl, p, now);
      var l, kp, v' := s.ls[cl], s.ls[p].kids, r.ls[cl].vf;
      && v'.f == 0 && v'.vtadj == 0
      && v'.parentperiod == kp.vtperiod + (if kp.nactive == 0 then 1 else 0)
      && r.ls[cl].kids.vtperiod == l.kids.vtperiod + 1
  {
  }

  /**
   * The activated class starts its vt from 0 in a new parent period, with
   * the parent's cvtoff moved past the last period, and from the siblings'
   * vt otherwise.
   */
  lemma ActivateVt(s: Sched, cl: ClassId, p: ClassId, now: u64)
    requires Edge(s, cl, p)
    ensures var r := Activate(s, cl, p, now);
      var kp, kp', v' := s.ls[p].kids, r.ls[p].kids, r.ls[cl].vf;
      && (|kp.vtTree| == 0 ==>
            v'.vt == 0 && Wrap64(kp'.cvtoff - kp.cvtoff) == kp.cvtmax && kp'.cvtmax == 0 && kp'.cvtmin == 0)
      && (|kp.vtTree| > 0 ==>
            v'.vt == JoinVt(s.ls[cl].vf, kp, VtOf(s)(kp.vtTree[|kp.vtTree| - 1].cl)) && kp'.cvtoff == kp.cvtoff)
  {
  }

  /** A step of init_vf keeps the set of classes and every cl_total. */
  lemma InitStepTotals(s: Sched, cl: ClassId, p: ClassId, goActive: bool, now: u64, corrected: bool)
    requires Edge(s, cl, p)
    ensures var r := InitVfStep(s, cl, p, goActive, now, corrected).0;
      && VfFrame(s, r)
      && forall k :: k in s.ls ==> r.ls[k].vf.total == s.ls[k].vf.total
  {
    InitVfStepSpec(s, cl, p, goActive, now, corrected);
  }

  /** The init_vf walk changes nothing outside the link-sharing state and no cl_total. */
  lemma {:induction false} InitVfWalkTotals(s: Sched, path: seq<ClassId>, i: nat, goActive: bool, now: u64, corrected: bool)
    requires i <= |path|
    decreases |path| - i
    ensures var r := InitVfWalk(s, path, i, goActive, now, corrected);
      && VfFrame(s, r)
      && forall k :: k in s.ls ==> r.ls[k].vf.total == s.ls[k].vf.total
  {
    if i + 1 < |path| && Edge(s, path[i], path[i + 1]) {
      var st := InitVfStep(s, path[i], path[i + 1], goActive, now, corrected);
      InitStepTotals(s, path[i], path[i + 1], goActive, now, corrected);
      InitVfWalkTotals(st.0, path, i + 1, st.1, now, corrected);
      VfFrameTrans(s, st.0, InitVfWalk(st.0, path, i + 1, st.1, now, corrected));
    }
  }

  /**
   * init_vf activates classes without charging any service: every cl_total
   * is what it was, and nothing outside the link-sharing state changes.
   */
  lemma InitVfTotals(s: Sched, h: ClassId, now: u64)
    requires h in s.classes
    ensures var r := InitVf(s, h, now);
      && VfFrame(s, r)
      && forall k :: k in s.ls ==> r.ls[k].vf.total == s.ls[k].vf.total
  {
    InitVfWalkTotals(s, Chain(s.classes, h), 0, true, now, true);
  }

  /**
   * A leaf without an upper-limit curve (myf 0) that becomes active enters
   * its parent's cf tree with f = 0.  Its f does not change in the closing
   * block, so as written the parent's cfmin is not recomputed: it keeps its
   * old, larger value although the cf tree now starts at 0.  With the
   * correction it is 0.
   */
  lemma InitVfStaleCfMin(s: Sched, cl: ClassId, p: ClassId, now: u64)
    requires Edge(s, cl, p)
    requires s.ls[cl].kids.nactive == 0 && s.ls[cl].kids.cfmin == 0
    requires !s.classes[cl].cfg.hasUsc && s.ls[cl].vf.myf == 0
    requires var kp := s.ls[p].kids; Sorted(kp.cfTree) && kp.cfmin == CfMin(kp.cfTree) > 0
    ensures var r := InitVfStep(s, cl, p, true, now, false).0;
      r.ls[p].kids.cfmin == s.ls[p].kids.cfmin > 0 && CfMin(r.ls[p].kids.cfTree) == 0
    ensures InitVfStep(s, cl, p, true, now, true).0.ls[p].kids.cfmin == 0
  {
    var s1 := SetNactive(s, cl, 1);
    var a := Activate(s1, cl, p, now);
    ActivateCfTree(s1, cl, p, now);
    ActivateReset(s1, cl, p, now);
    ActivateKeepsFit(s1, cl, p, now);
    assert FitTime(a.ls[cl]) == a.ls[cl].vf.f;
    assert RefreshFit(a, cl, p) == a;
    var t := a.ls[p].kids.cfTree;
    assert CfMin(t) <= 0;
  }

  /** The closing block moves the class within the parent's cf tree at most; the sets of classes in both trees stay. */
  lemma FinishTrees(s: Sched, cl: ClassId, p: ClassId, corrected: bool)
    requires cl in s.ls && p in s.ls && cl != p
    requires cl in Handles(s.ls[p].kids.cfTree)
    ensures var r := Finish(s, cl, p, corrected);
      && r.ls[p].kids.vtTree == s.ls[p].kids.vtTree
      && Handles(r.ls[p].kids.cfTree) == Handles(s.ls[p].kids.cfTree)
  {
    UpdateSpec(s.ls[p].kids.cfTree, cl, FitTime(s.ls[cl]));
  }

  /** A class's first activation adds it to both of the parent's trees. */
  lemma InitVfStepTrees(s: Sched, cl: ClassId, p: ClassId, now: u64, corrected: bool)
    requires Edge(s, cl, p) && s.ls[cl].kids.nactive == 0
    ensures var r := InitVfStep(s, cl, p, true, now, corrected).0;
      && Handles(r.ls[p].kids.vtTree) == Handles(s.ls[p].kids.vtTree) + {cl}
      && Handles(r.ls[p].kids.cfTree) == Handles(s.ls[p].kids.cfTree) + {cl}
  {
    var s1 := SetNactive(s, cl, 1);
    ActivateVtTree(s1, cl, p, now);
    ActivateCfTree(s1, cl, p, now);
    FinishTrees(Activate(s1, cl, p, now), cl, p, corrected);
  }

  /**
   * update_vf on a class whose one active child has just gone passive:
   * the class is counted out, leaves both of the parent's trees and hands
   * go_passive on.
   */
  lemma PassiveStepLeaves(s: Sched, cl: ClassId, p: ClassId, len: u32)
    requires Edge(s, cl, p) && s.classes[cl].cfg.hasFsc && s.ls[cl].kids.nactive == 1
    ensures var b := UpdateVfStep(s, cl, p, len, true);
      && b.1
      && b.0.ls[cl].kids.nactive == 0
      && Handles(b.0.ls[p].kids.vtTree) == Handles(s.ls[p].kids.vtTree) - {cl}
      && Handles(b.0.ls[p].kids.cfTree) == Handles(s.ls[p].kids.cfTree) - {cl}
      && b.0.ls[cl].vf.total == Wrap64(s.ls[cl].vf.total + len)
  {
    LeaveSpec(s.ls[p].kids, cl, s.ls[cl].vf.vt);
  }

  /**
   * init_vf and update_vf undo each other on a class's membership: a class
   * that becomes active through its first child and is then charged for
   * that child's last packet, which leaves the child empty, is counted out
   * again, leaves both of the parent's trees and passes go_passive on, so
   * that the parent sees the same set of active children as before.
   */
  lemma ActivateThenPassive(s: Sched, cl: ClassId, p: ClassId, now: u64, len: u32)
    requires Edge(s, cl, p) && s.classes[cl].cfg.hasFsc && s.ls[cl].kids.nactive == 0
    requires cl !in Handles(s.ls[p].kids.vtTree) && cl !in Handles(s.ls[p].kids.cfTree)
    ensures var a := InitVfStep(s, cl, p, true, now, true);
      && a.1 && Edge(a.0, cl, p)
      && var b := UpdateVfStep(a.0, cl, p, len, true);
      && b.1
      && b.0.ls[cl].kids.nactive == 0
      && Handles(b.0.ls[p].kids.vtTree) == Handles(s.ls[p].kids.vtTree)
      && Handles(b.0.ls[p].kids.cfTree) == Handles(s.ls[p].kids.cfTree)
      && b.0.ls[cl].vf.total == Wrap64(s.ls[cl].vf.total + len)
  {
    var a := InitVfStep(s, cl, p, true, now, true);
    InitVfStepSpec(s, cl, p, true, now, true);
    InitVfStepTrees(s, cl, p, now, true);
    PassiveStepLeaves(a.0, cl, p, len);
  }
}

=== FILE: index.dfy ===
/**
 * The three ordered indexes of the scheduler (eligible tree, vt tree, cf tree).
 *
 * Each is a red-black tree in the C code; here it is the in-order sequence of
 * its nodes, an entry being the sort key together with the class it stands
 * for.  The insertion walk of eltree_insert / vttree_insert / cftree_insert
 * goes right on `key >= node key`, so a new entry lands after every entry
 * with an equal key.
 */
module Index {
  import opened Fixed
  import opened Wrappers

  /** Classes are identified by their 32-bit class id. */
  type Handle = u32

  datatype Entry = Entry(key: u64, cl: Handle)

  predicate Sorted(s: seq<Entry>) {
    forall i, j :: 0 <= i < j < |s| ==> s[i].key <= s[j].key
  }

  /** The classes that have a node in the tree. */
  function Handles(s: seq<Entry>): set<Handle> {
    if |s| == 0 then {} else {s[0].cl} + Handles(s[1..])
  }

  /** No class occurs twice: a class has one node per tree. */
  predicate Distinct(s: seq<Entry>) {
    |s| == 0 || (s[0].cl !in Handles(s[1..]) && Distinct(s[1..]))
  }

  lemma HandlesMembership(s: seq<Entry>, h: Handle)
    ensures h in Handles(s) <==> exists e :: e in s && e.cl == h
  {
    if |s| > 0 {
      HandlesMembership(s[1..], h);
      assert forall e :: e in s <==> e == s[0] || e in s[1..];
    }
  }

  /** The number of entries the insertion walk passes on its left: those with a key <= k. */
  function InsertPos(s: seq<Entry>, k: u64): (p: nat)
    requires Sorted(s)
    ensures p <= |s|
    ensures forall i :: 0 <= i < p ==> s[i].key <= k
    ensures forall i :: p <= i < |s| ==> s[i].key > k
  {
    if |s| == 0 || s[0].key > k then 0 else 1 + InsertPos(s[1..], k)
  }

  lemma SortedCons(x: Entry, t: seq<Entry>)
    requires Sorted(t)
    requires forall y :: y in t ==> x.key <= y.key
    ensures Sorted([x] + t)
  {
    forall i, j | 0 <= i < j < |[x] + t| ensures ([x] + t)[i].key <= ([x] + t)[j].key {
      if i > 0 {
        assert ([x] + t)[i] == t[i - 1] && ([x] + t)[j] == t[j - 1];
      } else {
        assert ([x] + t)[j] == t[j - 1];
        assert t[j - 1] in t;
      }
    }
  }

  /** *_insert: link the entry after every entry whose key is not larger. */
  function Insert(s: seq<Entry>, e: Entry): seq<Entry> {
    if |s| == 0 || s[0].key > e.key then [e] + s
    else [s[0]] + Insert(s[1..], e)
  }

  /** Insertion adds exactly the entry. */
  lemma {:induction false} InsertMultiset(s: seq<Entry>, e: Entry)
    ensures multiset(Insert(s, e)) == multiset(s) + multiset{e}
  {
    if |s| > 0 && s[0].key <= e.key {
      InsertMultiset(s[1..], e);
      assert s == [s[0]] + s[1..];
    }
  }

  /** Insertion keeps the tree ordered. */
  lemma {:induction false} InsertSorted(s: seq<Entry>, e: Entry)
    requires Sorted(s)
    ensures Sorted(Insert(s, e))
  {
    if |s| == 0 || s[0].key > e.key {
      SortedCons(e, s);
    } else {
      var rest := Insert(s[1..], e);
      InsertSorted(s[1..], e);
      InsertMultiset(s[1..], e);
      forall x | x in rest ensures s[0].key <= x.key {
        assert x in multiset(rest);
        if x != e {
          assert x in multiset(s[1..]);
          var j :| 0 <= j < |s[1..]| && s[1..][j] == x;
          assert s[j + 1] == x;
        }
      }
      SortedCons(s[0], rest);
    }
  }

  lemma InsertSpec(s: seq<Entry>, e: Entry)
    ensures multiset(Insert(s, e)) == multiset(s) + multiset{e}
    ensures Sorted(s) ==> Sorted(Insert(s, e))
  {
    InsertMultiset(s, e);
    if Sorted(s) {
      InsertSorted(s, e);
    }
  }

  /** The new entry sits right after the last entry whose key is <= its own. */
  lemma {:induction false} InsertPlacement(s: seq<Entry>, e: Entry)
    requires Sorted(s)
    ensures Insert(s, e) == s[..InsertPos(s, e.key)] + [e] + s[InsertPos(s, e.key)..]
  {
    if |s| > 0 && s[0].key <= e.key {
      InsertPlacement(s[1..], e);
      assert s[..InsertPos(s, e.key)] == [s[0]] + s[1..][..InsertPos(s[1..], e.key)];
      assert s[InsertPos(s, e.key)..] == s[1..][InsertPos(s[1..], e.key)..];
    }
  }

  lemma HandlesCons(x: Entry, t: seq<Entry>)
    ensures Handles([x] + t) == {x.cl} + Handles(t)
  {
    assert ([x] + t)[1..] == t;
  }

  lemma {:induction false} InsertHandles(s: seq<Entry>, e: Entry)
    ensures Handles(Insert(s, e)) == Handles(s) + {e.cl}
  {
    if |s| == 0 || s[0].key > e.key {
      HandlesCons(e, s);
    } else {
      InsertHandles(s[1..], e);
      HandlesCons(s[0], Insert(s[1..], e));
    }
  }

  lemma InsertDistinct(s: seq<Entry>, e: Entry)
    ensures Distinct(s) && e.cl !in Handles(s) ==> Distinct(Insert(s, e))
  {
    if |s| > 0 && s[0].key <= e.key && Distinct(s) && e.cl !in Handles(s) {
      InsertDistinct(s[1..], e);
      InsertHandles(s[1..], e);
      assert Insert(s, e)[1..] == Insert(s[1..], e);
    }
  }

  /** *_remove: unlink the class's entries, keeping the order of the others. */
  function Remove(s: seq<Entry>, h: Handle): seq<Entry> {
    if |s| == 0 then []
    else if s[0].cl == h then Remove(s[1..], h)
    else [s[0]] + Remove(s[1..], h)
  }

  /** Removal keeps exactly the entries of other classes. */
  lemma {:induction false} RemoveMembers(s: seq<Entry>, h: Handle)
    ensures forall e :: e in Remove(s, h) <==> e in s && e.cl != h
  {
    if |s| > 0 {
      RemoveMembers(s[1..], h);
      assert s == [s[0]] + s[1..];
    }
  }

  lemma {:induction false} RemoveSorted(s: seq<Entry>, h: Handle)
    ensures Sorted(s) ==> Sorted(Remove(s, h))
  {
    if |s| > 0 && Sorted(s) {
      RemoveSorted(s[1..], h);
      RemoveMembers(s[1..], h);
      var rest := Remove(s[1..], h);
      if s[0].cl != h {
        forall x | x in rest ensures s[0].key <= x.key {
          var j :| 0 <= j < |s[1..]| && s[1..][j] == x;
          assert s[j + 1] == x;
        }
        SortedCons(s[0], rest);
      }
    }
  }

  /** Removal takes exactly the class out of the handle set and leaves a tree without it untouched. */
  lemma {:induction false} RemoveSpec(s: seq<Entry>, h: Handle)
    ensures Handles(Remove(s, h)) == Handles(s) - {h}
    ensures h !in Handles(s) ==> Remove(s, h) == s
    ensures Distinct(s) ==> Distinct(Remove(s, h))
  {
    if |s| > 0 {
      RemoveSpec(s[1..], h);
    }
  }

  /** *_update: remove the class and insert it again under its new key. */
  function Update(s: seq<Entry>, h: Handle, k: u64): seq<Entry> {
    Insert(Remove(s, h), Entry(k, h))
  }

  /** After an update the class has exactly one entry, under the new key, and the others are kept. */
  lemma UpdateSpec(s: seq<Entry>, h: Handle, k: u64)
    ensures Handles(Update(s, h, k)) == Handles(s) + {h}
    ensures Distinct(s) ==> Distinct(Update(s, h, k))
    ensures forall e :: e in Update(s, h, k) <==> e == Entry(k, h) || (e in s && e.cl != h)
    ensures Sorted(s) ==> Sorted(Update(s, h, k))
  {
    var s' := Remove(s, h);
    RemoveSpec(s, h);
    RemoveMembers(s, h);
    RemoveSorted(s, h);
    InsertSpec(s', Entry(k, h));
    InsertHandles(s', Entry(k, h));
    InsertDistinct(s', Entry(k, h));
    var r := Insert(s', Entry(k, h));
    assert r == Update(s, h, k);
    forall e ensures e in r <==> e == Entry(k, h) || e in s'
    {
      assert e in r <==> e in multiset(r);
      assert e in s' <==> e in multiset(s');
    }
  }

  /** Removing the class right after inserting it gives back the tree it was inserted into. */
  lemma {:induction false} RemoveInsert(s: seq<Entry>, e: Entry)
    requires e.cl !in Handles(s)
    ensures Remove(Insert(s, e), e.cl) == s
  {
    if |s| == 0 || s[0].key > e.key {
      RemoveSpec(s, e.cl);
      assert ([e] + s)[1..] == s;
    } else {
      RemoveInsert(s[1..], e);
      assert s == [s[0]] + s[1..];
      assert ([s[0]] + Insert(s[1..], e))[1..] == Insert(s[1..], e);
    }
  }

  /**
   * For a class that has no entry yet, *_update does what *_insert does:
   * re-keying an absent class is linking it in.
   */
  lemma UpdateAbsent(s: seq<Entry>, h: Handle, k: u64)
    requires h !in Handles(s)
    ensures Update(s, h, k) == Insert(s, Entry(k, h))
  {
    RemoveSpec(s, h);
  }

  /** Updating a class to the key it already has changes nothing. */
  lemma UpdateIdempotent(s: seq<Entry>, h: Handle, k: u64)
    ensures Update(Update(s, h, k), h, k) == Update(s, h, k)
  {
    RemoveSpec(s, h);
    RemoveInsert(Remove(s, h), Entry(k, h));
  }

  /** rb_first: the entry with the smallest key. */
  function First(s: seq<Entry>): (r: Option<Entry>)
    ensures r.None? <==> |s| == 0
    ensures r.Some? ==> r.value in s
  {
    if |s| == 0 then None else Some(s[0])
  }

  /** In an ordered tree the first entry has the smallest key. */
  lemma FirstSmallest(s: seq<Entry>)
    requires Sorted(s) && |s| > 0
    ensures forall e :: e in s ==> First(s).value.key <= e.key
  {
    forall e | e in s ensures s[0].key <= e.key {
      var i :| 0 <= i < |s| && s[i] == e;
    }
  }

  /** rb_last: the entry with the largest key. */
  function Last(s: seq<Entry>): (r: Option<Entry>)
    ensures r.None? <==> |s| == 0
    ensures r.Some? ==> r.value in s
  {
    if |s| == 0 then None else Some(s[|s| - 1])
  }

  /** In an ordered tree the last entry has the largest key. */
  lemma LastLargest(s: seq<Entry>)
    requires Sorted(s) && |s| > 0
    ensures forall e :: e in s ==> e.key <= Last(s).value.key
  {
    forall e | e in s ensures e.key <= s[|s| - 1].key {
      var i :| 0 <= i < |s| && s[i] == e;
    }
  }

  /**
   * eltree_get_mindl: scanning in key order while key <= now, the first entry
   * with a strictly smaller dl than every entry before it.
   */
  function MinDl(s: seq<Entry>, now: u64, dl: Handle -> u64): (r: Option<Entry>)
  {
    if |s| == 0 || s[0].key > now then None
    else
      var rest := MinDl(s[1..], now, dl);
      if rest.Some? && dl(rest.value.cl) < dl(s[0].cl) then rest else Some(s[0])
  }

  /**
   * Among the entries already eligible (key <= now) MinDl picks one with the
   * smallest dl, and it finds none only when no entry is eligible.  Of
   * several eligible entries with that smallest dl it picks the first in key
   * order: every entry before it has a strictly larger dl.
   */
  lemma {:induction false} MinDlSpec(s: seq<Entry>, now: u64, dl: Handle -> u64)
    requires Sorted(s)
    ensures MinDl(s, now, dl).None? <==> forall e :: e in s ==> e.key > now
    ensures MinDl(s, now, dl).Some? ==>
      var m := MinDl(s, now, dl).value;
      m in s && m.key <= now && forall e :: e in s && e.key <= now ==> dl(m.cl) <= dl(e.cl)
    ensures MinDl(s, now, dl).Some? ==>
      exists i :: 0 <= i < |s| && s[i] == MinDl(s, now, dl).value &&
        forall j :: 0 <= j < i ==> dl(s[j].cl) > dl(s[i].cl)
  {
    if |s| > 0 {
      assert s == [s[0]] + s[1..];
      var t := s[1..];
      assert Sorted(t);
      if s[0].key > now {
        forall e | e in s ensures e.key > now {
          var i :| 0 <= i < |s| && s[i] == e;
        }
      } else {
        MinDlSpec(t, now, dl);
        var m := MinDl(s, now, dl).value;
        assert m == s[0] || m in t;
        forall e | e in s && e.key <= now ensures dl(m.cl) <= dl(e.cl) {
          if e != s[0] { assert e in t; }
        }
      }
    }
    MinDlEarliest(s, now, dl);
  }

  /** What MinDl returns is at some index i, and every entry before i has a strictly larger dl. */
  lemma {:induction false} MinDlEarliest(s: seq<Entry>, now: u64, dl: Handle -> u64)
    ensures MinDl(s, now, dl).Some? ==>
      exists i :: 0 <= i < |s| && s[i] == MinDl(s, now, dl).value &&
        forall j :: 0 <= j < i ==> dl(s[j].cl) > dl(s[i].cl)
  {
    if |s| > 0 && s[0].key <= now {
      var t := s[1..];
      MinDlEarliest(t, now, dl);
      var m := MinDl(s, now, dl).value;
      if m != s[0] {
        var i :| 0 <= i < |t| && t[i] == m && forall j :: 0 <= j < i ==> dl(t[j].cl) > dl(t[i].cl);
        assert s[i + 1] == m;
        forall j | 0 <= j < i + 1 ensures dl(s[j].cl) > dl(s[i + 1].cl) {
          if j > 0 { assert s[j] == t[j - 1]; }
        }
      } else {
        assert s[0] == m;
      }
    }
  }

  /** vttree_firstfit: in key order, the first entry whose class fits (fit <= now). */
  function FirstFit(s: seq<Entry>, now: u64, fit: Handle -> u64): (r: Option<Entry>)
  {
    if |s| == 0 then None
    else if fit(s[0].cl) <= now then Some(s[0])
    else FirstFit(s[1..], now, fit)
  }

  /** FirstFit finds the fitting entry with the smallest key, and none only when nothing fits;
    * among fitting entries with equal keys it is the earliest in the index. */
  lemma {:induction false} FirstFitSpec(s: seq<Entry>, now: u64, fit: Handle -> u64)
    requires Sorted(s)
    ensures FirstFit(s, now, fit).None? <==> forall e :: e in s ==> fit(e.cl) > now
    ensures FirstFit(s, now, fit).Some? ==>
      var m := FirstFit(s, now, fit).value;
      m in s && fit(m.cl) <= now && forall e :: e in s && fit(e.cl) <= now ==> m.key <= e.key
    ensures FirstFit(s, now, fit).Some? ==>
      exists i :: 0 <= i < |s| && s[i] == FirstFit(s, now, fit).value &&
        forall j :: 0 <= j < i ==> fit(s[j].cl) > now
  {
    FirstFitEarliest(s, now, fit);
    if |s| > 0 {
      assert forall e :: e in s <==> e == s[0] || e in s[1..] by {
        assert s == [s[0]] + s[1..];
      }
      FirstFitSpec(s[1..], now, fit);
      if fit(s[0].cl) <= now {
        forall e | e in s ensures s[0].key <= e.key {
          var i :| 0 <= i < |s| && s[i] == e;
        }
      }
    }
  }

  /** What FirstFit returns is at some index i, and no entry before i fits. */
  lemma {:induction false} FirstFitEarliest(s: seq<Entry>, now: u64, fit: Handle -> u64)
    ensures FirstFit(s, now, fit).Some? ==>
      exists i :: 0 <= i < |s| && s[i] == FirstFit(s, now, fit).value &&
        forall j :: 0 <= j < i ==> fit(s[j].cl) > now
  {
    if |s| > 0 && fit(s[0].cl) > now {
      var t := s[1..];
      FirstFitEarliest(t, now, fit);
      if FirstFit(t, now, fit).Some? {
        var i :| 0 <= i < |t| && t[i] == FirstFit(t, now, fit).value &&
          forall j :: 0 <= j < i ==> fit(t[j].cl) > now;
        assert s[i + 1] == t[i];
        forall j | 0 <= j < i + 1 ensures fit(s[j].cl) > now {
          if j > 0 { assert s[j] == t[j - 1]; }
        }
      }
    } else if |s| > 0 {
      assert s[0] == FirstFit(s, now, fit).value;
    }
  }
}

=== FILE: nf_log.dfy ===
/**
 * The per-protocol-family logger registry of netfilter: a table of NPROTO
 * slots, each empty or holding one logger backend.
 */
module NfLog {
  import opened Wrappers
  import opened Errno

  /** Number of protocol families (the size of the registry table). */
  const NPROTO: nat := 32

  /** A logger backend, identified as the C code identifies it: by address. */
  datatype Logger = Logger(addr: nat)

  /** The registry: slot pf holds the logger for protocol family pf, or nothing. */
  type Table = seq<Option<Logger>>

  predicate WellSized(t: Table) {
    |t| == NPROTO
  }

  /** The empty registry the module starts with. */
  function Empty(): (t: Table)
    ensures WellSized(t) && forall pf :: 0 <= pf < |t| ==> t[pf].None?
  {
    seq(NPROTO, _ => None)
  }

  /**
   * nf_log_register: a family beyond the table is -EINVAL; an empty slot
   * takes the logger; an occupied slot is -EEXIST when it already holds
   * this logger and -EBUSY otherwise.
   */
  function Register(t: Table, pf: nat, lg: Logger): (r: (int, Table))
    requires WellSized(t)
    ensures WellSized(r.1)
    ensures pf >= NPROTO ==> r == (-EINVAL, t)
    ensures pf < NPROTO && t[pf].None? ==> r == (0, t[pf := Some(lg)])
    ensures pf < NPROTO && t[pf] == Some(lg) ==> r == (-EEXIST, t)
    ensures pf < NPROTO && t[pf].Some? && t[pf] != Some(lg) ==> r == (-EBUSY, t)
    ensures r.0 == 0 <==> pf < NPROTO && t[pf].None?
  {
    if pf >= NPROTO then (-EINVAL, t)
    else if t[pf].None? then (0, t[pf := Some(lg)])
    else if t[pf] == Some(lg) then (-EEXIST, t)
    else (-EBUSY, t)
  }

  /** nf_log_unregister_pf: slot pf is emptied; a family beyond the table is -EINVAL. */
  function UnregisterPf(t: Table, pf: nat): (r: (int, Table))
    requires WellSized(t)
    ensures WellSized(r.1)
    ensures pf >= NPROTO ==> r == (-EINVAL, t)
    ensures pf < NPROTO ==> r.0 == 0 && r.1[pf].None?
    ensures forall i :: 0 <= i < NPROTO && i != pf ==> r.1[i] == t[i]
  {
    if pf >= NPROTO then (-EINVAL, t) else (0, t[pf := None])
  }

  /** The table with every slot that holds lg emptied. */
  function Without(t: Table, lg: Logger): Table {
    seq(|t|, i requires 0 <= i < |t| => if t[i] == Some(lg) then None else t[i])
  }

  /**
   * nf_log_unregister_logger: every slot holding the logger is emptied, and
   * the other slots keep what they hold.
   */
  method UnregisterLogger(t: Table, lg: Logger) returns (r: Table)
    requires WellSized(t)
    ensures r == Without(t, lg)
    ensures WellSized(r)
    ensures forall i :: 0 <= i < NPROTO ==> r[i] != Some(lg)
    ensures forall i :: 0 <= i < NPROTO && t[i] != Some(lg) ==> r[i] == t[i]
    ensures forall i :: 0 <= i < NPROTO && t[i] == Some(lg) ==> r[i].None?
  {
    r := t;
    var i := 0;
    while i < NPROTO
      invariant 0 <= i <= NPROTO && |r| == NPROTO
      invariant forall j :: 0 <= j < i ==> r[j] != Some(lg)
      invariant forall j :: 0 <= j < NPROTO && t[j] != Some(lg) ==> r[j] == t[j]
      invariant forall j :: i <= j < NPROTO ==> r[j] == t[j]
      invariant forall j :: 0 <= j < i && t[j] == Some(lg) ==> r[j].None?
    {
      if r[i] == Some(lg) {
        r := r[i := None];
      }
      i := i + 1;
    }
  }

  /**
   * nf_log_packet's choice: the logger registered for the family is called
   * when there is one; otherwise nothing is called (a rate-limited warning
   * is printed).
   */
  function Dispatch(t: Table, pf: nat): (r: Option<Logger>)
    requires WellSized(t) && pf < NPROTO
    ensures r.Some? <==> t[pf].Some?
    ensures r.Some? ==> Some(r.value) == t[pf]
  {
    t[pf]
  }

  /** A successful registration is what the family's packets are then logged with. */
  lemma RegisterThenDispatch(t: Table, pf: nat, lg: Logger)
    requires WellSized(t) && pf < NPROTO
    ensures var r := Register(t, pf, lg);
      r.0 == 0 ==> Dispatch(r.1, pf) == Some(lg)
    ensures var r := Register(t, pf, lg);
      forall q :: 0 <= q < NPROTO && q != pf ==> Dispatch(r.1, q) == Dispatch(t, q)
  {
  }

  /** Registering the same logger twice: the second call is -EEXIST and changes nothing. */
  lemma RegisterTwice(t: Table, pf: nat, lg: Logger)
    requires WellSized(t) && pf < NPROTO
    ensures var r1 := Register(t, pf, lg); var r2 := Register(r1.1, pf, lg);
      r1.0 == 0 ==> r2 == (-EEXIST, r1.1)
  {
  }

  /** Unregistering the family undoes a successful registration. */
  lemma RegisterThenUnregisterPf(t: Table, pf: nat, lg: Logger)
    requires WellSized(t) && pf < NPROTO
    requires Register(t, pf, lg).0 == 0
    ensures UnregisterPf(Register(t, pf, lg).1, pf) == (0, t)
  {
    assert Register(t, pf, lg).1[pf := None] == t;
  }

  /**
   * Unregistering the logger (which leaves the table Without it) also undoes
   * a successful registration, when the logger held no other slot.
   */
  lemma RegisterThenUnregisterLogger(t: Table, pf: nat, lg: Logger)
    requires WellSized(t) && pf < NPROTO
    requires forall i :: 0 <= i < NPROTO ==> t[i] != Some(lg)
    ensures var r := Without(Register(t, pf, lg).1, lg);
      && WellSized(r)
      && (Register(t, pf, lg).0 == 0 ==> r == t)
      && forall q :: 0 <= q < NPROTO ==> Dispatch(r, q) != Some(lg)
  {
    var reg := Register(t, pf, lg);
    var r := Without(reg.1, lg);
    if reg.0 == 0 {
      assert forall i :: 0 <= i < NPROTO ==> r[i] == t[i];
    }
  }
}

=== FILE: wrappers.dfy ===
/** Option and Result types shared by every module of the model. */
module Wrappers {

  /** A value that may be absent (a NULL pointer in the C code). */
  datatype Option<+T> = None | Some(value: T)

  /** A negative-errno style outcome: a value, or an error code. */
  datatype Result<+T> = Ok(value: T) | Err(code: int)
}
